=== FILE: README.md ===
# Inventory pipeline: a Dafny model

This project models the core of a Windows hardware/software inventory
system. An agent runs on each workstation and collects a snapshot
(identification, operating system, processor, memory, network, disks,
installed software). It validates the snapshot, wraps it in a payload
stamped with its clock, and POSTs it to a Flask server with a bounded,
linearly backed-off retry loop. If the send fails it keeps a local backup.

The server normalises the snapshot into a flat record. It upserts the
record into a MySQL table keyed by machine name. From the stored
last-update time it derives two flags for the dashboard:
- `online`: last seen within five minutes.
- `em_compliance`: reported in the current calendar month.

Deleting a machine reports how many whole days it had been inactive.

## Modules

Each module is one file.

**Base** (`base.dfy`)
- `Option`, `Result` and the Python exceptions that matter (`PyError`).
- Digit strings and zero padding.
- Python's `str.isspace`/`str.strip`.
- `IndexOf`, subsequences and `Filter`.

**Json** (`json.dfy`)
- Decoded JSON as Python sees it: dicts are ordered key/value sequences.
- `dict.get`, truthiness, iteration, and `str()` of a value.

**Time** (`time.dfy`)
- Naive `datetime` values and the instant they denote, in microseconds.
- `isoformat()` and `str()`.
- The subset of `fromisoformat` the pipeline meets.
- `strftime("%Y-%m")`.

**Normalizer** (`normalizer.dfy`)
- `process_agent_data` of `backend/app.py`.

**Status** (`status.dfy`)
- `check_monthly_compliance`.
- The `online` flag.
- `days_inactive`.
- The reference month.

**Store** (`store.dfy`)
- `DatabaseManager` over an in-memory table: a map from id to row, plus the auto-increment counter.
- Upsert, lookups, delete, and the `ORDER BY ultima_atualizacao DESC` listing.

**Server** (`server.dfy`)
- The routes `save_inventory`, `machines_dashboard`, `get_machine` and `delete_machine`, as functions of the table, the request and the server clock.

**AgentUtils** (`agent_utils.dfy`)
- `validate_data`, whether `print_summary` raises, `clean_string`, the unit choice of `format_file_size`, the office-hours rule and the domain-name rules of `agent/utils.py`.

**Collector** (`collector.dfy`)
- The pure parts of `agent/collector.py`:
  - the drive-type table;
  - the install-date reformat and the software name filter;
  - the memory-module fold;
  - the merge of WMI logical disks into the psutil partition list;
  - the BIOS release-date slice and its `strptime`.

**Agent** (`agent.dfy`)
- `send_to_api` with the network as an input.
- The payload of `main`.
- The configuration as the JSON value `get_config_from_file` returns, with the `KeyError` or `TypeError` each setting can raise, and the default configuration.
- The backup decision and the exit code of `main`, including the exit through the outer handler when a setting raises.

## Behaviour worth noting

- The OS string is `f"{nome} {versao}"` and is not trimmed, so a missing version leaves a trailing space (`backend/app.py:302`). `Normalizer.OsHasSeparator` states exactly that.
- `data_coleta` is rewritten on every save, updates included (`backend/database.py:77`).
- The dashboard renders both datetimes with `str()`, which puts a space between date and time and writes a NULL as `"None"` (`backend/app.py:166,171`).
- One uninstall subkey that `OpenKey` refuses ends the enumeration of its path, so every program listed after it is missing from the inventory (`agent/collector.py:71-73,107-108`). `Collector.RefusedKeyHidesLater` states this.
- With no `timeout` setting, every attempt raises before `requests.post` is called, so nothing is sent, yet the back-off sleeps still happen (`agent/agent.py:45-49,63-69`). `Agent.SendWithConfig` states this.

## Model

| member | source | states |
|---|---|---|
| Json.Get | backend/app.py:278-284 | `d.get(k, default)` raises `AttributeError` exactly when `d` is not a dict; on a dict it yields the value stored under `k` when present and the default when absent |
| Json.Iterate | backend/app.py:287-292 | iterating a list yields its items, a dict its keys in order, a string its one-character strings; iterating `None`, a bool or a number raises; an iteration is empty exactly when the value is falsy |
| Json.Len | agent/utils.py:230 | `len` raises `TypeError` exactly for `None`, bools and numbers, and otherwise counts what iteration yields |
| Json.LookupUnique | backend/app.py:278-284 | in a dict with distinct keys, `d[k]` is the value stored with `k` |
| Base.StripSplits | agent/utils.py:118 | `strip()` returns the middle slice of the text, with whitespace only on both sides, and the slice itself neither starts nor ends with whitespace |
| Time.IsoRoundTrip | backend/database.py:52-54 | the `isoformat()` text the agent sends parses back to the same naive datetime |
| Time.StrFormat | backend/app.py:166 | `str(dt)` differs from `isoformat()` only in the space at index 10 |
| Time.StrRoundTrip | backend/app.py:166 | the `str()` text of a datetime parses back to that datetime, with no offset |
| Time.IsoFormatHasNoZ | backend/database.py:54 | `isoformat()` output contains no `Z`, so the server's `replace('Z', '+00:00')` leaves it unchanged |
| Time.YearMonthRoundTrip | backend/app.py:175 | the `%Y-%m` reference month reads back as the year and month it came from |
| Normalizer.ProcessAgentData | backend/app.py:276-307 | a non-dict snapshot raises `AttributeError`; on success `software` is the snapshot's `softwares` (default `[]`) and the last update is `timestamp_coleta`, defaulting to the server clock's `isoformat()` |
| Normalizer.SumSizes | backend/app.py:287 | the left-to-right `sum` succeeds exactly when every disk contributes a number, and then equals the reference total |
| Normalizer.PickIpStopsAt | backend/app.py:292-295 | the adapter loop stops at the first adapter with a truthy address; a non-dict adapter before that raises `AttributeError` |
| Normalizer.StorageIsTotal | backend/app.py:287-304 | `storage` is the sum of every disk's `tamanho_gb`, a missing size counting 0, followed by " GB" |
| Normalizer.OsStringShape | backend/app.py:302 | the OS text is the name, exactly one space, then the version |
| Normalizer.OsHasSeparator | backend/app.py:302 | `os` is `nome` (default "N/A"), a space and `versao` (default ""), untrimmed; with no version it ends in the space |
| Normalizer.IpIsFirstTruthyAdapter | backend/app.py:290-295 | `ip` is the first adapter's truthy address; otherwise `rede.ip_address`; otherwise "N/A" |
| Normalizer.MainIpPicks | backend/app.py:290-295 | the same three-way choice, stated for the network section alone |
| Normalizer.FieldDefaults | backend/app.py:298-300 | the name keeps whatever value the key holds (even a falsy one) and is "Unknown" only when the key is absent; user and domain default to "N/A" |
| Normalizer.RamIsCapacity | backend/app.py:303 | `ram` is `capacidade_total_gb` (0 when absent) followed by " GB" |
| Normalizer.ToDict | backend/app.py:297-307 | the record handed to the store has exactly the nine keys, in source order, none repeated |
| Normalizer.WellShapedNeverFails | backend/app.py:276-307 | a snapshot whose sections are dicts or absent, whose disks are dicts with numeric sizes and whose adapters are dicts is always normalised |
| Status.Compliant | backend/app.py:34-54 | compliant exactly when the last update is truthy, parses, and has the same year and month as `now`; unparseable text gives false |
| Status.ReadStamp | backend/app.py:137-142 | no value and empty text are falsy and read as nothing; a datetime is read as itself, naive; any text that is read is the `fromisoformat` of its `Z`-replaced form |
| Status.Online | backend/app.py:135-147 | online exactly when the value reads as a naive datetime at most five minutes before `now`; aware text gives false, because the naive/aware subtraction raises |
| Status.DaysInactive | backend/app.py:226-233 | 0 for a falsy value; otherwise the floor of the elapsed days; unparseable text is `ValueError` and aware text `TypeError` |
| Status.OnlineAt | backend/app.py:142-143 | a NULL column is offline; a stored datetime gives the same flag as the generic rule applied to that datetime |
| Status.CompliantAt | backend/app.py:44-51 | a NULL column is not compliant; a stored datetime gives the same flag as the generic rule applied to that datetime |
| Status.StoredValueFlags | backend/app.py:139-143 | the datetime branch of the generic flags agrees with the stored-value versions |
| Status.ReferenceMonth | backend/app.py:175 | `mes_referencia` is seven characters with a dash at index 4, and reads back as `now`'s year and month |
| Status.ReportingNowIsOnlineAndCompliant | backend/app.py:143-149 | a machine whose last update is `now` is online and compliant, with 0 days inactive |
| Status.SixMinutesIsOffline | backend/app.py:143 | six minutes of silence is offline, yet still 0 whole days inactive |
| Status.OtherYearSameMonthNotCompliant | backend/app.py:48-51 | the same month of another year is not compliant: both fields must match |
| Status.OnlineIsMonotone | backend/app.py:143 | an update more recent than an online one is online too |
| Status.AgentTextAgreesWithDatetime | backend/app.py:139-143 | the agent's `isoformat()` text and the datetime it denotes give the same compliance, online flag and days inactive |
| Status.IsoTextReads | backend/app.py:139-140 | the agent's `isoformat()` text reads back as the naive datetime it came from |
| Status.ZuluTextNeverOnline | backend/app.py:140-146 | text that becomes aware after the `Z` replacement is never online |
| Store.ToCell | backend/database.py:79-85 | the driver refuses lists and dicts, binds strings as text and `None` as NULL |
| Store.LastUpdateColumn | backend/database.py:48-56 | text is parsed after the `Z` replacement and falls back to `now` when unparseable; `None` stays NULL |
| Store.ReadFields | backend/database.py:40-56 | a non-dict record raises `AttributeError`; otherwise the values are read exactly when every bound value is storable, and every refusal is a database error |
| Store.Columns | backend/database.py:40-85 | the nine bound values convert exactly when each is bindable and the timestamp is text or `None`, and then give the converted cells |
| Store.ReadFieldsDefaults | backend/database.py:40-48 | each absent key takes the store's own default ("Unknown", "N/A", "", `[]`, NULL) |
| Store.ScanName | backend/database.py:59-63 | finds an id in range with the given name such that no lower id in range has it, or shows that none has it |
| Store.FindByName | backend/database.py:59-63 | `WHERE nome_computador = %s` finds a row with that text name, or proves there is none; a NULL name never matches |
| Store.SaveInventory | backend/database.py:35-96 | fails exactly when the values cannot be read, leaving the table unchanged; on success the saved row holds the values with `data_coleta = now`, the keys grow by at most the returned id, and every other row is untouched |
| Store.GetMachineById | backend/database.py:108-118 | found exactly when the id is stored, and then it is that row |
| Store.GetMachineByName | backend/database.py:155-165 | a row with that name, or `None` exactly when no row has it |
| Store.DeleteMachine | backend/database.py:133-153 | returns True; removes exactly that id; keeps every other row and the counter |
| Store.InsertByRecency | backend/database.py:101 | inserting adds exactly one copy of the row |
| Store.InsertKeepsSorted | backend/database.py:101 | inserting into a list sorted by descending last update keeps it sorted |
| Store.SortByRecency | backend/database.py:101 | the sort is a permutation of its input |
| Store.SortIsSorted | backend/database.py:101 | the sort's output is ordered most recent first, with NULL last |
| Store.RowsFromAreRowsIn | backend/database.py:101-103 | the id-ordered scan holds each stored row exactly once |
| Store.GetAllMachines | backend/database.py:98-106 | for `maquinas` the listing is every row exactly once, most recent first; for any other table name the failed query gives `[]` |
| Store.ListingIsTable | backend/database.py:98-106 | every listed row is a stored row, and every stored row is listed |
| Store.SaveExistingUpdatesInPlace | backend/database.py:65-79 | saving an existing name returns that row's id and updates it in place; no row is added and the counter is unchanged |
| Store.SaveNewInsertsOne | backend/database.py:80-86 | saving a new name inserts exactly one row, under the next id |
| Store.SaveKeepsNamesUnique | backend/database.py:58-86 | if each text name has at most one row before a save, the same holds after it |
| Store.SameNameTwiceKeepsId | backend/database.py:58-79 | two saves under one name keep a single row for it, with an unchanged id and the second save's values |
| Store.DeleteThenLookup | backend/database.py:133-148 | after a delete the id is not found, other ids read as before, and deleting an absent id changes nothing |
| Server.Ingest | backend/app.py:108-121 | the store either saves the record (200 with the id, the row holding the record's values) or fails (500), in which case the table is unchanged |
| Server.SaveInventoryRoute | backend/app.py:98-123 | an empty or falsy body gets 400; an undecodable body gets 500; neither writes anything; for a truthy body a normalised record is always ingested, and a normaliser error is a 500 carrying that error with the table unchanged |
| Server.FieldsOfRecord | backend/database.py:40-48 | every key of the normalised record is present, so the store reads the record's own value and never its default |
| Server.ColumnsOfRecord | backend/database.py:40-56 | the columns written for a record are exactly its own fields, converted |
| Server.StoredTimestampOfRecord | backend/database.py:52-54 | a record stamped with `isoformat()` of a datetime stores that datetime |
| Server.StoredTimestampIsAgentClock | backend/app.py:306 | the `timestamp_coleta` the agent sends is stored as the same datetime |
| Server.StoredTimestampDefaultsToNow | backend/app.py:306 | a snapshot without a timestamp is stored with the server clock |
| Server.StampOf | backend/app.py:135-142 | a NULL last update is the falsy case; a stored datetime is passed on as that datetime |
| Server.StrOfStamp | backend/app.py:171 | `str()` of a nullable column is `"None"` exactly for NULL |
| Server.EntryStampRoundTrip | backend/app.py:166-171 | the rendered datetime text reads back as the stored value, NULL included |
| Server.DashboardEntry | backend/app.py:134-176 | the entry passes through the row's id, name, domain, user, IP, OS, RAM, storage and software; both datetime texts read back as the stored values; `online` iff at most five minutes old; `em_compliance` iff the same year and month; `mes_referencia` is `now`'s month |
| Server.Entries | backend/app.py:134-176 | one entry per listed row, in order |
| Server.MachinesDashboard | backend/app.py:125-183 | the dashboard is the listing mapped entry by entry |
| Server.DashboardEntriesAreMachines | backend/app.py:130-176 | every entry is for a stored machine, with that machine's flags |
| Server.DashboardListsEveryMachine | backend/app.py:130-176 | every stored machine has an entry |
| Server.DashboardIsMostRecentFirst | backend/database.py:101 | read back from their text, the entries' last updates come most recent first, with machines that never reported last |
| Server.GetMachineRoute | backend/app.py:185-210 | 200 with the row exactly when the id is stored, else 404 |
| Server.WholeDaysSince | backend/app.py:226-233 | 0 without a last update, otherwise the floor of the elapsed days |
| Server.DeleteRoute | backend/app.py:215-261 | 404 with no change exactly when the id is absent; otherwise the row is removed and the reply carries its id, name, last update and whole days inactive (0 when there was no last update) |
| AgentUtils.Message | agent/utils.py:72-91 | every problem has a non-empty message |
| AgentUtils.MessageInjective | agent/utils.py:72-91 | different problems have different messages, so the text list loses nothing |
| AgentUtils.MissingFields | agent/utils.py:72-74 | the absent required sections, in list order, and all of them |
| AgentUtils.NameProblems | agent/utils.py:77-79 | raises `AttributeError` exactly when `identificacao` is present and not a dict; otherwise reports the name exactly when it is falsy |
| AgentUtils.DiskProblems | agent/utils.py:82-86 | at most one disk problem: "not a list" exactly when present and not a list, "no disks" exactly when an empty list |
| AgentUtils.SoftwareProblems | agent/utils.py:89-91 | "not a list" exactly when `softwares` is present and not a list |
| AgentUtils.ValidateData | agent/utils.py:58-93 | raises `AttributeError` exactly when `identificacao` is present and not a dict |
| AgentUtils.MissingComeFirst | agent/utils.py:71-74 | the missing-section problems come first, in the order of the required list |
| AgentUtils.MissingFieldReported | agent/utils.py:71-74 | a section is reported missing exactly when it is required and absent |
| AgentUtils.NameReported | agent/utils.py:76-79 | the name problem is reported exactly when `identificacao` is present and its name is falsy |
| AgentUtils.DisksReported | agent/utils.py:81-86 | each disk problem is reported exactly under its condition, and never both |
| AgentUtils.SoftwareReported | agent/utils.py:88-91 | the software problem is reported exactly when `softwares` is present and not a list |
| AgentUtils.ValidIffComplete | agent/utils.py:58-93 | no problems exactly when the snapshot is complete (independent definition) |
| AgentUtils.PrintableIsSubsequence | agent/utils.py:116 | the filter only deletes characters |
| AgentUtils.PrintableOnly | agent/utils.py:116 | every kept character has code point at least 32 |
| AgentUtils.PrintableKeeps | agent/utils.py:116 | every character with code point at least 32 is kept, as many times as it occurs |
| AgentUtils.CleanString | agent/utils.py:111-118 | a falsy input gives ""; the result is never longer than the input |
| AgentUtils.CleanIsSubsequence | agent/utils.py:111-118 | the cleaned text is a subsequence of the input |
| AgentUtils.CleanIsPrintable | agent/utils.py:116-118 | the cleaned text has no control characters |
| AgentUtils.CleanIsStripped | agent/utils.py:118 | the cleaned text neither starts nor ends with whitespace |
| AgentUtils.CleanKeepsVisible | agent/utils.py:116-118 | every visible non-space character of the input survives, as many times as it occurs |
| AgentUtils.KeptCharsCount | agent/utils.py:118 | cutting only whitespace off both ends keeps the count of every other character |
| AgentUtils.CleanStringIdempotent | agent/utils.py:111-118 | cleaning twice equals cleaning once |
| AgentUtils.ScaleStep | agent/utils.py:105-107 | one division keeps `amount * 1024^i == size` and decides the loop test |
| AgentUtils.UnitIndexIs | agent/utils.py:103-109 | the threshold definition of the unit picks `i` when the size lies between the `i`-th and the next power of 1024 |
| AgentUtils.FormatFileSize | agent/utils.py:98-109 | "0 B" exactly for 0; otherwise the unit is the threshold choice of `UnitIndex` (by `UnitIndexIs`, the largest power of 1024 not above the size, at most TB), and the amount times that power is exactly the size |
| AgentUtils.WeekdayAnchor | agent/utils.py:330 | the weekday count puts Monday 2024-01-01 at 0 |
| AgentUtils.WeekdayAdvances | agent/utils.py:330 | the next day has the next weekday, modulo 7 |
| AgentUtils.QuietOnWeekends | agent/utils.py:327-334 | counting days from Saturday 6 January 2024, quiet exactly on the first two days of each week, before 9:00 or from 18:00 |
| AgentUtils.ShowDisks | agent/utils.py:231-232 | reading each shown disk with `.get` succeeds exactly when every one is a dict |
| AgentUtils.SummaryHeader | agent/utils.py:207-226 | the first lines print exactly when the identification, system, processor and memory sections are dicts or absent |
| AgentUtils.SummaryDisks | agent/utils.py:228-234 | the disk lines print exactly when `discos` is a list whose first three entries are dicts, or empty text; the count is its `len` |
| AgentUtils.SummaryNetwork | agent/utils.py:236-240 | the network lines print exactly when `rede` is a dict whose `placas` has a length; the count is that length |
| AgentUtils.SummaryCounts | agent/utils.py:242-249 | the last four lines print exactly when software, controllers, monitors and printers each have a length; the counts are those lengths |
| AgentUtils.PrintSummary | agent/utils.py:201-249 | the summary raises exactly when a section fails the section-by-section readability rule; otherwise it shows the `len` of disks, adapters, software, controllers, monitors and printers |
| AgentUtils.EmptySummary | agent/utils.py:201-249 | a snapshot with no sections prints a summary of zeros |
| AgentUtils.ListSectionBreaksSummary | agent/utils.py:213-215 | a list-valued operating-system section passes validation yet makes the summary raise |
| AgentUtils.GetDomainName | agent/utils.py:351-360 | a domain exactly when the name contains a dot, and then it is everything after the first dot |
| AgentUtils.DomainOfQualifiedName | agent/utils.py:355-357 | a dot-free host joined to a domain by a dot gives back that domain |
| AgentUtils.DomainEnvironmentHasDomain | agent/utils.py:339-360 | in a domain environment the domain name is always found |
| Collector.DiskType | agent/collector.py:299-310 | the label is one of the seven table labels |
| Collector.DiskTypeUnknown | agent/collector.py:299-310 | "Desconhecido" exactly for codes outside 1..6 |
| Collector.DiskTypeInjective | agent/collector.py:301-309 | codes 1..6 have pairwise different labels |
| Collector.InstallDate | agent/collector.py:92-100 | reformatted exactly when the value is eight digits, giving `YYYY-MM-DD` |
| Collector.InstallDateRoundTrip | agent/collector.py:95-96 | removing the two dashes gives back the registry value |
| Collector.InstallDateOfDate | agent/collector.py:95-96 | a date written `YYYYMMDD` is reformatted to its ISO date |
| Collector.SoftwareInfoDefaults | agent/collector.py:74-100 | the name is `DisplayName`, else the subkey name; version and publisher default to "N/A"; an install date is present exactly when the registry value is eight digits |
| Base.FilterCount | agent/collector.py:102-104 | filtering keeps every occurrence of a kept element and drops every occurrence of the others |
| Collector.Enumerated | agent/collector.py:66-114 | a path that cannot be opened yields nothing; otherwise a prefix of its subkeys, all openable, that stops exactly at the first subkey `OpenKey` refuses |
| Collector.Openable | agent/collector.py:70-108 | the longest prefix of subkeys that all open |
| Collector.RefusedKeyHidesLater | agent/collector.py:71-108 | a refused subkey and every subkey after it are missing from the enumeration, unless an equal subkey came earlier |
| Base.FilterConcat | agent/collector.py:66-104 | filtering two runs in turn equals filtering their concatenation |
| Collector.InstalledSoftwareConcat | agent/collector.py:66-104 | the listing of two runs of subkeys is the listing of each, in turn |
| Collector.RegistrySoftware | agent/collector.py:55-116 | the records of both uninstall paths, native first, are the one filter over both enumerations in turn |
| Collector.InstalledSoftware | agent/collector.py:102-104 | exactly the records whose stripped name is non-empty are kept, in order, each as many times as it occurs |
| Collector.FirstSpeedIsFirst | agent/collector.py:190-191 | the speed is that of the first module with a truthy speed, or 0 when none has one |
| Collector.MemoryInfoOf | agent/collector.py:175-198 | without WMI, or with no module reporting a capacity, the psutil total with 0 slots and speed; otherwise the counted modules, their total capacity and the first speed |
| Collector.FindDisk | agent/collector.py:276-280 | the first partition with the device id, or `None` exactly when there is none |
| Collector.MergeOne | agent/collector.py:273-290 | one WMI disk adds at most one entry, and only a sized one, at the end |
| Collector.MergeOneMatched | agent/collector.py:276-280 | a matched disk retypes only the first entry with its id |
| Collector.MergeOneUnmatched | agent/collector.py:282-290 | an unmatched disk is appended when it has a size, and dropped otherwise |
| Collector.MergeDisksKeepsEntries | agent/collector.py:271-290 | the merge keeps every partition entry, with the same unit and sizes |
| Collector.MergeDisksAppendsFromWmi | agent/collector.py:282-290 | every appended entry comes from a sized WMI disk |
| Collector.MergeDisksCovers | agent/collector.py:271-290 | every WMI disk with a size ends up with an entry for its device id, found or appended |
| Collector.RetypeFirst | agent/collector.py:273-280 | the first entry for a drive keeps its type or takes the label of a WMI disk for that drive, and takes such a label whenever WMI reports the drive |
| Collector.RetypeLater | agent/collector.py:275-280 | an entry behind an earlier one for the same drive is never changed, since the inner search stops at the first |
| Collector.MergeDisksRetypes | agent/collector.py:271-290 | every partition entry keeps its type or takes a WMI label for its drive; the first entry of a drive WMI reports takes one |
| Collector.MergeDisksAppendsFresh | agent/collector.py:273-290 | every appended entry is the first for its drive, so a WMI disk whose id is already listed adds nothing |
| Collector.DiskInfo | agent/collector.py:248-297 | without WMI the list is the partitions; with WMI every partition entry stays, with its drive and sizes; the first entry for a drive WMI reports gets the type label of a WMI disk with that id; every WMI disk with a size has an entry; every extra entry comes from a sized WMI disk and is the first for its drive |
| Collector.BiosDateText | agent/collector.py:363 | a prefix of the text with no "." in it, ending at eight characters, at the end of the text, or at the first "." |
| Collector.StrptimeYmd | agent/collector.py:364 | a parsed date is valid, at midnight |
| Collector.BiosReleaseDate | agent/collector.py:360-365 | the release date, when present, is ten characters long; `BiosReleaseDateOfTimestamp` gives its content |
| Collector.StrptimeCompactDate | agent/collector.py:364 | `strptime('%Y%m%d')` of a compact date gives that date at midnight |
| Collector.BiosReleaseDateOfTimestamp | agent/collector.py:360-365 | a WMI timestamp `YYYYMMDDhhmmss...` gives its own date as `YYYY-MM-DD` |
| Agent.BackoffTotal | agent/agent.py:67-69 | `m` linear back-off waits add up to 5·m(m+1)/2 seconds |
| Agent.SendToApi | agent/agent.py:27-73 | a failed health check means no POST and False; True exactly when one of the first `retry_attempts` attempts gets 200; it stops at the first 200; a non-200 status and an exception are both failures; all attempts fail means `max(n, 0)` POSTs and a total wait of 5·n(n−1)/2; the waits are 5, 10, … with none after the last POST |
| Agent.Payload | agent/agent.py:132-141 | exactly the eight keys, in order; each section is the snapshot's value, or its default |
| Agent.SectionDefault | agent/agent.py:133-139 | an absent section becomes `[]` exactly for `discos` and `softwares`, and `{}` for the five others |
| Agent.PayloadKeysDistinct | agent/agent.py:132-141 | the eight payload keys are distinct |
| Agent.PayloadSection | agent/agent.py:133-139 | read back as a dict, each payload section is the snapshot's value when present and `{}`/`[]` otherwise |
| Agent.PayloadTimestamp | agent/agent.py:140 | `timestamp_coleta` is the clock's `isoformat()`, which parses back to that clock value |
| Agent.PayloadIgnoresOtherKeys | agent/agent.py:132-141 | snapshot keys outside the seven sections never reach the server |
| Agent.Index | agent/agent.py:29 | `config[key]` gives the dict's value for a present key, `KeyError` for a missing one, and `TypeError` when the configuration is not a dict |
| Agent.RangeBound | agent/agent.py:40 | `range` takes an integer, a bool as 0 or 1, and refuses every other JSON value |
| Agent.Attempts | agent/agent.py:40 | the attempt count is readable exactly when the configuration is a dict whose `retry_attempts` is a number or a bool |
| Agent.DefaultConfigIsUsable | agent/utils.py:148-164 | the default configuration raises nowhere, allows three attempts, has a timeout and enables backups |
| Agent.SendWithConfig | agent/agent.py:27-73 | past the health check, a missing `api_endpoint` or an unusable `retry_attempts` raises before any POST; otherwise it succeeds exactly when `timeout` is present and one of the first `retry_attempts` attempts gets 200; without `timeout` no POST is made, and otherwise a failed send makes `max(n, 0)` POSTs; a failed send sleeps 5, 10, … between its `max(n, 0)` attempts |
| Agent.RunAgent | agent/agent.py:95-212 | exit code 1, with nothing sent and no backup, exactly when the configuration raises (a missing `server_url`, or past the health check a missing `api_endpoint` or an unusable `retry_attempts`), validation raises or, outside `--silent` mode, the summary raises; otherwise the payload is handed to `send_to_api`, no POST is made without `timeout`, and the run succeeds exactly when `timeout` is present and some attempt got 200; a backup is written exactly when the send failed and either the first health check failed or backups are enabled (default true) |

## Left out

- Floating point. The server and agent round byte counts to gigabytes (`/1024**3`, `round(..., 2)`) and format with `%.2f`. Sizes are kept as integers (bytes in the collector, whatever number the snapshot holds on the server).
- `AgentUtils.FormatFileSize`: returns the scaled amount and the unit instead of the `"%.2f unit"` text. The amount is an exact real, not a float.
- `format_file_size` takes an integer size. A float argument is not modelled.
- WMI, registry, psutil and socket calls. Their results are parameters:
  - the partition list;
  - the WMI disk and memory-module lists;
  - the uninstall subkeys of each of the two uninstall paths, in enumeration order, each marked with whether `OpenKey` can open it, or nothing for a path that cannot be opened;
  - the host name and FQDN;
  - the BIOS release text.
- An exception raised in the middle of the WMI disk loop, such as `int(disk.Size)` on non-numeric text, is not modelled. Its `try` wraps only that loop, so the entries gathered so far would stay.
- `Collector.MemoryInfoOf`: an exception in the memory-module loop, such as `int(mem.Capacity)` on non-numeric text, is not modelled. The `try` there wraps the whole of `get_memory_info`, so the partial counts would be dropped and the psutil total returned with 1 slot and speed 0. Module capacities are parameters that are already numbers.
- Registry values that are not strings are not modelled.
- Unicode digits, which `str.isdigit` and `strptime` accept, are not modelled: only ASCII digits count.
- `strptime` years below 1000, which `strftime` would print unpadded on some platforms, are not modelled.
- `fromisoformat` is modelled for the forms the pipeline produces: `YYYY-MM-DD`, an optional `THH:MM:SS` (or a space), a 3- or 6-digit fraction, and an optional `±HH:MM` offset. Other accepted forms are treated as unparseable.
- `Json.Str`: `repr` of a string inside a list or dict uses plain single quotes. Python's escaping is not modelled.
- MySQL collation is not modelled. Name matching is exact string equality, and the case- and trailing-space-insensitive comparison of the default collation is not modelled.
- Sorting ties: rows with equal last updates may come in any order.
- Connections, cursors, commits and rollbacks are not modelled. A refused value leaves the table unchanged, which is what the rollback achieves.
- The race between two first-time saves of the same name is a concurrency concern and cannot be expressed in this sequential model.
- `request.get_json()` raising is not modelled in detail. Its 500 reply is one case of the save route.
- The server clock is one `now` per request. Python reads `datetime.now()` several times within a request; the readings differ by microseconds.
- `validate_data` returns message strings, and the model returns a `Problem` value per message. `AgentUtils.MessageInjective` shows that no information is lost.
- Real sleeping, HTTP and the health-check request are inputs: a boolean per health check, and one outcome per POST attempt.
- `Lookup`: a dict with a repeated key yields its first value, while `json.loads` keeps the last; a decoded dict never repeats a key, so this only matters for hand-built values.
- `Store.LastUpdateColumn`: two facts about MySQL are assumed, since the table schema is not part of this model. The `ultima_atualizacao` DATETIME column is assumed to keep microseconds; a DATETIME without fractional precision would round to the second. An aware timestamp is stored as its wall-clock part, with the offset dropped, as the connector does when it binds the value.
- `Store.LastUpdateColumn`: a numeric `timestamp_coleta` is refused as a database error; MySQL would accept a `YYYYMMDDhhmmss` number as a datetime.
- `AgentUtils.PrintSummary`: only whether it raises and the counts it shows are modelled; the other printed text is not.
- Console output, logging, `LoggerWriter`, the printing of `print_summary`, `save_json_backup`, `create_csv_report`, `setup_logging` and the file reading and writing of `get_config_from_file` are side effects and not modelled; the configuration it returns is an input of `Agent.RunAgent`, and `Agent.DefaultConfig` is the one it writes. The backup decision is modelled; the file write is not.
- The collection timeout and `collect_all_data` assembly are platform wiring and not modelled.
- Flask routing, CORS, the HTML dashboard, `/health`, `/api/test` and the deploy-script route are HTTP wiring and not modelled.

=== FILE: agent.dfy ===
/**
 * The agent's run (`agent/agent.py`): the payload it builds from a
 * collected snapshot, the retrying POST of `send_to_api`, and the
 * decision to keep a local backup. The network is an input: the health
 * check is a boolean and each POST attempt's outcome is read from a
 * function of the attempt number; sleeping is recorded as the list of
 * waits, in seconds, instead of being performed.
 */
module Agent {
  import opened Base
  import opened Json
  import opened Time
  import AgentUtils

  // ---------------------------------------------------------------------
  // send_to_api
  // ---------------------------------------------------------------------

  /**
   * What one POST attempt produced: an HTTP status, or an exception
   * (`RequestException` and any other exception are handled alike).
   */
  datatype Outcome = Status(code: int) | Raised

  /** Only a 200 response ends the retry loop successfully. */
  predicate Accepted(o: Outcome) {
    o == Status(200)
  }

  /** `range(n)` has `max(n, 0)` elements. */
  function AttemptCount(attempts: int): (n: nat)
    ensures n <= attempts || attempts < 0
    ensures attempts <= 0 ==> n == 0
  {
    if attempts < 0 then 0 else attempts
  }

  /** The waits after the first `m` failed attempts: 5, 10, 15, ... seconds. */
  function Backoff(m: nat): (ws: seq<nat>)
    ensures |ws| == m
    ensures forall i :: 0 <= i < m ==> ws[i] == (i + 1) * 5
  {
    seq(m, i requires 0 <= i < m => (i + 1) * 5)
  }

  /** The total of a list of waits. */
  function Sum(ws: seq<nat>): nat {
    if ws == [] then 0 else Sum(ws[..|ws| - 1]) + ws[|ws| - 1]
  }

  /** The back-off grows linearly, so `m` waits add up to `5·m(m+1)/2` seconds. */
  lemma {:induction false} BackoffTotal(m: nat)
    ensures Sum(Backoff(m)) * 2 == 5 * m * (m + 1)
  {
    if m > 0 {
      assert Backoff(m)[..m - 1] == Backoff(m - 1);
      BackoffTotal(m - 1);
    }
  }

  /**
   * `send_to_api`: no POST at all when the health check fails; otherwise
   * up to `retry_attempts` POSTs, stopping at the first 200, with a wait
   * of `(k+1)·5` seconds after failed attempt `k` unless it was the last.
   * `posts` counts the POSTs made and `waits` lists the sleeps in order.
   */
  method SendToApi(healthy: bool, attempts: int, respond: nat -> Outcome)
    returns (success: bool, posts: nat, waits: seq<nat>)
    ensures !healthy ==> !success && posts == 0 && waits == []
    ensures success <==> healthy && exists k: nat :: k < attempts && Accepted(respond(k))
    ensures posts <= AttemptCount(attempts)
    ensures success ==> 0 < posts && Accepted(respond(posts - 1))
    ensures forall k: nat :: k + 1 < posts ==> !Accepted(respond(k))
    ensures healthy && !success ==> posts == AttemptCount(attempts)
    ensures waits == Backoff(if posts == 0 then 0 else posts - 1)
    ensures healthy && !success ==> Sum(waits) * 2 == 5 * posts * (if posts == 0 then 0 else posts - 1)
  {
    success, posts, waits := false, 0, [];
    if !healthy {
      return;
    }
    var k: nat := 0;
    while k < attempts
      invariant k <= AttemptCount(attempts)
      invariant posts == k
      invariant forall i: nat :: i < k ==> !Accepted(respond(i))
      invariant k < attempts ==> waits == Backoff(k)
      invariant attempts <= k ==> waits == Backoff(if k == 0 then 0 else k - 1)
    {
      posts := posts + 1;
      if Accepted(respond(k)) {
        success := true;
        return;
      }
      if k < attempts - 1 {
        waits := waits + [(k + 1) * 5];
        assert waits == Backoff(k + 1);
      }
      k := k + 1;
    }
    BackoffTotal(if k == 0 then 0 else k - 1);
  }

  // ---------------------------------------------------------------------
  // The payload
  // ---------------------------------------------------------------------

  /** The sections copied from the snapshot, in the order the payload lists them. */
  const Sections: seq<string> :=
    ["identificacao", "sistema_operacional", "processador", "memoria", "rede", "discos", "softwares"]

  /** What an absent section becomes: `{}` for the five dict sections, `[]` for the two lists. */
  function SectionDefault(i: nat): (d: Json)
    ensures d == JObj([]) || d == JArr([])
    ensures i < |Sections| ==> (d.JArr? <==> Sections[i] == "discos" || Sections[i] == "softwares")
  {
    if i < 5 then JObj([]) else JArr([])
  }

  /** The payload's keys: the seven sections and the collection time. */
  const PayloadKeys: seq<string> := Sections + ["timestamp_coleta"]

  /** `data.get(key, default)` on the snapshot dict. */
  function Section(data: seq<(string, Json)>, i: nat): Json
    requires i < |Sections|
  {
    Field(JObj(data), Sections[i], SectionDefault(i))
  }

  /** The payload `main` sends: every section, defaulted when absent, plus `now` in ISO form. */
  function Payload(data: seq<(string, Json)>, now: DateTime): (p: seq<(string, Json)>)
    requires Valid(now)
    ensures Keys(p) == PayloadKeys
    ensures forall i :: 0 <= i < |Sections| ==> p[i].1 == Section(data, i)
  {
    seq(|PayloadKeys|, i requires 0 <= i < |PayloadKeys| =>
      (PayloadKeys[i], if i < |Sections| then Section(data, i) else JStr(IsoFormat(now))))
  }

  /** The eight payload keys are distinct, so the payload is a well-formed dict. */
  lemma PayloadKeysDistinct()
    ensures forall i, j :: 0 <= i < j < |PayloadKeys| ==> PayloadKeys[i] != PayloadKeys[j]
  {
    assert PayloadKeys[1][0] == 's' && PayloadKeys[6][0] == 's';
    assert PayloadKeys[1][1] != PayloadKeys[6][1];
    assert PayloadKeys[2][0] == 'p' && PayloadKeys[2][0] != PayloadKeys[7][0];
  }

  /**
   * Reading the payload back as a dict: each section is the snapshot's
   * own value when present and the empty default otherwise.
   */
  lemma PayloadSection(data: seq<(string, Json)>, now: DateTime, i: nat)
    requires Valid(now) && i < |Sections|
    ensures UniqueKeys(Payload(data, now))
    ensures HasKey(data, Sections[i]) ==> Lookup(Payload(data, now), Sections[i]) == Lookup(data, Sections[i])
    ensures !HasKey(data, Sections[i]) ==> Lookup(Payload(data, now), Sections[i]) == Some(SectionDefault(i))
  {
    var p := Payload(data, now);
    PayloadKeysDistinct();
    assert forall k :: 0 <= k < |p| ==> p[k].0 == PayloadKeys[k];
    LookupUnique(p, Sections[i], i);
  }

  /** The server parses the collection time back to exactly `now`, with no offset. */
  lemma PayloadTimestamp(data: seq<(string, Json)>, now: DateTime)
    requires Valid(now)
    ensures Lookup(Payload(data, now), "timestamp_coleta") == Some(JStr(IsoFormat(now)))
    ensures IsoParse(IsoFormat(now)) == Some(Parsed(now, None))
  {
    var p := Payload(data, now);
    PayloadKeysDistinct();
    assert forall k :: 0 <= k < |p| ==> p[k].0 == PayloadKeys[k];
    LookupUnique(p, "timestamp_coleta", 7);
    IsoRoundTrip(now);
  }

  /** Keys of the snapshot outside the seven sections never reach the server. */
  lemma PayloadIgnoresOtherKeys(a: seq<(string, Json)>, b: seq<(string, Json)>, now: DateTime)
    requires Valid(now)
    requires forall i :: 0 <= i < |Sections| ==> Lookup(a, Sections[i]) == Lookup(b, Sections[i])
    ensures Payload(a, now) == Payload(b, now)
  {
    forall i | 0 <= i < |Sections|
      ensures Section(a, i) == Section(b, i)
    {
    }
  }

  // ---------------------------------------------------------------------
  // main
  // ---------------------------------------------------------------------

  /**
   * The configuration written when no file exists: three attempts,
   * backups on. Any other `config.json` is read as the JSON it holds.
   */
  const DefaultConfig: Json := JObj([
    ("server_url", JStr("http://localhost:5000")), ("api_endpoint", JStr("/api/inventory")),
    ("timeout", JNum(30)), ("retry_attempts", JNum(3)), ("backup_enabled", JBool(true)),
    ("log_level", JStr("INFO"))])

  /** `config[key]`: `TypeError` unless the configuration is a dict, `KeyError` when the key is absent. */
  function Index(config: Json, key: string): (r: Result<Json>)
    ensures r.Ok? <==> config.JObj? && HasKey(config.fields, key)
    ensures r.Ok? ==> Lookup(config.fields, key) == Some(r.value)
    ensures r.Err? ==> (r.error == KeyError <==> config.JObj?)
  {
    if !config.JObj? then Err(TypeError)
    else match Lookup(config.fields, key)
      case Some(v) => Ok(v)
      case None => Err(KeyError)
  }

  /** `range(v)` accepts an integer, and so a bool, and raises `TypeError` on anything else. */
  function RangeBound(v: Json): (r: Result<int>)
    ensures r.Ok? <==> v.JNum? || v.JBool?
    ensures v.JBool? ==> r == Ok(if v.b then 1 else 0)
    ensures v.JNum? ==> r == Ok(v.n)
  {
    match v
    case JNum(n) => Ok(n)
    case JBool(b) => Ok(if b then 1 else 0)
    case _ => Err(TypeError)
  }

  /** The number passed to `range` by `send_to_api`, or the exception reading it raises. */
  function Attempts(config: Json): (r: Result<int>)
    ensures r.Ok? <==> (config.JObj? && HasKey(config.fields, "retry_attempts")
      && (Lookup(config.fields, "retry_attempts").value.JNum?
          || Lookup(config.fields, "retry_attempts").value.JBool?))
  {
    var v :- Index(config, "retry_attempts");
    RangeBound(v)
  }

  /**
   * The configuration makes the run raise: `config['server_url']` at the
   * first health check, and, once the server answers the second one,
   * `config['api_endpoint']` and `range(config['retry_attempts'])`.
   */
  predicate ConfigRaises(config: Json, healthyAtSend: bool) {
    || Index(config, "server_url").Err?
    || (healthyAtSend && (Index(config, "api_endpoint").Err? || Attempts(config).Err?))
  }

  /** The default configuration never raises, and allows three attempts. */
  lemma DefaultConfigIsUsable(healthyAtSend: bool)
    ensures !ConfigRaises(DefaultConfig, healthyAtSend)
    ensures Attempts(DefaultConfig) == Ok(3)
    ensures Index(DefaultConfig, "timeout").Ok?
    ensures Truthy(Field(DefaultConfig, "backup_enabled", JBool(true)))
  {
    var f := DefaultConfig.fields;
    assert f[0].0 == "server_url" && f[1].0 == "api_endpoint" && f[2].0 == "timeout";
    assert f[3] == ("retry_attempts", JNum(3)) && f[4] == ("backup_enabled", JBool(true));
    assert Lookup(f, "retry_attempts") == Some(JNum(3));
  }

  /**
   * How the run ended and what it did on the way: `sent` is the payload
   * handed to `send_to_api`, `posts` the requests actually made.
   */
  datatype Run = Run(exitCode: int, sent: Option<seq<(string, Json)>>, success: bool,
                     posts: nat, waits: seq<nat>, backup: bool)

  /**
   * `send_to_api` reading its settings from the configuration: past the
   * health check, a missing `api_endpoint` or a `retry_attempts` that
   * `range` refuses raises before any POST. Without `timeout` every
   * attempt raises while the arguments of `requests.post` are evaluated,
   * so nothing is sent, yet the loop's `try` catches each failure and the
   * back-off sleeps still happen.
   */
  method SendWithConfig(config: Json, healthy: bool, respond: nat -> Outcome)
    returns (raised: bool, success: bool, posts: nat, waits: seq<nat>)
    ensures raised <==> healthy && (Index(config, "api_endpoint").Err? || Attempts(config).Err?)
    ensures raised || !healthy ==> !success && posts == 0 && waits == []
    ensures success <==> !raised && healthy && Index(config, "timeout").Ok?
                         && exists k: nat :: k < Attempts(config).value && Accepted(respond(k))
    ensures !raised && healthy ==> posts <= AttemptCount(Attempts(config).value)
    ensures Index(config, "timeout").Err? ==> posts == 0
    ensures !raised && healthy && !success && Index(config, "timeout").Ok? ==>
      posts == AttemptCount(Attempts(config).value)
    ensures !raised && healthy && !success ==>
      var n := AttemptCount(Attempts(config).value); waits == Backoff(if n == 0 then 0 else n - 1)
  {
    if healthy && (Index(config, "api_endpoint").Err? || Attempts(config).Err?) {
      return true, false, 0, [];
    }
    raised := false;
    var attempts := if healthy then Attempts(config).value else 0;
    var timed := Index(config, "timeout").Ok?;
    var outcome: nat -> Outcome := if timed then respond else (k: nat) => Raised;
    var tries;
    success, tries, waits := SendToApi(healthy, attempts, outcome);
    if !timed {
      assert !success;
    }
    posts := if timed then tries else 0;
  }

  /**
   * `main` from the first health check on. A configuration without
   * `server_url` raises at once. Validation only warns, except that a
   * non-dict identification section raises; outside `--silent` mode the
   * summary is printed and may raise too. The payload is then handed to
   * `send_to_api`, which raises on a missing `api_endpoint` or a
   * `retry_attempts` that `range` refuses once the server answers, and
   * whose every attempt fails when `timeout` is missing. Any exception ends
   * the run with exit code 1 before a POST or a backup; otherwise a backup
   * is written when the send failed and backups are enabled or the first
   * health check failed, which forces them on.
   */
  method RunAgent(config: Json, data: seq<(string, Json)>, now: DateTime, silent: bool,
                  healthyAtStart: bool, healthyAtSend: bool, respond: nat -> Outcome)
    returns (run: Run)
    requires Valid(now)
    ensures run.exitCode == 1 <==> (ConfigRaises(config, healthyAtSend)
                                    || !AgentUtils.IdentReadable(JObj(data))
                                    || (!silent && AgentUtils.PrintSummary(JObj(data)).Err?))
    ensures run.exitCode == 1 ==> run.sent.None? && run.posts == 0 && !run.backup
    ensures Index(config, "timeout").Err? ==> run.posts == 0
    ensures run.exitCode != 1 ==> run.exitCode == 0 && run.sent == Some(Payload(data, now))
    ensures run.success <==> run.exitCode == 0 && healthyAtSend && Index(config, "timeout").Ok?
                             && exists k: nat :: k < Attempts(config).value && Accepted(respond(k))
    ensures run.backup <==> run.exitCode == 0 && !run.success
                            && (!healthyAtStart || Truthy(Field(config, "backup_enabled", JBool(true))))
  {
    if Index(config, "server_url").Err? {
      return Run(1, None, false, 0, [], false);
    }
    var enabled := Field(config, "backup_enabled", JBool(true));
    if !healthyAtStart {
      enabled := JBool(true);
    }
    assert Truthy(enabled) <==> !healthyAtStart || Truthy(Field(config, "backup_enabled", JBool(true)));
    if AgentUtils.ValidateData(JObj(data)).Err? {
      return Run(1, None, false, 0, [], false);
    }
    if !silent && AgentUtils.PrintSummary(JObj(data)).Err? {
      return Run(1, None, false, 0, [], false);
    }
    var payload := Payload(data, now);
    var raised, success, posts, waits := SendWithConfig(config, healthyAtSend, respond);
    if raised {
      return Run(1, None, false, 0, [], false);
    }
    var backup := Truthy(enabled) && !success;
    run := Run(0, Some(payload), success, posts, waits, backup);
  }
}

=== FILE: agent_utils.dfy ===
/**
 * The agent's pure helpers (`agent/utils.py`): validation of a collected
 * snapshot, string cleaning, the unit choice of the file-size formatter,
 * the office-hours rule and the domain-name rules. The clock and the
 * socket lookups become parameters.
 */
module AgentUtils {
  import opened Base
  import opened Json
  import opened Time

  // ---------------------------------------------------------------------
  // validate_data
  // ---------------------------------------------------------------------

  /** The sections a snapshot must have, in the order they are checked. */
  const RequiredFields: seq<string> :=
    ["identificacao", "sistema_operacional", "processador", "memoria", "rede", "discos"]

  /** One problem `validate_data` reports; `Message` renders it as the agent logs it. */
  datatype Problem =
    | Missing(field: string)
    | NameRequired
    | DisksNotList
    | NoDisks
    | SoftwareNotList

  function Message(p: Problem): (m: string)
    ensures |m| > 0
  {
    match p
    case Missing(f) => "Campo obrigatório ausente: " + f
    case NameRequired => "nome_computador é obrigatório"
    case DisksNotList => "discos deve ser uma lista"
    case NoDisks => "Nenhum disco encontrado"
    case SoftwareNotList => "softwares deve ser uma lista"
  }

  /** Every problem has its own message, so the text list loses nothing. */
  lemma MessageInjective(p: Problem, q: Problem)
    requires Message(p) == Message(q)
    ensures p == q
  {
    assert Message(p)[0] == MessageHead(p);
    assert Message(q)[0] == MessageHead(q);
    if p.Missing? && q.Missing? {
      var n := |"Campo obrigatório ausente: "|;
      assert p.field == Message(p)[n..];
      assert q.field == Message(q)[n..];
    }
  }

  function MessageHead(p: Problem): char {
    match p
    case Missing(_) => 'C'
    case NameRequired => 'n'
    case DisksNotList => 'd'
    case NoDisks => 'N'
    case SoftwareNotList => 's'
  }

  /** The required sections the snapshot lacks, in the order of the list. */
  function MissingFields(data: Json): (fs: seq<string>)
    requires data.JObj?
    ensures IsSubsequence(fs, RequiredFields)
    ensures forall i :: 0 <= i < |fs| ==> fs[i] in RequiredFields && !HasKey(data.fields, fs[i])
    ensures forall i :: 0 <= i < |RequiredFields| && !HasKey(data.fields, RequiredFields[i]) ==>
      RequiredFields[i] in fs
  {
    Filter(RequiredFields, f => !HasKey(data.fields, f))
  }

  function MissingProblems(fields: seq<string>): (ps: seq<Problem>)
    ensures |ps| == |fields|
    ensures forall i :: 0 <= i < |fields| ==> ps[i] == Missing(fields[i])
  {
    seq(|fields|, i requires 0 <= i < |fields| => Missing(fields[i]))
  }

  /** The name value `validate_data` tests, when the identification section is a dict. */
  function NameValue(data: Json): Json
    requires data.JObj?
  {
    match Lookup(data.fields, "identificacao")
    case Some(JObj(ident)) => Lookup(ident, "nome_computador").GetOr(JNull)
    case _ => JNull
  }

  /** `data['identificacao'].get('nome_computador')`, which raises when the section is not a dict. */
  function NameProblems(data: Json): (r: Result<seq<Problem>>)
    requires data.JObj?
    ensures r.Err? <==> HasKey(data.fields, "identificacao") && !Lookup(data.fields, "identificacao").value.JObj?
    ensures r.Err? ==> r.error == AttributeError
    ensures r.Ok? ==> r.value == [] || r.value == [NameRequired]
    ensures r.Ok? ==> (NameRequired in r.value <==>
      HasKey(data.fields, "identificacao") && !Truthy(NameValue(data)))
  {
    match Lookup(data.fields, "identificacao")
    case None => Ok([])
    case Some(ident) =>
      if !ident.JObj? then Err(AttributeError)
      else if !Truthy(Lookup(ident.fields, "nome_computador").GetOr(JNull)) then Ok([NameRequired])
      else Ok([])
  }

  function DiskProblems(data: Json): (r: seq<Problem>)
    requires data.JObj?
    ensures r == [] || r == [DisksNotList] || r == [NoDisks]
    ensures DisksNotList in r <==> HasKey(data.fields, "discos") && !Lookup(data.fields, "discos").value.JArr?
    ensures NoDisks in r <==> Lookup(data.fields, "discos") == Some(JArr([]))
  {
    match Lookup(data.fields, "discos")
    case None => []
    case Some(discos) =>
      if !discos.JArr? then [DisksNotList]
      else if discos.items == [] then [NoDisks]
      else []
  }

  function SoftwareProblems(data: Json): (r: seq<Problem>)
    requires data.JObj?
    ensures r == [] || r == [SoftwareNotList]
    ensures SoftwareNotList in r <==>
      HasKey(data.fields, "softwares") && !Lookup(data.fields, "softwares").value.JArr?
  {
    match Lookup(data.fields, "softwares")
    case Some(softwares) => if !softwares.JArr? then [SoftwareNotList] else []
    case None => []
  }

  /** Reading the name succeeds: the identification section is absent or a dict. */
  predicate IdentReadable(data: Json)
    requires data.JObj?
  {
    HasKey(data.fields, "identificacao") ==> Lookup(data.fields, "identificacao").value.JObj?
  }

  /**
   * `validate_data`: the problems found in a collected snapshot. The
   * missing-section problems come first, one per absent required section,
   * in the order of the list; a non-dict identification section raises.
   */
  function ValidateData(data: Json): (r: Result<seq<Problem>>)
    requires data.JObj?
    ensures r.Err? <==> !IdentReadable(data)
    ensures r.Err? ==> r.error == AttributeError
  {
    match NameProblems(data)
    case Err(e) => Err(e)
    case Ok(name) => Ok(MissingProblems(MissingFields(data)) + name + DiskProblems(data) + SoftwareProblems(data))
  }

  /** A snapshot with nothing to report, stated independently of the problem list. */
  predicate Complete(data: Json)
    requires data.JObj?
  {
    && (forall i :: 0 <= i < |RequiredFields| ==> HasKey(data.fields, RequiredFields[i]))
    && Truthy(NameValue(data))
    && Lookup(data.fields, "discos").Some? && Lookup(data.fields, "discos").value.JArr?
    && Lookup(data.fields, "discos").value.items != []
    && (Lookup(data.fields, "softwares").Some? ==> Lookup(data.fields, "softwares").value.JArr?)
  }

  lemma InFourParts<T>(x: T, a: seq<T>, b: seq<T>, c: seq<T>, d: seq<T>)
    ensures x in a + b + c + d <==> x in a || x in b || x in c || x in d
  {
  }

  /** The problem list split into its four parts. */
  lemma ValidateDataParts(data: Json)
    requires data.JObj? && IdentReadable(data)
    ensures ValidateData(data).value == MissingProblems(MissingFields(data)) + NameProblems(data).value
      + DiskProblems(data) + SoftwareProblems(data)
  {
  }

  /** The missing-section problems come first, in the order of the required list. */
  lemma MissingComeFirst(data: Json)
    requires data.JObj? && IdentReadable(data)
    ensures |MissingFields(data)| <= |ValidateData(data).value|
    ensures ValidateData(data).value[..|MissingFields(data)|] == MissingProblems(MissingFields(data))
  {
    ValidateDataParts(data);
    PrefixOfFour(MissingProblems(MissingFields(data)), NameProblems(data).value,
      DiskProblems(data), SoftwareProblems(data));
  }

  lemma PrefixOfFour<T>(a: seq<T>, b: seq<T>, c: seq<T>, d: seq<T>)
    ensures |a| <= |a + b + c + d| && (a + b + c + d)[..|a|] == a
  {
  }

  /** A problem other than a missing section is in the list iff one of the last three parts has it. */
  lemma OtherProblemIn(data: Json, p: Problem)
    requires data.JObj? && IdentReadable(data) && !p.Missing?
    ensures p in ValidateData(data).value <==>
      p in NameProblems(data).value || p in DiskProblems(data) || p in SoftwareProblems(data)
  {
    var missing := MissingProblems(MissingFields(data));
    assert p !in missing by {
      forall i | 0 <= i < |missing|
        ensures missing[i] != p
      {
      }
    }
    ValidateDataParts(data);
    InFourParts(p, missing, NameProblems(data).value, DiskProblems(data), SoftwareProblems(data));
  }

  /** A missing-section problem is reported exactly for the absent required sections. */
  lemma {:induction false} MissingFieldReported(data: Json, f: string)
    requires data.JObj? && IdentReadable(data)
    ensures Missing(f) in ValidateData(data).value <==> f in RequiredFields && !HasKey(data.fields, f)
  {
    var fs := MissingFields(data);
    var v := ValidateData(data).value;
    ValidateDataParts(data);
    InFourParts(Missing(f), MissingProblems(fs), NameProblems(data).value, DiskProblems(data), SoftwareProblems(data));
    assert Missing(f) in v <==> Missing(f) in MissingProblems(fs);
    MissingProblemIn(fs, f);
  }

  lemma MissingProblemIn(fs: seq<string>, f: string)
    ensures Missing(f) in MissingProblems(fs) <==> f in fs
  {
    var ps := MissingProblems(fs);
    if Missing(f) in ps {
      var j :| 0 <= j < |ps| && ps[j] == Missing(f);
      assert fs[j] == f;
    }
    if f in fs {
      var j :| 0 <= j < |fs| && fs[j] == f;
      assert ps[j] == Missing(f);
    }
  }

  /** The name problem: reported when the identification lacks a truthy name. */
  lemma NameReported(data: Json)
    requires data.JObj? && IdentReadable(data)
    ensures NameRequired in ValidateData(data).value <==>
      HasKey(data.fields, "identificacao") && !Truthy(NameValue(data))
  {
    OtherProblemIn(data, NameRequired);
  }

  /** The disk problems: at most one of the two, by the shape of the disk section. */
  lemma DisksReported(data: Json)
    requires data.JObj? && IdentReadable(data)
    ensures DisksNotList in ValidateData(data).value <==>
      HasKey(data.fields, "discos") && !Lookup(data.fields, "discos").value.JArr?
    ensures NoDisks in ValidateData(data).value <==> Lookup(data.fields, "discos") == Some(JArr([]))
    ensures !(DisksNotList in ValidateData(data).value && NoDisks in ValidateData(data).value)
  {
    OtherProblemIn(data, DisksNotList);
    OtherProblemIn(data, NoDisks);
  }

  /** The software problem: only for a present value that is not a list. */
  lemma SoftwareReported(data: Json)
    requires data.JObj? && IdentReadable(data)
    ensures SoftwareNotList in ValidateData(data).value <==>
      HasKey(data.fields, "softwares") && !Lookup(data.fields, "softwares").value.JArr?
  {
    OtherProblemIn(data, SoftwareNotList);
  }

  /** The list is empty exactly for a complete snapshot. */
  lemma ValidIffComplete(data: Json)
    requires data.JObj? && IdentReadable(data)
    ensures ValidateData(data).value == [] <==> Complete(data)
  {
    if ValidateData(data).value == [] {
      EmptyIsComplete(data);
    }
    if Complete(data) {
      CompleteIsEmpty(data);
    }
  }

  lemma {:induction false} EmptyIsComplete(data: Json)
    requires data.JObj? && IdentReadable(data) && ValidateData(data).value == []
    ensures Complete(data)
  {
    forall i | 0 <= i < |RequiredFields|
      ensures HasKey(data.fields, RequiredFields[i])
    {
      MissingFieldReported(data, RequiredFields[i]);
    }
    assert HasKey(data.fields, RequiredFields[0]) && HasKey(data.fields, RequiredFields[5]);
    NameReported(data);
    DisksReported(data);
    SoftwareReported(data);
  }

  lemma {:induction false} CompleteIsEmpty(data: Json)
    requires data.JObj? && IdentReadable(data) && Complete(data)
    ensures ValidateData(data).value == []
  {
    var fs := MissingFields(data);
    assert fs == [];
    ValidateDataParts(data);
    assert NameProblems(data).value == [];
  }

  // ---------------------------------------------------------------------
  // print_summary
  // ---------------------------------------------------------------------

  /** The counts `print_summary` shows; the other values it prints are not modelled. */
  datatype Summary = Summary(disks: nat, nics: nat, software: nat,
                             controllers: nat, monitors: nat, printers: nat)

  /** The loop over the disks shown: each one is read with `.get`. */
  function ShowDisks(ds: seq<Json>): (r: Result<nat>)
    ensures r.Ok? <==> forall i :: 0 <= i < |ds| ==> ds[i].JObj?
    ensures r.Ok? ==> r.value == |ds|
    ensures r.Err? ==> r.error == AttributeError
  {
    if ds == [] then Ok(0)
    else
      var unidade :- Get(ds[0], "unidade", JStr(""));
      var n :- ShowDisks(ds[1..]);
      Ok(n + 1)
  }

  /** The identification, system, processor and memory lines, each read with `.get`. */
  function SummaryHeader(data: Json): (r: Result<()>)
    requires data.JObj?
    ensures r.Ok? <==> (Field(data, "identificacao", JObj([])).JObj?
      && Field(data, "sistema_operacional", JObj([])).JObj?
      && Field(data, "processador", JObj([])).JObj?
      && Field(data, "memoria", JObj([])).JObj?)
  {
    var nome :- Get(Field(data, "identificacao", JObj([])), "nome_computador", JStr("N/A"));
    var so :- Get(Field(data, "sistema_operacional", JObj([])), "nome", JStr("N/A"));
    var modelo :- Get(Field(data, "processador", JObj([])), "modelo", JStr("N/A"));
    var ram :- Get(Field(data, "memoria", JObj([])), "capacidade_total_gb", JNum(0));
    Ok(())
  }

  /** The network lines: `.get` on the section, then `len` of its adapters. */
  function SummaryNetwork(rede: Json): (r: Result<nat>)
    ensures r.Ok? <==> rede.JObj? && HasLen(Field(rede, "placas", JArr([])))
    ensures r.Ok? ==> Len(Field(rede, "placas", JArr([]))) == Ok(r.value)
  {
    var placas :- Get(rede, "placas", JArr([]));
    Len(placas)
  }

  /** The software, controller, monitor and printer lines: a `len` each. */
  function SummaryCounts(data: Json): (r: Result<(nat, nat, nat, nat)>)
    requires data.JObj?
    ensures r.Ok? <==> (HasLen(Field(data, "softwares", JArr([])))
      && HasLen(Field(data, "controladores", JArr([])))
      && HasLen(Field(data, "monitores", JArr([])))
      && HasLen(Field(data, "impressoras", JArr([]))))
    ensures r.Ok? ==>
      && Len(Field(data, "softwares", JArr([]))) == Ok(r.value.0)
      && Len(Field(data, "controladores", JArr([]))) == Ok(r.value.1)
      && Len(Field(data, "monitores", JArr([]))) == Ok(r.value.2)
      && Len(Field(data, "impressoras", JArr([]))) == Ok(r.value.3)
  {
    var software :- Len(Field(data, "softwares", JArr([])));
    var controllers :- Len(Field(data, "controladores", JArr([])));
    var monitors :- Len(Field(data, "monitores", JArr([])));
    var printers :- Len(Field(data, "impressoras", JArr([])));
    Ok((software, controllers, monitors, printers))
  }

  /** The disk lines: `len(discos)`, then `.get` on each of `discos[:3]`; slicing a dict raises. */
  function SummaryDisks(discos: Json): (r: Result<nat>)
    ensures r.Ok? <==> DisksShowable(discos)
    ensures r.Ok? ==> Len(discos) == Ok(r.value)
  {
    var n :- Len(discos);
    var sliced :- if discos.JObj? then Err(TypeError) else Iterate(discos);
    var shown :- ShowDisks(if |sliced| <= 3 then sliced else sliced[..3]);
    Ok(n)
  }

  /**
   * `print_summary`, reduced to whether it raises and the counts it
   * prints. Each section is fetched with a default and then read with
   * `.get` or `len`; `discos[:3]` is sliced and its elements read with
   * `.get`.
   */
  function PrintSummary(data: Json): (r: Result<Summary>)
    requires data.JObj?
    ensures r.Ok? <==> SummaryReadable(data)
    ensures r.Ok? ==> var rede := Field(data, "rede", JObj([]));
      && Len(Field(data, "discos", JArr([]))) == Ok(r.value.disks)
      && Len(Field(rede, "placas", JArr([]))) == Ok(r.value.nics)
      && Len(Field(data, "softwares", JArr([]))) == Ok(r.value.software)
      && Len(Field(data, "controladores", JArr([]))) == Ok(r.value.controllers)
      && Len(Field(data, "monitores", JArr([]))) == Ok(r.value.monitors)
      && Len(Field(data, "impressoras", JArr([]))) == Ok(r.value.printers)
  {
    var header :- SummaryHeader(data);
    var disks :- SummaryDisks(Field(data, "discos", JArr([])));
    var nics :- SummaryNetwork(Field(data, "rede", JObj([])));
    var counts :- SummaryCounts(data);
    Ok(Summary(disks, nics, counts.0, counts.1, counts.2, counts.3))
  }

  /** `len` applies: text, a list or a dict. */
  predicate HasLen(j: Json) {
    j.JStr? || j.JArr? || j.JObj?
  }

  /** The first three disks can be read with `.get`: a list whose first three entries are dicts, or empty text. */
  predicate DisksShowable(d: Json) {
    match d
    case JArr(xs) => forall i :: 0 <= i < |xs| && i < 3 ==> xs[i].JObj?
    case JStr(s) => s == []
    case _ => false
  }

  /** The summary prints without raising, stated section by section. */
  predicate SummaryReadable(data: Json)
    requires data.JObj?
  {
    && Field(data, "identificacao", JObj([])).JObj?
    && Field(data, "sistema_operacional", JObj([])).JObj?
    && Field(data, "processador", JObj([])).JObj?
    && Field(data, "memoria", JObj([])).JObj?
    && DisksShowable(Field(data, "discos", JArr([])))
    && Field(data, "rede", JObj([])).JObj?
    && HasLen(Field(Field(data, "rede", JObj([])), "placas", JArr([])))
    && HasLen(Field(data, "softwares", JArr([])))
    && HasLen(Field(data, "controladores", JArr([])))
    && HasLen(Field(data, "monitores", JArr([])))
    && HasLen(Field(data, "impressoras", JArr([])))
  }

  /** A snapshot with every section absent prints a summary of zeros. */
  lemma EmptySummary()
    ensures PrintSummary(JObj([])) == Ok(Summary(0, 0, 0, 0, 0, 0))
  {
  }

  /** A list-valued operating-system section passes validation but makes the summary raise. */
  lemma ListSectionBreaksSummary()
    ensures var data := JObj([("identificacao", JObj([("nome_computador", JStr("PC"))])),
                              ("sistema_operacional", JArr([]))]);
      && ValidateData(data).Ok? && PrintSummary(data) == Err(AttributeError)
  {
  }

  // ---------------------------------------------------------------------
  // clean_string
  // ---------------------------------------------------------------------

  /** The characters `clean_string` keeps before stripping: code point 32 and above. */
  function Printable(s: string): (r: string)
    ensures |r| <= |s|
  {
    if s == [] then []
    else if s[0] >= ' ' then [s[0]] + Printable(s[1..])
    else Printable(s[1..])
  }

  lemma {:induction false} PrintableIsSubsequence(s: string)
    ensures IsSubsequence(Printable(s), s)
  {
    if s != [] {
      PrintableIsSubsequence(s[1..]);
      if s[0] < ' ' {
        SubsequenceCons(Printable(s[1..]), s[1..], s[0]);
        assert [s[0]] + s[1..] == s;
      }
    }
  }

  lemma {:induction false} PrintableOnly(s: string)
    ensures forall i :: 0 <= i < |Printable(s)| ==> Printable(s)[i] >= ' '
  {
    if s != [] {
      PrintableOnly(s[1..]);
    }
  }

  /** Every occurrence of a character at code point 32 or above is kept, so each keeps its count. */
  lemma {:induction false} PrintableKeeps(s: string)
    ensures forall i :: 0 <= i < |s| && s[i] >= ' ' ==> s[i] in Printable(s)
    ensures forall c :: c >= ' ' ==> multiset(Printable(s))[c] == multiset(s)[c]
  {
    if s != [] {
      PrintableKeeps(s[1..]);
      assert s == [s[0]] + s[1..];
      assert multiset(s) == multiset{s[0]} + multiset(s[1..]);
      forall i | 0 <= i < |s| && s[i] >= ' '
        ensures s[i] in Printable(s)
      {
        if i > 0 {
          assert s[i] == s[1..][i - 1];
        }
      }
    }
  }

  lemma {:induction false} PrintableKeepsAll(s: string)
    requires forall i :: 0 <= i < |s| ==> s[i] >= ' '
    ensures Printable(s) == s
  {
    if s != [] {
      PrintableKeepsAll(s[1..]);
      assert [s[0]] + s[1..] == s;
    }
  }

  lemma {:induction false} SubsequenceTrans<T>(a: seq<T>, b: seq<T>, c: seq<T>)
    requires IsSubsequence(a, b) && IsSubsequence(b, c)
    ensures IsSubsequence(a, c)
    decreases |c|
  {
    if a != [] {
      assert b != [] && c != [];
      if b[0] == c[0] {
        if a[0] == b[0] {
          SubsequenceTrans(a[1..], b[1..], c[1..]);
        } else {
          SubsequenceTrans(a, b[1..], c[1..]);
        }
      } else {
        SubsequenceTrans(a, b, c[1..]);
        SubsequenceCons(a, c[1..], c[0]);
        assert [c[0]] + c[1..] == c;
      }
    }
  }

  lemma {:induction false} SliceIsSubsequence<T>(s: seq<T>, k: nat, n: nat)
    requires k + n <= |s|
    ensures IsSubsequence(s[k..k + n], s)
    decreases k + n
  {
    if k > 0 {
      SliceIsSubsequence(s[1..], k - 1, n);
      assert s[1..][k - 1..k - 1 + n] == s[k..k + n];
      SubsequenceCons(s[k..k + n], s[1..], s[0]);
      assert [s[0]] + s[1..] == s;
    } else if n > 0 {
      SliceIsSubsequence(s[1..], 0, n - 1);
      assert s[..n][1..] == s[1..][0..n - 1];
    }
  }

  /**
   * `clean_string`: `None` and "" give ""; otherwise the control characters
   * are dropped and the result is stripped.
   */
  function CleanString(text: Option<string>): (r: string)
    ensures text.None? || text == Some([]) ==> r == []
    ensures text.Some? ==> |r| <= |text.value|
  {
    if text.None? || text.value == [] then ""
    else Strip(Printable(text.value))
  }

  /** Cleaning only removes characters: the result is a subsequence of the input. */
  lemma CleanIsSubsequence(text: string)
    ensures IsSubsequence(CleanString(Some(text)), text)
  {
    if text != [] {
      PrintableIsSubsequence(text);
      StripIsSubsequence(text, Printable(text));
    }
  }

  lemma StripIsSubsequence(t: string, p: string)
    requires IsSubsequence(p, t)
    ensures IsSubsequence(Strip(p), t)
  {
    StripSplits(p);
    MiddleIsSubsequence(t, p, StripStart(p), Strip(p));
  }

  lemma MiddleIsSubsequence(t: string, p: string, k: nat, r: string)
    requires IsSubsequence(p, t)
    requires k + |r| <= |p| && p[k..k + |r|] == r
    ensures IsSubsequence(r, t)
  {
    SliceIsSubsequence(p, k, |r|);
    SubsequenceTrans(r, p, t);
  }

  /** No control character survives. */
  lemma CleanIsPrintable(text: Option<string>)
    ensures forall i :: 0 <= i < |CleanString(text)| ==> CleanString(text)[i] >= ' '
  {
    if text.Some? && text.value != [] {
      var p := Printable(text.value);
      PrintableOnly(text.value);
      StripSplits(p);
      SliceKeepsPrintable(p, StripStart(p), Strip(p));
    }
  }

  /** Neither end of the result is whitespace. */
  lemma CleanIsStripped(text: Option<string>)
    ensures CleanString(text) != [] ==>
      !IsSpace(CleanString(text)[0]) && !IsSpace(CleanString(text)[|CleanString(text)| - 1])
  {
    if text.Some? && text.value != [] {
      StripSplits(Printable(text.value));
    }
  }

  /** Every printable non-space character of the input is still there, as often as in the input. */
  lemma CleanKeepsVisible(text: string)
    ensures forall i :: (0 <= i < |text| && text[i] >= ' ' && !IsSpace(text[i])) ==>
      text[i] in CleanString(Some(text))
    ensures forall c :: c >= ' ' && !IsSpace(c) ==>
      multiset(CleanString(Some(text)))[c] == multiset(text)[c]
  {
    if text != [] {
      var p := Printable(text);
      var r := Strip(p);
      assert CleanString(Some(text)) == r;
      PrintableKeeps(text);
      StripSplits(p);
      KeptCharsSurvive(p, StripStart(p), r);
      KeptCharsCount(p, StripStart(p), r);
      forall i | 0 <= i < |text| && text[i] >= ' ' && !IsSpace(text[i])
        ensures text[i] in r
      {
        assert text[i] in p;
      }
      forall c | c >= ' ' && !IsSpace(c)
        ensures multiset(r)[c] == multiset(text)[c]
      {
        assert multiset(r)[c] == multiset(p)[c];
      }
    }
  }

  lemma KeptCharsCount(p: string, k: nat, r: string)
    requires k + |r| <= |p| && p[k..k + |r|] == r
    requires forall i :: 0 <= i < k ==> IsSpace(p[i])
    requires forall i :: k + |r| <= i < |p| ==> IsSpace(p[i])
    ensures forall c :: !IsSpace(c) ==> multiset(r)[c] == multiset(p)[c]
  {
    var front, back := p[..k], p[k + |r|..];
    assert p == front + r + back;
    forall c | !IsSpace(c)
      ensures multiset(r)[c] == multiset(p)[c]
    {
      assert forall i :: 0 <= i < |front| ==> front[i] == p[i];
      assert forall i :: 0 <= i < |back| ==> back[i] == p[k + |r| + i];
      assert c !in front && c !in back;
    }
  }

  lemma SliceKeepsPrintable(p: string, k: nat, r: string)
    requires k + |r| <= |p| && p[k..k + |r|] == r
    requires forall i :: 0 <= i < |p| ==> p[i] >= ' '
    ensures forall i :: 0 <= i < |r| ==> r[i] >= ' '
  {
    forall i | 0 <= i < |r|
      ensures r[i] >= ' '
    {
      assert r[i] == p[k + i];
    }
  }

  lemma KeptCharsSurvive(p: string, k: nat, r: string)
    requires k + |r| <= |p| && p[k..k + |r|] == r
    requires forall i :: 0 <= i < k ==> IsSpace(p[i])
    requires forall i :: k + |r| <= i < |p| ==> IsSpace(p[i])
    ensures forall c :: c in p && !IsSpace(c) ==> c in r
  {
    forall c | c in p && !IsSpace(c)
      ensures c in r
    {
      var i :| 0 <= i < |p| && p[i] == c;
      assert r[i - k] == c;
    }
  }

  lemma StripKeepsTrimmed(s: string)
    requires s != [] ==> !IsSpace(s[0]) && !IsSpace(s[|s| - 1])
    ensures Strip(s) == s
  {
  }

  /** Cleaning a cleaned string changes nothing. */
  lemma CleanStringIdempotent(text: Option<string>)
    ensures CleanString(Some(CleanString(text))) == CleanString(text)
  {
    var r := CleanString(text);
    if r != [] {
      CleanIsPrintable(text);
      CleanIsStripped(text);
      PrintableKeepsAll(r);
      StripKeepsTrimmed(r);
    }
  }

  // ---------------------------------------------------------------------
  // format_file_size: the unit choice
  // ---------------------------------------------------------------------

  const SizeUnits: seq<string> := ["B", "KB", "MB", "GB", "TB"]

  /** "0 B", or the scaled amount and its unit (the two-decimal rendering is not modelled). */
  datatype FileSize = ZeroBytes | Scaled(amount: real, unit: string)

  function Pow1024(n: nat): (p: nat)
    ensures p >= 1
  {
    if n == 0 then 1 else 1024 * Pow1024(n - 1)
  }

  /** The unit a size is shown in, by thresholds: the largest power of 1024 not above it, at most TB. */
  function UnitIndex(size: int): (i: nat)
    ensures i < |SizeUnits|
  {
    if size < Pow1024(1) then 0
    else if size < Pow1024(2) then 1
    else if size < Pow1024(3) then 2
    else if size < Pow1024(4) then 3
    else 4
  }

  /** One division step keeps `amount · 1024^i == size` and decides the loop test. */
  lemma ScaleStep(amount: real, size: int, i: nat)
    requires amount * (Pow1024(i) as real) == size as real
    ensures (amount / 1024.0) * (Pow1024(i + 1) as real) == size as real
    ensures amount >= 1024.0 <==> size >= Pow1024(i + 1)
  {
    var p := Pow1024(i) as real;
    DivideStep(amount, size as real, p);
    assert Pow1024(i + 1) as real == p * 1024.0;
  }

  lemma DivideStep(v: real, size: real, p: real)
    requires p > 0.0 && v * p == size
    ensures (v / 1024.0) * (p * 1024.0) == size
    ensures v >= 1024.0 <==> size >= 1024.0 * p
  {
  }

  lemma Pow1024Values()
    ensures Pow1024(1) == 1024 && Pow1024(2) == 1024 * 1024
    ensures Pow1024(3) == 1024 * 1024 * 1024 && Pow1024(4) == 1024 * 1024 * 1024 * 1024
  {
  }

  /** The threshold definition picks `i` when `size` lies between the `i`-th and the next power. */
  lemma UnitIndexIs(size: int, i: nat)
    requires i <= 4 && (i > 0 ==> Pow1024(i) <= size) && (i < 4 ==> size < Pow1024(i + 1))
    ensures UnitIndex(size) == i
  {
    Pow1024Values();
  }

  /**
   * `format_file_size`: divide by 1024 while the amount is at least 1024
   * and a larger unit exists.
   */
  method FormatFileSize(size: int) returns (r: FileSize)
    ensures size == 0 <==> r.ZeroBytes?
    ensures r.Scaled? ==> (r.unit == SizeUnits[UnitIndex(size)]
      && r.amount * (Pow1024(UnitIndex(size)) as real) == size as real)
  {
    if size == 0 {
      return ZeroBytes;
    }
    var amount: real := size as real;
    var i: nat := 0;
    while amount >= 1024.0 && i < |SizeUnits| - 1
      invariant i < |SizeUnits|
      invariant amount * (Pow1024(i) as real) == size as real
      invariant i > 0 ==> Pow1024(i) <= size
    {
      ScaleStep(amount, size, i);
      amount := amount / 1024.0;
      i := i + 1;
    }
    ScaleStep(amount, size, i);
    UnitIndexIs(size, i);
    return Scaled(amount, SizeUnits[i]);
  }

  // ---------------------------------------------------------------------
  // is_office_hours / should_run_quietly
  // ---------------------------------------------------------------------

  /** `date.weekday()`: Monday is 0; 1970-01-01 was a Thursday. */
  function Weekday(dt: DateTime): (w: int)
    ensures 0 <= w < 7
  {
    (DaysFromCivil(dt.year, dt.month, dt.day) + 3) % 7
  }

  /** Monday to Friday, from 9:00 up to but not including 18:00. */
  predicate IsOfficeHours(now: DateTime) {
    Weekday(now) < 5 && 9 <= now.hour < 18
  }

  predicate ShouldRunQuietly(now: DateTime) {
    !IsOfficeHours(now)
  }

  /** 1 January 2024 was a Monday. */
  lemma WeekdayAnchor()
    ensures Weekday(DateTime(2024, 1, 1, 0, 0, 0, 0)) == 0
  {
    assert DaysFromCivil(2024, 1, 1) == 19723;
  }

  /** The weekday steps by one, modulo seven, from one calendar day to the next. */
  lemma WeekdayAdvances(a: DateTime, b: DateTime)
    requires DaysFromCivil(b.year, b.month, b.day) == DaysFromCivil(a.year, a.month, a.day) + 1
    ensures Weekday(b) == (Weekday(a) + 1) % 7
  {
  }

  /**
   * Counting days from Saturday 6 January 2024 in whole weeks, the first
   * two days of each week (Saturday and Sunday) are quiet all day, and the
   * other five are quiet only before 9:00 and from 18:00.
   */
  lemma QuietOnWeekends(now: DateTime, weeks: int, k: int)
    requires 0 <= k < 7
    requires DaysFromCivil(now.year, now.month, now.day) == DaysFromCivil(2024, 1, 6) + 7 * weeks + k
    ensures ShouldRunQuietly(now) <==> (k <= 1 || now.hour < 9 || now.hour >= 18)
  {
    assert DaysFromCivil(2024, 1, 6) == 19728;
    var days := 19728 + 7 * weeks + k + 3;
    assert days == 7 * (2818 + weeks) + (k + 5);
    assert Weekday(now) == (k + 5) % 7;
  }

  // ---------------------------------------------------------------------
  // get_domain_name / is_domain_environment
  // ---------------------------------------------------------------------

  /** `fqdn.split('.', 1)[1]` when the name has a dot, else `None`. */
  function GetDomainName(fqdn: string): (r: Option<string>)
    ensures r.Some? <==> Contains(fqdn, '.')
    ensures r.Some? ==> exists k :: (0 <= k < |fqdn| && fqdn[k] == '.'
      && (forall i :: 0 <= i < k ==> fqdn[i] != '.') && r.value == fqdn[k + 1..])
  {
    match IndexOf(fqdn, '.')
    case None => None
    case Some(k) => Some(fqdn[k + 1..])
  }

  /** A host name without a dot, joined to a domain, gives back that domain. */
  lemma DomainOfQualifiedName(host: string, domain: string)
    requires !Contains(host, '.')
    ensures GetDomainName(host + "." + domain) == Some(domain)
  {
    var fqdn := host + "." + domain;
    assert forall i :: 0 <= i < |host| ==> fqdn[i] == host[i];
    IndexOfAt(fqdn, '.', |host|);
    assert fqdn[|host| + 1..] == domain;
  }

  /** `fqdn != hostname and '.' in fqdn`. */
  predicate IsDomainEnvironment(hostname: string, fqdn: string) {
    fqdn != hostname && Contains(fqdn, '.')
  }

  /** In a domain environment a domain name can always be read off the FQDN. */
  lemma DomainEnvironmentHasDomain(hostname: string, fqdn: string)
    requires IsDomainEnvironment(hostname, fqdn)
    ensures GetDomainName(fqdn).Some?
  {
  }
}

=== FILE: base.dfy ===
/**
 * Shared vocabulary: optional values, Python-style failures, and the
 * character and digit helpers that the string logic of the system uses.
 */
module Base {

  /** A value that may be missing (Python's `None`). */
  datatype Option<+T> = None | Some(value: T) {
    function GetOr(default: T): T {
      if Some? then value else default
    }
  }

  /** The exception classes the modelled Python code can raise. */
  datatype PyError =
    | AttributeError   // `.get` on something that is not a dict
    | TypeError        // bad operand types, iteration of a non-iterable, naive/aware mix
    | ValueError       // an unparseable ISO timestamp
    | DatabaseError    // a value the MySQL driver or server refuses
    | KeyError         // `d[key]` on a dict without that key

  /** Either a value or the exception that a Python expression raised. */
  datatype Result<+T> = Ok(value: T) | Err(error: PyError) {
    predicate IsFailure() {
      Err?
    }

    function PropagateFailure<U>(): Result<U>
      requires Err?
    {
      Err(error)
    }

    function Extract(): T
      requires Ok?
    {
      value
    }
  }

  // ---------------------------------------------------------------------
  // Decimal digits
  // ---------------------------------------------------------------------

  predicate IsDigit(c: char) {
    '0' <= c <= '9'
  }

  predicate AllDigits(s: string) {
    forall i :: 0 <= i < |s| ==> IsDigit(s[i])
  }

  function DigitChar(d: nat): (c: char)
    requires d < 10
    ensures IsDigit(c)
  {
    (48 + d) as char
  }

  function DigitValue(c: char): (d: nat)
    requires IsDigit(c)
    ensures d < 10 && DigitChar(d) == c
  {
    c as int - 48
  }

  function Pow10(w: nat): (p: nat)
    ensures p >= 1
  {
    if w == 0 then 1 else 10 * Pow10(w - 1)
  }

  /** The value of a string of decimal digits, most significant first. */
  function DigitsValue(s: string): (n: nat)
    requires AllDigits(s)
    ensures n < Pow10(|s|)
  {
    if s == [] then 0 else DigitsValue(s[..|s| - 1]) * 10 + DigitValue(s[|s| - 1])
  }

  /** `n` written with exactly `w` digits, zero-padded on the left (`%0wd`). */
  function PadDigits(n: nat, w: nat): (s: string)
    requires n < Pow10(w)
    ensures |s| == w && AllDigits(s)
  {
    if w == 0 then [] else PadDigits(n / 10, w - 1) + [DigitChar(n % 10)]
  }

  /** Reading back a zero-padded rendering gives the number. */
  lemma {:induction false} PadDigitsRoundTrip(n: nat, w: nat)
    requires n < Pow10(w)
    ensures DigitsValue(PadDigits(n, w)) == n
  {
    if w > 0 {
      var s := PadDigits(n, w);
      assert s[..|s| - 1] == PadDigits(n / 10, w - 1);
      PadDigitsRoundTrip(n / 10, w - 1);
    }
  }

  /** Python's `str(n)` for a non-negative integer: no leading zeros. */
  function NatToString(n: nat): (s: string)
    ensures |s| >= 1 && AllDigits(s)
    ensures s[0] == '0' ==> n == 0
  {
    if n < 10 then [DigitChar(n)] else NatToString(n / 10) + [DigitChar(n % 10)]
  }

  lemma {:induction false} NatToStringRoundTrip(n: nat)
    ensures DigitsValue(NatToString(n)) == n
  {
    if n >= 10 {
      var s := NatToString(n);
      assert s[..|s| - 1] == NatToString(n / 10);
      NatToStringRoundTrip(n / 10);
    }
  }

  /** Python's `str(i)` for any integer. */
  function IntToString(i: int): (s: string)
    ensures |s| >= 1
    ensures i >= 0 <==> AllDigits(s)
  {
    if i < 0 then
      var s := "-" + NatToString(-i);
      assert !IsDigit(s[0]);
      s
    else NatToString(i)
  }

  // ---------------------------------------------------------------------
  // Whitespace and stripping (Python's `str.isspace` / `str.strip`)
  // ---------------------------------------------------------------------

  /** The number of code-point ranges Python's `str.isspace` accepts. */
  const SpaceRangeCount := 10

  /** The `k`-th of those ranges, as inclusive bounds. */
  function SpaceRange(k: nat): (char, char)
    requires k < SpaceRangeCount
  {
    match k
    case 0 => ('\t', '\r')
    case 1 => ('\U{1c}', ' ')
    case 2 => ('\U{85}', '\U{85}')
    case 3 => ('\U{a0}', '\U{a0}')
    case 4 => ('\U{1680}', '\U{1680}')
    case 5 => ('\U{2000}', '\U{200a}')
    case 6 => ('\U{2028}', '\U{2029}')
    case 7 => ('\U{202f}', '\U{202f}')
    case 8 => ('\U{205f}', '\U{205f}')
    case _ => ('\U{3000}', '\U{3000}')
  }

  /** `c` lies in one of the ranges numbered `k` and up. */
  predicate SpaceFrom(c: char, k: nat)
    decreases SpaceRangeCount - k
  {
    k < SpaceRangeCount && (SpaceRange(k).0 <= c <= SpaceRange(k).1 || SpaceFrom(c, k + 1))
  }

  /** The characters for which Python's `str.isspace()` is true. */
  predicate IsSpace(c: char) {
    SpaceFrom(c, 0)
  }

  /** Python's `s.lstrip()`. */
  function TrimStart(s: string): (r: string)
    ensures |r| <= |s| && r == s[|s| - |r|..]
    ensures r != [] ==> !IsSpace(r[0])
    ensures forall i :: 0 <= i < |s| - |r| ==> IsSpace(s[i])
  {
    if s == [] || !IsSpace(s[0]) then s
    else
      var t := TrimStart(s[1..]);
      assert forall i :: 1 <= i < |s| - |t| ==> s[i] == s[1..][i - 1];
      t
  }

  /** Python's `s.rstrip()`. */
  function TrimEnd(s: string): (r: string)
    ensures |r| <= |s| && r == s[..|r|]
    ensures r != [] ==> !IsSpace(r[|r| - 1])
    ensures forall i :: |r| <= i < |s| ==> IsSpace(s[i])
  {
    if s == [] || !IsSpace(s[|s| - 1]) then s
    else
      var t := TrimEnd(s[..|s| - 1]);
      assert forall i :: |t| <= i < |s| - 1 ==> s[i] == s[..|s| - 1][i];
      t
  }

  /** Python's `s.strip()` with no argument. */
  function Strip(s: string): string {
    TrimEnd(TrimStart(s))
  }

  /** How many leading characters `Strip` removes. */
  function StripStart(s: string): (k: nat)
    ensures k <= |s|
  {
    |s| - |TrimStart(s)|
  }

  /**
   * `Strip(s)` is the middle piece of `s` that is flanked by whitespace
   * only and neither starts nor ends with whitespace.
   */
  lemma StripSplits(s: string)
    ensures StripStart(s) + |Strip(s)| <= |s|
    ensures s[StripStart(s)..StripStart(s) + |Strip(s)|] == Strip(s)
    ensures forall i :: 0 <= i < StripStart(s) ==> IsSpace(s[i])
    ensures forall i :: StripStart(s) + |Strip(s)| <= i < |s| ==> IsSpace(s[i])
    ensures Strip(s) != [] ==> !IsSpace(Strip(s)[0]) && !IsSpace(Strip(s)[|Strip(s)| - 1])
  {
    var t := TrimStart(s);
    var r := TrimEnd(t);
    assert Strip(s) == r && StripStart(s) == |s| - |t|;
    StripMiddle(s, t, r);
    StripEnds(t);
  }

  lemma StripMiddle(s: string, t: string, r: string)
    requires |t| <= |s| && t == s[|s| - |t|..]
    requires |r| <= |t| && r == t[..|r|]
    requires forall i :: |r| <= i < |t| ==> IsSpace(t[i])
    ensures var k := |s| - |t|;
      s[k..k + |r|] == r && forall i :: k + |r| <= i < |s| ==> IsSpace(s[i])
  {
    var k := |s| - |t|;
    forall i | k + |r| <= i < |s|
      ensures IsSpace(s[i])
    {
      assert s[i] == t[i - k];
    }
  }

  lemma StripEnds(t: string)
    requires t == [] || !IsSpace(t[0])
    ensures var r := TrimEnd(t); r != [] ==> !IsSpace(r[0]) && !IsSpace(r[|r| - 1])
  {
    var r := TrimEnd(t);
    if r != [] {
      assert r[0] == t[0];
    }
  }

  /** A string made only of whitespace strips to nothing. */
  lemma {:induction false} StripAllSpace(s: string)
    requires forall i :: 0 <= i < |s| ==> IsSpace(s[i])
    ensures TrimStart(s) == [] && Strip(s) == []
  {
    if s != [] {
      StripAllSpace(s[1..]);
    }
  }

  predicate Contains(s: string, c: char) {
    exists i :: 0 <= i < |s| && s[i] == c
  }

  /** Index of the first occurrence of `c` in `s`, if any. */
  function IndexOf(s: string, c: char): (r: Option<nat>)
    ensures r.Some? ==> r.value < |s| && s[r.value] == c
    ensures r.Some? ==> forall i :: 0 <= i < r.value ==> s[i] != c
    ensures r.None? <==> !Contains(s, c)
  {
    if s == [] then None
    else if s[0] == c then Some(0)
    else match IndexOf(s[1..], c)
      case None => None
      case Some(i) => Some(i + 1)
  }

  /** The first occurrence is the one `IndexOf` finds. */
  lemma {:induction false} IndexOfAt(s: string, c: char, k: nat)
    requires k < |s| && s[k] == c
    requires forall i :: 0 <= i < k ==> s[i] != c
    ensures IndexOf(s, c) == Some(k)
  {
    if k > 0 {
      IndexOfAt(s[1..], c, k - 1);
    }
  }

  /** `Join(sep, parts)` is Python's `sep.join(parts)`. */
  function Join(sep: string, parts: seq<string>): string {
    if parts == [] then ""
    else if |parts| == 1 then parts[0]
    else parts[0] + sep + Join(sep, parts[1..])
  }

  // ---------------------------------------------------------------------
  // Order-preserving selection
  // ---------------------------------------------------------------------

  /** `a` is `b` with some elements deleted, the rest kept in order. */
  predicate IsSubsequence<T(==)>(a: seq<T>, b: seq<T>)
    decreases |b|
  {
    if a == [] then true
    else if b == [] then false
    else if a[0] == b[0] then IsSubsequence(a[1..], b[1..])
    else IsSubsequence(a, b[1..])
  }

  lemma {:induction false} SubsequenceCons<T>(a: seq<T>, b: seq<T>, x: T)
    requires IsSubsequence(a, b)
    ensures IsSubsequence(a, [x] + b)
    decreases 2 * |b| + 2
  {
    if a != [] && a[0] == x {
      SubsequenceTail(a, b);
      assert ([x] + b)[1..] == b;
    } else {
      assert ([x] + b)[1..] == b;
    }
  }

  lemma {:induction false} SubsequenceTail<T>(a: seq<T>, b: seq<T>)
    requires a != [] && IsSubsequence(a, b)
    ensures IsSubsequence(a[1..], b)
    decreases 2 * |b| + 1
  {
    assert b != [];
    if a[0] == b[0] {
      SubsequenceCons(a[1..], b[1..], b[0]);
    } else {
      SubsequenceTail(a, b[1..]);
      SubsequenceCons(a[1..], b[1..], b[0]);
    }
    assert [b[0]] + b[1..] == b;
  }

  /** Every sequence is a subsequence of itself. */
  lemma {:induction false} SubsequenceRefl<T>(a: seq<T>)
    ensures IsSubsequence(a, a)
  {
    if a != [] {
      SubsequenceRefl(a[1..]);
    }
  }

  /** The elements of `s` that satisfy `p`, in their order in `s`. */
  function Filter<T>(s: seq<T>, p: T -> bool): (r: seq<T>)
    ensures |r| <= |s|
    ensures forall i :: 0 <= i < |r| ==> p(r[i])
    ensures forall i :: 0 <= i < |r| ==> r[i] in s
    ensures forall i :: 0 <= i < |s| && p(s[i]) ==> s[i] in r
    ensures IsSubsequence(r, s)
  {
    if s == [] then []
    else
      var rest := Filter(s[1..], p);
      assert forall i :: 1 <= i < |s| ==> s[i] == s[1..][i - 1];
      SubsequenceCons(rest, s[1..], s[0]);
      assert [s[0]] + s[1..] == s;
      if p(s[0]) then
        assert ([s[0]] + rest)[1..] == rest;
        [s[0]] + rest
      else rest
  }

  /** The filter keeps every occurrence of a kept element: counts are preserved, not just membership. */
  /** Filtering a concatenation filters each part. */
  lemma {:induction false} FilterConcat<T>(a: seq<T>, b: seq<T>, p: T -> bool)
    ensures Filter(a + b, p) == Filter(a, p) + Filter(b, p)
  {
    if a == [] {
      assert a + b == b;
    } else {
      var s := a + b;
      assert s[0] == a[0] && s[1..] == a[1..] + b;
      FilterConcat(a[1..], b, p);
      if p(a[0]) {
        calc {
          Filter(s, p);
          [a[0]] + Filter(a[1..] + b, p);
          [a[0]] + (Filter(a[1..], p) + Filter(b, p));
          ([a[0]] + Filter(a[1..], p)) + Filter(b, p);
        }
      }
    }
  }

  lemma {:induction false} FilterCount<T>(s: seq<T>, p: T -> bool)
    ensures forall x :: multiset(Filter(s, p))[x] == if p(x) then multiset(s)[x] else 0
  {
    if s != [] {
      FilterCount(s[1..], p);
      assert s == [s[0]] + s[1..];
      assert multiset(s) == multiset{s[0]} + multiset(s[1..]);
    }
  }
}

=== FILE: collector.dfy ===
/**
 * The pure parts of the agent's collector (`agent/collector.py`): the
 * drive-type table, the registry software list, the memory-module fold,
 * the merge of the WMI disk list into the psutil one, and the BIOS release
 * date. The registry, WMI and psutil queries become parameters.
 */
module Collector {
  import opened Base
  import opened Time

  // ---------------------------------------------------------------------
  // _get_disk_type
  // ---------------------------------------------------------------------

  /** The labels of the `DriveType` codes 0 to 6. */
  const DiskTypeLabels: seq<string> :=
    ["Desconhecido", "Sem raiz", "Removível", "Disco Fixo", "Rede", "CD-ROM", "RAM Disk"]

  /** `_get_disk_type`: the label of a drive-type code; any other code is unknown. */
  function DiskType(code: int): (kind: string)
    ensures kind in DiskTypeLabels
  {
    if 0 <= code < |DiskTypeLabels| then DiskTypeLabels[code] else DiskTypeLabels[0]
  }

  lemma DiskTypeLabelsDistinct()
    ensures forall i, j :: 0 <= i < j < |DiskTypeLabels| ==> DiskTypeLabels[i] != DiskTypeLabels[j]
  {
    assert DiskTypeLabels[2][2] != DiskTypeLabels[4][2];
  }

  /** A code is reported as unknown exactly when it is not one of the six known kinds. */
  lemma DiskTypeUnknown(code: int)
    ensures DiskType(code) == "Desconhecido" <==> !(1 <= code <= 6)
  {
    DiskTypeLabelsDistinct();
  }

  /** The six known kinds have six different labels. */
  lemma DiskTypeInjective(a: int, b: int)
    requires 1 <= a <= 6 && 1 <= b <= 6 && DiskType(a) == DiskType(b)
    ensures a == b
  {
    DiskTypeLabelsDistinct();
  }

  // ---------------------------------------------------------------------
  // get_installed_software
  // ---------------------------------------------------------------------

  /** A registry date `YYYYMMDD` as the eight characters of the compact form. */
  function CompactDate(dt: DateTime): (s: string)
    requires Valid(dt)
    ensures |s| == 8 && AllDigits(s)
  {
    PadDigits(dt.year, 4) + PadDigits(dt.month, 2) + PadDigits(dt.day, 2)
  }

  /**
   * `data_instalacao`: an eight-digit `InstallDate` becomes `YYYY-MM-DD`;
   * anything else, and a value that cannot be read as text, gives `None`.
   */
  function InstallDate(raw: Option<string>): (r: Option<string>)
    ensures r.Some? <==> raw.Some? && |raw.value| == 8 && AllDigits(raw.value)
    ensures r.Some? ==> |r.value| == 10 && r.value[4] == '-' && r.value[7] == '-'
  {
    if raw.Some? && |raw.value| == 8 && AllDigits(raw.value) then
      var s := raw.value;
      Some(s[..4] + "-" + s[4..6] + "-" + s[6..])
    else None
  }

  /** Dropping the two dashes gives back the registry value. */
  lemma InstallDateRoundTrip(raw: string)
    requires |raw| == 8 && AllDigits(raw)
    ensures InstallDate(Some(raw)).Some?
    ensures var r := InstallDate(Some(raw)).value; r[..4] + r[5..7] + r[8..] == raw
  {
    var r := InstallDate(Some(raw)).value;
    assert r[..4] == raw[..4] && r[5..7] == raw[4..6] && r[8..] == raw[6..];
    assert raw == raw[..4] + raw[4..6] + raw[6..];
  }

  /** The registry's compact form of a date reads as that date's ISO form. */
  lemma InstallDateOfDate(dt: DateTime)
    requires Valid(dt)
    ensures InstallDate(Some(CompactDate(dt))) == Some(DatePart(dt))
  {
    var s := CompactDate(dt);
    assert s[..4] == PadDigits(dt.year, 4);
    assert s[4..6] == PadDigits(dt.month, 2);
    assert s[6..] == PadDigits(dt.day, 2);
  }

  /**
   * One uninstall subkey: whether `OpenKey` can open it, its name, and the
   * values read from it, `None` when a read fails.
   */
  datatype UninstallKey = UninstallKey(
    opens: bool,
    subkeyName: string,
    displayName: Option<string>,
    displayVersion: Option<string>,
    publisher: Option<string>,
    installDate: Option<string>)

  /** A `software_info` record. */
  datatype Software = Software(nome: string, versao: string, fabricante: string, dataInstalacao: Option<string>)

  /** The record built from one key: the key's own name stands in for a missing display name. */
  function SoftwareInfo(key: UninstallKey): Software {
    Software(key.displayName.GetOr(key.subkeyName), key.displayVersion.GetOr("N/A"),
      key.publisher.GetOr("N/A"), InstallDate(key.installDate))
  }

  /**
   * The defaults of a record: a key without a readable display name is
   * listed under its own subkey name, and a missing version or publisher
   * reads "N/A"; the install date is kept only in its eight-digit form.
   */
  lemma SoftwareInfoDefaults(key: UninstallKey)
    ensures var r := SoftwareInfo(key);
      && (key.displayName.Some? ==> r.nome == key.displayName.value)
      && (key.displayName.None? ==> r.nome == key.subkeyName)
      && (key.displayVersion.None? ==> r.versao == "N/A")
      && (key.publisher.None? ==> r.fabricante == "N/A")
      && (r.dataInstalacao.Some? <==>
            (key.installDate.Some? && |key.installDate.value| == 8 && AllDigits(key.installDate.value)))
  {
  }

  function SoftwareInfos(keys: seq<UninstallKey>): (r: seq<Software>)
    ensures |r| == |keys| && forall i :: 0 <= i < |keys| ==> r[i] == SoftwareInfo(keys[i])
  {
    seq(|keys|, i requires 0 <= i < |keys| => SoftwareInfo(keys[i]))
  }

  /** The filter of the loop: a name that is not blank after stripping. */
  predicate Listed(s: Software) {
    Strip(s.nome) != []
  }

  /**
   * The filter of `get_installed_software` over enumerated keys, in
   * enumeration order: the records with a non-blank name, in that order.
   */
  function InstalledSoftware(keys: seq<UninstallKey>): (r: seq<Software>)
    ensures forall i :: 0 <= i < |r| ==> Listed(r[i])
    ensures IsSubsequence(r, SoftwareInfos(keys))
    ensures forall i :: 0 <= i < |keys| && Listed(SoftwareInfo(keys[i])) ==> SoftwareInfo(keys[i]) in r
    ensures forall x :: multiset(r)[x] == if Listed(x) then multiset(SoftwareInfos(keys))[x] else 0
  {
    FilterCount(SoftwareInfos(keys), Listed);
    Filter(SoftwareInfos(keys), Listed)
  }

  /**
   * The subkeys the enumeration of one uninstall path reaches: none when
   * the path itself cannot be opened, and otherwise the subkeys up to the
   * first one `OpenKey` refuses. `EnumKey` and that `OpenKey` share one
   * `try` whose `OSError` handler ends the loop, so a refused subkey ends
   * the listing just as the end of the subkeys does.
   */
  function Enumerated(path: Option<seq<UninstallKey>>): (r: seq<UninstallKey>)
    ensures path.None? ==> r == []
    ensures path.Some? ==> r <= path.value
    ensures forall i :: 0 <= i < |r| ==> r[i].opens
    ensures path.Some? && |r| < |path.value| ==> !path.value[|r|].opens
  {
    match path
    case None => []
    case Some(keys) => Openable(keys)
  }

  /** The longest prefix of subkeys that all open. */
  function Openable(keys: seq<UninstallKey>): (r: seq<UninstallKey>)
    ensures r <= keys
    ensures forall i :: 0 <= i < |r| ==> r[i].opens
    ensures |r| < |keys| ==> !keys[|r|].opens
  {
    if keys == [] || !keys[0].opens then []
    else
      var rest := Openable(keys[1..]);
      assert ([keys[0]] + rest)[1..] == rest;
      [keys[0]] + rest
  }

  /** A subkey that cannot be opened hides itself and every subkey after it. */
  lemma RefusedKeyHidesLater(keys: seq<UninstallKey>, j: nat)
    requires j < |keys| && !keys[j].opens
    ensures |Enumerated(Some(keys))| <= j
    ensures forall i :: j <= i < |keys| ==> keys[i] !in Enumerated(Some(keys)) || exists k :: 0 <= k < j && keys[k] == keys[i]
  {
    var r := Enumerated(Some(keys));
    forall i | j <= i < |keys| && keys[i] in r
      ensures exists k :: 0 <= k < j && keys[k] == keys[i]
    {
      var k :| 0 <= k < |r| && r[k] == keys[i];
      assert keys[k] == r[k];
    }
  }

  /**
   * `get_installed_software`: the records of the native uninstall path
   * and then of the 32-bit one, each enumerated as `Enumerated` says, are
   * the one filter over both enumerations in turn.
   */
  function RegistrySoftware(native: Option<seq<UninstallKey>>, wow: Option<seq<UninstallKey>>): (r: seq<Software>)
    ensures r == InstalledSoftware(Enumerated(native) + Enumerated(wow))
  {
    InstalledSoftwareConcat(Enumerated(native), Enumerated(wow));
    InstalledSoftware(Enumerated(native)) + InstalledSoftware(Enumerated(wow))
  }

  /** The listing of two runs of keys is the listing of each, in turn. */
  lemma InstalledSoftwareConcat(a: seq<UninstallKey>, b: seq<UninstallKey>)
    ensures InstalledSoftware(a + b) == InstalledSoftware(a) + InstalledSoftware(b)
  {
    var ia, ib := SoftwareInfos(a), SoftwareInfos(b);
    assert SoftwareInfos(a + b) == ia + ib by {
      forall i | 0 <= i < |a + b|
        ensures SoftwareInfos(a + b)[i] == (ia + ib)[i]
      {
        if i >= |a| {
          assert (a + b)[i] == b[i - |a|];
        }
      }
    }
    FilterConcat(ia, ib, Listed);
  }

  // ---------------------------------------------------------------------
  // get_memory_info
  // ---------------------------------------------------------------------

  /** A `Win32_PhysicalMemory` entry: its capacity in bytes when truthy, and its speed (0 when falsy). */
  datatype MemoryModule = MemoryModule(capacity: Option<nat>, speed: nat)

  /** The memory record; the capacity is kept in bytes (the rounding to GB is not modelled). */
  datatype MemoryInfo = MemoryInfo(capacity: nat, slots: nat, speed: nat)

  /** The number of modules with a truthy capacity. */
  function Slots(ms: seq<MemoryModule>): (n: nat)
    ensures n <= |ms|
  {
    if ms == [] then 0
    else Slots(ms[..|ms| - 1]) + (if ms[|ms| - 1].capacity.Some? then 1 else 0)
  }

  /** The sum of the truthy capacities. */
  function TotalCapacity(ms: seq<MemoryModule>): nat {
    if ms == [] then 0
    else TotalCapacity(ms[..|ms| - 1]) + ms[|ms| - 1].capacity.GetOr(0)
  }

  /** A counted module that reports a speed. */
  predicate HasSpeed(m: MemoryModule) {
    m.capacity.Some? && m.speed != 0
  }

  /** The speed of the first counted module that reports one, else 0. */
  function FirstSpeed(ms: seq<MemoryModule>): nat {
    if ms == [] then 0
    else if FirstSpeed(ms[..|ms| - 1]) != 0 then FirstSpeed(ms[..|ms| - 1])
    else if HasSpeed(ms[|ms| - 1]) then ms[|ms| - 1].speed
    else 0
  }

  /** `FirstSpeed` is the speed of the earliest module with one, and 0 when there is none. */
  lemma {:induction false} FirstSpeedIsFirst(ms: seq<MemoryModule>)
    ensures FirstSpeed(ms) == 0 <==> forall k :: 0 <= k < |ms| ==> !HasSpeed(ms[k])
    ensures FirstSpeed(ms) != 0 ==> exists k :: (0 <= k < |ms| && HasSpeed(ms[k])
      && ms[k].speed == FirstSpeed(ms) && forall j :: 0 <= j < k ==> !HasSpeed(ms[j]))
  {
    if ms != [] {
      var init := ms[..|ms| - 1];
      FirstSpeedIsFirst(init);
      assert forall k :: 0 <= k < |init| ==> init[k] == ms[k];
      if FirstSpeed(init) != 0 {
        var k :| 0 <= k < |init| && HasSpeed(init[k])
          && init[k].speed == FirstSpeed(init) && forall j :: 0 <= j < k ==> !HasSpeed(init[j]);
        assert HasSpeed(ms[k]) && ms[k].speed == FirstSpeed(ms);
      }
    }
  }

  /**
   * `get_memory_info`: start from the psutil total; with a WMI connection,
   * count the modules with a capacity, add their capacities and keep the
   * first speed seen, and replace the psutil values only when a module was
   * counted.
   */
  method MemoryInfoOf(psutilTotal: nat, wmi: Option<seq<MemoryModule>>) returns (info: MemoryInfo)
    ensures wmi.None? || Slots(wmi.value) == 0 ==> info == MemoryInfo(psutilTotal, 0, 0)
    ensures wmi.Some? && Slots(wmi.value) > 0 ==>
      info == MemoryInfo(TotalCapacity(wmi.value), Slots(wmi.value), FirstSpeed(wmi.value))
  {
    info := MemoryInfo(psutilTotal, 0, 0);
    if wmi.Some? {
      var ms := wmi.value;
      var slots := 0;
      var total := 0;
      var speed := 0;
      var i := 0;
      while i < |ms|
        invariant i <= |ms|
        invariant slots == Slots(ms[..i])
        invariant total == TotalCapacity(ms[..i])
        invariant speed == FirstSpeed(ms[..i])
      {
        assert ms[..i + 1][..i] == ms[..i];
        var m := ms[i];
        if m.capacity.Some? {
          slots := slots + 1;
          total := total + m.capacity.value;
          if m.speed != 0 && speed == 0 {
            speed := m.speed;
          }
        }
        i := i + 1;
      }
      assert ms[..i] == ms;
      if slots > 0 {
        info := MemoryInfo(total, slots, speed);
      }
    }
  }

  // ---------------------------------------------------------------------
  // get_disk_info: the WMI merge
  // ---------------------------------------------------------------------

  /** An entry of the disk list; sizes are the numbers collected, in bytes (the GB rounding is not modelled). */
  datatype Disk = Disk(unidade: string, tipo: string, tamanho: nat, livre: nat, sistemaArquivos: string)

  /** A `Win32_LogicalDisk`: `Size` and `FreeSpace` when truthy, and `FileSystem`. */
  datatype LogicalDisk = LogicalDisk(
    deviceId: string,
    driveType: int,
    size: Option<nat>,
    freeSpace: Option<nat>,
    fileSystem: Option<string>)

  /** The first entry whose `unidade` is `id`. */
  function FindDisk(disks: seq<Disk>, id: string): (r: Option<nat>)
    ensures r.Some? ==> r.value < |disks| && disks[r.value].unidade == id
    ensures r.Some? ==> forall i :: 0 <= i < r.value ==> disks[i].unidade != id
    ensures r.None? <==> forall i :: 0 <= i < |disks| ==> disks[i].unidade != id
  {
    if disks == [] then None
    else if disks[0].unidade == id then Some(0)
    else match FindDisk(disks[1..], id)
      case None => None
      case Some(k) => Some(k + 1)
  }

  /** The entry built for a WMI disk that psutil did not list. */
  function NewDisk(d: LogicalDisk): Disk
    requires d.size.Some?
  {
    var fs := if d.fileSystem.None? || d.fileSystem.value == [] then "N/A" else d.fileSystem.value;
    Disk(d.deviceId, DiskType(d.driveType), d.size.value, d.freeSpace.GetOr(0), fs)
  }

  /** One WMI disk: retype the first entry with its id, or append it when its size is truthy. */
  function MergeOne(disks: seq<Disk>, d: LogicalDisk): (r: seq<Disk>)
    ensures |disks| <= |r| <= |disks| + 1
    ensures |r| == |disks| + 1 ==> d.size.Some? && r == disks + [NewDisk(d)]
  {
    match FindDisk(disks, d.deviceId)
    case Some(k) => disks[k := disks[k].(tipo := DiskType(d.driveType))]
    case None => if d.size.Some? then disks + [NewDisk(d)] else disks
  }

  /** `disk_list` after the WMI loop, one disk at a time. */
  function MergeDisks(disks: seq<Disk>, wmi: seq<LogicalDisk>): seq<Disk>
    decreases |wmi|
  {
    if wmi == [] then disks else MergeDisks(MergeOne(disks, wmi[0]), wmi[1..])
  }

  /**
   * `get_disk_info`: the psutil entries, merged with WMI's when there is a
   * connection. Every partition entry stays, with only its type open to
   * change; the first entry for a drive WMI reports takes a WMI type; every
   * sized WMI disk has an entry; and nothing else is added.
   */
  function DiskInfo(psutilDisks: seq<Disk>, wmi: Option<seq<LogicalDisk>>): (r: seq<Disk>)
    ensures wmi.None? ==> r == psutilDisks
    ensures |psutilDisks| <= |r|
    ensures forall i :: 0 <= i < |psutilDisks| ==> SameDrive(r[i], psutilDisks[i])
    ensures wmi.Some? ==> forall j :: |psutilDisks| <= j < |r| ==> FromWmi(r[j], wmi.value)
    ensures wmi.Some? ==> forall w :: w in wmi.value && w.size.Some? ==> Lists(r, w.deviceId)
    ensures forall j :: |psutilDisks| <= j < |r| ==> FirstOfUnit(r, j)
    ensures wmi.Some? ==> forall i :: 0 <= i < |psutilDisks| ==>
      r[i].tipo == psutilDisks[i].tipo || TypedBy(r[i], wmi.value)
    ensures wmi.Some? ==> forall i ::
      0 <= i < |psutilDisks| && FirstOfUnit(psutilDisks, i) && Reports(wmi.value, psutilDisks[i].unidade)
      ==> TypedBy(r[i], wmi.value)
  {
    if wmi.None? then psutilDisks
    else
      MergeDisksKeepsEntries(psutilDisks, wmi.value);
      MergeDisksAppendsFromWmi(psutilDisks, wmi.value);
      MergeDisksCovers(psutilDisks, wmi.value);
      MergeDisksAppendsFresh(psutilDisks, wmi.value);
      MergeDisksRetypes(psutilDisks, wmi.value);
      MergeDisks(psutilDisks, wmi.value)
  }

  /** Some entry of the list is for drive `id`. */
  predicate Lists(ds: seq<Disk>, id: string) {
    exists j :: 0 <= j < |ds| && ds[j].unidade == id
  }

  /** Entry `i` is the first one for its drive, the one the WMI loop's inner search finds. */
  predicate FirstOfUnit(ds: seq<Disk>, i: nat)
    requires i < |ds|
  {
    forall k :: 0 <= k < i ==> ds[k].unidade != ds[i].unidade
  }

  /** WMI reports a disk with device id `id`. */
  predicate Reports(wmi: seq<LogicalDisk>, id: string) {
    exists w :: w in wmi && w.deviceId == id
  }

  /** The entry's type is the label of a WMI disk for the same drive. */
  predicate TypedBy(d: Disk, wmi: seq<LogicalDisk>) {
    exists w :: w in wmi && w.deviceId == d.unidade && d.tipo == DiskType(w.driveType)
  }

  /** Every WMI disk with a truthy size ends up with an entry, found or appended. */
  lemma {:induction false} MergeDisksCovers(disks: seq<Disk>, wmi: seq<LogicalDisk>)
    ensures forall w :: w in wmi && w.size.Some? ==> Lists(MergeDisks(disks, wmi), w.deviceId)
    decreases |wmi|
  {
    if wmi != [] {
      var next := MergeOne(disks, wmi[0]);
      var r := MergeDisks(disks, wmi);
      assert r == MergeDisks(next, wmi[1..]);
      MergeDisksCovers(next, wmi[1..]);
      MergeDisksKeepsEntries(next, wmi[1..]);
      if wmi[0].size.Some? {
        var j: nat := match FindDisk(disks, wmi[0].deviceId) case Some(k) => k case None => |disks|;
        assert j < |next| && next[j].unidade == wmi[0].deviceId;
        assert r[j].unidade == wmi[0].deviceId;
      }
      forall w | w in wmi && w.size.Some?
        ensures Lists(r, w.deviceId)
      {
        if w != wmi[0] {
          assert w in wmi[1..];
        }
      }
    }
  }

  /**
   * The type of an entry that is first for its drive: unchanged or a WMI
   * label for that drive, and a WMI label whenever WMI reports the drive.
   */
  lemma {:induction false} RetypeFirst(disks: seq<Disk>, wmi: seq<LogicalDisk>, i: nat)
    requires i < |disks| && FirstOfUnit(disks, i)
    ensures i < |MergeDisks(disks, wmi)|
    ensures var r := MergeDisks(disks, wmi);
      r[i].tipo == disks[i].tipo || TypedBy(r[i], wmi)
    ensures Reports(wmi, disks[i].unidade) ==> TypedBy(MergeDisks(disks, wmi)[i], wmi)
    decreases |wmi|
  {
    MergeDisksKeepsEntries(disks, wmi);
    if wmi != [] {
      var w0 := wmi[0];
      var next := MergeOne(disks, w0);
      var r := MergeDisks(disks, wmi);
      assert r == MergeDisks(next, wmi[1..]);
      assert forall k :: 0 <= k < |disks| ==> next[k].unidade == disks[k].unidade;
      assert FirstOfUnit(next, i);
      RetypeFirst(next, wmi[1..], i);
      if w0.deviceId == disks[i].unidade {
        MergeOneMatched(disks, w0, i);
        assert TypedBy(next[i], wmi) by { assert w0 in wmi; }
      } else {
        assert next[i] == disks[i];
      }
      if TypedBy(r[i], wmi[1..]) {
        var w :| w in wmi[1..] && w.deviceId == r[i].unidade && r[i].tipo == DiskType(w.driveType);
        assert w in wmi;
      }
      if Reports(wmi, disks[i].unidade) && w0.deviceId != disks[i].unidade {
        var w :| w in wmi && w.deviceId == disks[i].unidade;
        assert w in wmi[1..];
      }
    }
  }

  /** An entry behind an earlier one for the same drive is never touched. */
  lemma {:induction false} RetypeLater(disks: seq<Disk>, wmi: seq<LogicalDisk>, k: nat, i: nat)
    requires k < i < |disks| && disks[k].unidade == disks[i].unidade
    ensures i < |MergeDisks(disks, wmi)| && MergeDisks(disks, wmi)[i] == disks[i]
    decreases |wmi|
  {
    MergeDisksKeepsEntries(disks, wmi);
    if wmi != [] {
      var next := MergeOne(disks, wmi[0]);
      assert MergeDisks(disks, wmi) == MergeDisks(next, wmi[1..]);
      var found := FindDisk(disks, wmi[0].deviceId);
      if found.Some? {
        MergeOneMatched(disks, wmi[0], found.value);
      } else {
        MergeOneUnmatched(disks, wmi[0]);
      }
      assert next[i] == disks[i] && next[k].unidade == disks[k].unidade;
      RetypeLater(next, wmi[1..], k, i);
    }
  }

  /** `RetypeFirst` for every partition entry. */
  lemma MergeDisksRetypes(disks: seq<Disk>, wmi: seq<LogicalDisk>)
    ensures |disks| <= |MergeDisks(disks, wmi)|
    ensures forall i :: 0 <= i < |disks| ==>
      MergeDisks(disks, wmi)[i].tipo == disks[i].tipo || TypedBy(MergeDisks(disks, wmi)[i], wmi)
    ensures forall i :: 0 <= i < |disks| && FirstOfUnit(disks, i) && Reports(wmi, disks[i].unidade) ==>
      TypedBy(MergeDisks(disks, wmi)[i], wmi)
  {
    MergeDisksKeepsEntries(disks, wmi);
    forall i | 0 <= i < |disks|
      ensures MergeDisks(disks, wmi)[i].tipo == disks[i].tipo || TypedBy(MergeDisks(disks, wmi)[i], wmi)
      ensures FirstOfUnit(disks, i) && Reports(wmi, disks[i].unidade) ==> TypedBy(MergeDisks(disks, wmi)[i], wmi)
    {
      if FirstOfUnit(disks, i) {
        RetypeFirst(disks, wmi, i);
      } else {
        var k :| 0 <= k < i && disks[k].unidade == disks[i].unidade;
        RetypeLater(disks, wmi, k, i);
      }
    }
  }

  /** Two entries for the same drive: everything but the type agrees. */
  predicate SameDrive(a: Disk, b: Disk) {
    a.unidade == b.unidade && a.tamanho == b.tamanho && a.livre == b.livre
      && a.sistemaArquivos == b.sistemaArquivos
  }

  /** A matching WMI disk changes only the type of the first entry with its id. */
  lemma MergeOneMatched(disks: seq<Disk>, d: LogicalDisk, k: nat)
    requires k < |disks| && disks[k].unidade == d.deviceId
    requires forall i :: 0 <= i < k ==> disks[i].unidade != d.deviceId
    ensures |MergeOne(disks, d)| == |disks|
    ensures MergeOne(disks, d)[k] == disks[k].(tipo := DiskType(d.driveType))
    ensures forall i :: 0 <= i < |disks| && i != k ==> MergeOne(disks, d)[i] == disks[i]
  {
    assert FindDisk(disks, d.deviceId) == Some(k);
  }

  /** An unmatched WMI disk is appended at the end exactly when its size is truthy. */
  lemma MergeOneUnmatched(disks: seq<Disk>, d: LogicalDisk)
    requires forall i :: 0 <= i < |disks| ==> disks[i].unidade != d.deviceId
    ensures d.size.Some? ==> MergeOne(disks, d) == disks + [NewDisk(d)]
    ensures d.size.None? ==> MergeOne(disks, d) == disks
  {
  }

  /** The entries already in the list are never removed or reordered, and only their type can change. */
  lemma {:induction false} MergeDisksKeepsEntries(disks: seq<Disk>, wmi: seq<LogicalDisk>)
    ensures |disks| <= |MergeDisks(disks, wmi)|
    ensures forall i :: 0 <= i < |disks| ==> SameDrive(MergeDisks(disks, wmi)[i], disks[i])
    decreases |wmi|
  {
    if wmi != [] {
      var next := MergeOne(disks, wmi[0]);
      assert |disks| <= |next| && forall i :: 0 <= i < |disks| ==> SameDrive(next[i], disks[i]);
      MergeDisksKeepsEntries(next, wmi[1..]);
    }
  }

  /**
   * An appended entry is the first for its drive: a WMI disk whose id is
   * already listed retypes that entry and adds nothing.
   */
  lemma {:induction false} MergeDisksAppendsFresh(disks: seq<Disk>, wmi: seq<LogicalDisk>)
    ensures |disks| <= |MergeDisks(disks, wmi)|
    ensures forall j :: |disks| <= j < |MergeDisks(disks, wmi)| ==> FirstOfUnit(MergeDisks(disks, wmi), j)
    decreases |wmi|
  {
    MergeDisksKeepsEntries(disks, wmi);
    if wmi != [] {
      var next := MergeOne(disks, wmi[0]);
      var r := MergeDisks(disks, wmi);
      assert r == MergeDisks(next, wmi[1..]);
      MergeDisksAppendsFresh(next, wmi[1..]);
      MergeDisksKeepsEntries(next, wmi[1..]);
      if |next| == |disks| + 1 {
        assert FindDisk(disks, wmi[0].deviceId).None?;
        forall k | 0 <= k < |disks|
          ensures r[k].unidade != r[|disks|].unidade
        {
          assert SameDrive(r[k], next[k]) && SameDrive(r[|disks|], next[|disks|]);
        }
      }
    }
  }

  /** An entry built for one of the WMI disks with a truthy size, up to its type. */
  predicate FromWmi(d: Disk, wmi: seq<LogicalDisk>) {
    exists w :: w in wmi && w.size.Some? && SameDrive(d, NewDisk(w))
  }

  /**
   * Every appended entry is the entry built for a WMI disk with a truthy
   * size, up to its type, which a later disk with the same id may change.
   */
  lemma MergeDisksAppendsFromWmi(disks: seq<Disk>, wmi: seq<LogicalDisk>)
    ensures forall j :: |disks| <= j < |MergeDisks(disks, wmi)| ==> FromWmi(MergeDisks(disks, wmi)[j], wmi)
  {
    forall j | |disks| <= j < |MergeDisks(disks, wmi)|
      ensures FromWmi(MergeDisks(disks, wmi)[j], wmi)
    {
      AppendedFromWmi(disks, wmi, j);
    }
  }

  lemma {:induction false} AppendedFromWmi(disks: seq<Disk>, wmi: seq<LogicalDisk>, j: nat)
    requires |disks| <= j < |MergeDisks(disks, wmi)|
    ensures FromWmi(MergeDisks(disks, wmi)[j], wmi)
    decreases |wmi|
  {
    assert wmi != [];
    var next := MergeOne(disks, wmi[0]);
    var r := MergeDisks(disks, wmi);
    assert r == MergeDisks(next, wmi[1..]);
    if j < |next| {
      assert next == disks + [NewDisk(wmi[0])];
      MergeDisksKeepsEntries(next, wmi[1..]);
      assert SameDrive(r[j], next[j]);
      assert wmi[0] in wmi;
    } else {
      AppendedFromWmi(next, wmi[1..], j);
      var w :| w in wmi[1..] && w.size.Some? && SameDrive(r[j], NewDisk(w));
      assert w in wmi;
    }
  }

  // ---------------------------------------------------------------------
  // get_bios_info: the release date
  // ---------------------------------------------------------------------

  /** `release.split('.')[0][:8]`. */
  function BiosDateText(release: string): (s: string)
    ensures |s| <= 8 && |s| <= |release| && s == release[..|s|]
    ensures forall i :: 0 <= i < |s| ==> s[i] != '.'
    ensures |s| == 8 || |s| == |release| || release[|s|] == '.'
  {
    var head := match IndexOf(release, '.') case None => release case Some(k) => release[..k];
    if |head| <= 8 then head else head[..8]
  }

  /** One way a directive of the format can match: the value read and the characters used. */
  datatype Field = Field(value: nat, width: nat)

  /** The ways `%m` can match at `i`, in the order the pattern tries them: `1[0-2]`, `0[1-9]`, `[1-9]`. */
  function MonthAlternatives(s: string, i: nat): (fs: seq<Field>)
    ensures forall k :: 0 <= k < |fs| ==> 1 <= fs[k].value <= 12 && 1 <= fs[k].width && i + fs[k].width <= |s|
  {
    (if i + 2 <= |s| && s[i] == '1' && '0' <= s[i + 1] <= '2' then [Field(10 + DigitValue(s[i + 1]), 2)] else [])
    + (if i + 2 <= |s| && s[i] == '0' && '1' <= s[i + 1] <= '9' then [Field(DigitValue(s[i + 1]), 2)] else [])
    + (if i < |s| && '1' <= s[i] <= '9' then [Field(DigitValue(s[i]), 1)] else [])
  }

  /** The ways `%d` can match at `i`, in order: `3[01]`, `[12]\d`, `0[1-9]`, `[1-9]`, a space and `[1-9]`. */
  function DayAlternatives(s: string, i: nat): (fs: seq<Field>)
    ensures forall k :: 0 <= k < |fs| ==> 1 <= fs[k].value <= 31 && 1 <= fs[k].width && i + fs[k].width <= |s|
  {
    (if i + 2 <= |s| && s[i] == '3' && '0' <= s[i + 1] <= '1' then [Field(30 + DigitValue(s[i + 1]), 2)] else [])
    + (if i + 2 <= |s| && '1' <= s[i] <= '2' && IsDigit(s[i + 1])
       then [Field(10 * DigitValue(s[i]) + DigitValue(s[i + 1]), 2)] else [])
    + (if i + 2 <= |s| && s[i] == '0' && '1' <= s[i + 1] <= '9' then [Field(DigitValue(s[i + 1]), 2)] else [])
    + (if i < |s| && '1' <= s[i] <= '9' then [Field(DigitValue(s[i]), 1)] else [])
    + (if i + 2 <= |s| && s[i] == ' ' && '1' <= s[i + 1] <= '9' then [Field(DigitValue(s[i + 1]), 2)] else [])
  }

  /** The first month alternative after which a day matches, with the first such day. */
  function FirstMatch(s: string, months: seq<Field>, i: nat): (r: Option<(Field, Field)>)
    requires forall k :: 0 <= k < |months| ==> i + months[k].width <= |s|
    ensures r.Some? ==> r.value.0 in months
    ensures r.Some? ==> (DayAlternatives(s, i + r.value.0.width) != []
      && r.value.1 == DayAlternatives(s, i + r.value.0.width)[0])
  {
    if months == [] then None
    else
      var ds := DayAlternatives(s, i + months[0].width);
      if ds != [] then Some((months[0], ds[0])) else FirstMatch(s, months[1..], i)
  }

  /**
   * `datetime.strptime(s, '%Y%m%d')`: four digits, then the first month and
   * day alternatives that match; text left over, year 0 or a day past the
   * end of the month is a `ValueError`, here `None`.
   */
  function StrptimeYmd(s: string): (r: Option<DateTime>)
    ensures r.Some? ==> (Valid(r.value) && r.value.hour == 0 && r.value.minute == 0
      && r.value.second == 0 && r.value.micro == 0)
  {
    if |s| < 4 || !AllDigits(s[..4]) then None
    else match FirstMatch(s, MonthAlternatives(s, 4), 4)
      case None => None
      case Some(md) =>
        var (m, d) := md;
        var y := DigitsValue(s[..4]);
        if 4 + m.width + d.width != |s| || y < 1 || d.value > DaysInMonth(y, m.value) then None
        else Some(DateTime(y, m.value, d.value, 0, 0, 0, 0))
  }

  /** `data_release`: the date of a truthy `ReleaseDate`, `None` when absent or unreadable. */
  function BiosReleaseDate(release: Option<string>): (r: Option<string>)
    ensures r.Some? ==> |r.value| == 10
  {
    if release.None? || release.value == [] then None
    else match StrptimeYmd(BiosDateText(release.value))
      case None => None
      case Some(dt) => Some(DatePart(dt))
  }

  lemma PadTwo(n: nat)
    requires n < 100
    ensures PadDigits(n, 2) == [DigitChar(n / 10), DigitChar(n % 10)]
  {
    var t := n / 10;
    assert t < 10 && t % 10 == t;
    assert PadDigits(t, 1) == PadDigits(t / 10, 0) + [DigitChar(t % 10)];
    assert PadDigits(n, 2) == PadDigits(t, 1) + [DigitChar(n % 10)];
  }

  /** The compact date reads back through the format, whatever follows it. */
  lemma StrptimeCompactDate(dt: DateTime)
    requires Valid(dt)
    ensures StrptimeYmd(CompactDate(dt)) == Some(dt.(hour := 0, minute := 0, second := 0, micro := 0))
  {
    var s := CompactDate(dt);
    assert s[..4] == PadDigits(dt.year, 4);
    PadDigitsRoundTrip(dt.year, 4);
    PadTwo(dt.month);
    PadTwo(dt.day);
    assert s[4] == DigitChar(dt.month / 10) && s[5] == DigitChar(dt.month % 10);
    assert s[6] == DigitChar(dt.day / 10) && s[7] == DigitChar(dt.day % 10);
    var ms := MonthAlternatives(s, 4);
    assert ms != [] && ms[0] == Field(dt.month, 2);
    var ds := DayAlternatives(s, 6);
    assert ds != [] && ds[0] == Field(dt.day, 2);
  }

  /** A WMI timestamp `YYYYMMDDHHMMSS.ffffff+offset` gives the ISO form of its date. */
  lemma BiosReleaseDateOfTimestamp(dt: DateTime, rest: string)
    requires Valid(dt)
    ensures BiosReleaseDate(Some(CompactDate(dt) + rest)) == Some(DatePart(dt))
  {
    var s := CompactDate(dt);
    var release := s + rest;
    assert forall i :: 0 <= i < 8 ==> release[i] == s[i] && release[i] != '.';
    assert BiosDateText(release) == s by {
      match IndexOf(release, '.')
      case None =>
      case Some(k) =>
        assert k >= 8;
        assert release[..k][..8] == s;
    }
    StrptimeCompactDate(dt);
    var day := dt.(hour := 0, minute := 0, second := 0, micro := 0);
    assert DatePart(day) == DatePart(dt);
  }
}

=== FILE: json.dfy ===
/**
 * The loosely-typed documents that travel between the agent and the
 * server: decoded JSON values as Python sees them. Objects keep their
 * key order (Python dicts are insertion-ordered); numbers are integers.
 */
module Json {
  import opened Base

  datatype Json =
    | JNull
    | JBool(b: bool)
    | JNum(n: int)
    | JStr(s: string)
    | JArr(items: seq<Json>)
    | JObj(fields: seq<(string, Json)>)

  /** The keys of an object's fields, in order. */
  function Keys(fields: seq<(string, Json)>): (ks: seq<string>)
    ensures |ks| == |fields|
    ensures forall i :: 0 <= i < |fields| ==> ks[i] == fields[i].0
  {
    if fields == [] then [] else [fields[0].0] + Keys(fields[1..])
  }

  /** A dict as Python builds it: no key occurs twice. */
  predicate UniqueKeys(fields: seq<(string, Json)>) {
    forall i, j :: 0 <= i < j < |fields| ==> fields[i].0 != fields[j].0
  }

  /** `key in d` for a dict `d`. */
  predicate HasKey(fields: seq<(string, Json)>, key: string) {
    exists i :: 0 <= i < |fields| && fields[i].0 == key
  }

  /** `d[key]` for a dict `d`, or `None` when the key is missing. */
  function Lookup(fields: seq<(string, Json)>, key: string): (r: Option<Json>)
    ensures r.None? <==> !HasKey(fields, key)
  {
    if fields == [] then None
    else if fields[0].0 == key then Some(fields[0].1)
    else
      var r := Lookup(fields[1..], key);
      assert HasKey(fields[1..], key) ==> HasKey(fields, key);
      assert HasKey(fields, key) ==> HasKey(fields[1..], key) by {
        if HasKey(fields, key) {
          var i :| 0 <= i < |fields| && fields[i].0 == key;
          assert fields[1..][i - 1].0 == key;
        }
      }
      r
  }

  /** The value found is the one under the first occurrence of the key. */
  lemma {:induction false} LookupFirst(fields: seq<(string, Json)>, key: string, i: nat)
    requires i < |fields| && fields[i].0 == key
    requires forall j :: 0 <= j < i ==> fields[j].0 != key
    ensures Lookup(fields, key) == Some(fields[i].1)
  {
    if i > 0 {
      LookupFirst(fields[1..], key, i - 1);
    }
  }

  /** In a dict, the value under a key is the one stored with it. */
  lemma LookupUnique(fields: seq<(string, Json)>, key: string, i: nat)
    requires UniqueKeys(fields) && i < |fields| && fields[i].0 == key
    ensures Lookup(fields, key) == Some(fields[i].1)
  {
    LookupFirst(fields, key, i);
  }

  /** `j.get(key, default)`: raises `AttributeError` unless `j` is a dict. */
  function Get(j: Json, key: string, default: Json): (r: Result<Json>)
    ensures r.Err? <==> !j.JObj?
    ensures r.Err? ==> r.error == AttributeError
    ensures j.JObj? && !HasKey(j.fields, key) ==> r == Ok(default)
    ensures j.JObj? && HasKey(j.fields, key) ==> r == Ok(Lookup(j.fields, key).value)
  {
    match j
    case JObj(fields) => Ok(Lookup(fields, key).GetOr(default))
    case _ => Err(AttributeError)
  }

  /** `d.get(key, default)` on a value known to be a dict. */
  function Field(d: Json, key: string, default: Json): (v: Json)
    requires d.JObj?
    ensures Get(d, key, default) == Ok(v)
  {
    Lookup(d.fields, key).GetOr(default)
  }

  /** Python's truth value of a decoded JSON value. */
  predicate Truthy(j: Json) {
    match j
    case JNull => false
    case JBool(b) => b
    case JNum(n) => n != 0
    case JStr(s) => s != []
    case JArr(items) => items != []
    case JObj(fields) => fields != []
  }

  /** `for x in j`: lists yield items, dicts their keys, strings their characters. */
  function Iterate(j: Json): (r: Result<seq<Json>>)
    ensures j.JArr? ==> r == Ok(j.items)
    ensures r.Err? <==> (j.JNull? || j.JBool? || j.JNum?)
    ensures j.JObj? ==> (r.Ok? && |r.value| == |j.fields|
      && forall i :: 0 <= i < |j.fields| ==> r.value[i] == JStr(Keys(j.fields)[i]))
    ensures j.JStr? ==> (r.Ok? && |r.value| == |j.s|
      && forall i :: 0 <= i < |j.s| ==> r.value[i] == JStr([j.s[i]]))
    ensures r.Ok? ==> (|r.value| == 0 <==> !Truthy(j))
  {
    match j
    case JArr(items) => Ok(items)
    case JObj(fields) => Ok(seq(|fields|, i requires 0 <= i < |fields| => JStr(fields[i].0)))
    case JStr(s) => Ok(seq(|s|, i requires 0 <= i < |s| => JStr([s[i]])))
    case _ => Err(TypeError)
  }

  /** `len(j)`: text, lists and dicts have a length; anything else raises `TypeError`. */
  function Len(j: Json): (r: Result<nat>)
    ensures r.Err? <==> (j.JNull? || j.JBool? || j.JNum?)
    ensures r.Err? ==> r.error == TypeError
    ensures r.Ok? ==> r == Ok(|Iterate(j).value|)
  {
    match j
    case JStr(s) => Ok(|s|)
    case JArr(items) => Ok(|items|)
    case JObj(fields) => Ok(|fields|)
    case _ => Err(TypeError)
  }

  /** `str(v)` for a value that is not a list or dict. */
  function ScalarStr(j: Json): string {
    match j
    case JNull => "None"
    case JBool(b) => if b then "True" else "False"
    case JNum(n) => IntToString(n)
    case JStr(s) => s
    case _ => ""
  }

  /** `repr(j)`; string quoting is simplified to plain single quotes. */
  function Repr(j: Json): string {
    match j
    case JStr(s) => "'" + s + "'"
    case JArr(items) =>
      "[" + Join(", ", seq(|items|, i requires 0 <= i < |items| => Repr(items[i]))) + "]"
    case JObj(fields) =>
      "{" + Join(", ", seq(|fields|, i requires 0 <= i < |fields| =>
        "'" + fields[i].0 + "': " + Repr(fields[i].1))) + "}"
    case _ => ScalarStr(j)
  }

  /** `str(j)`, which is also what an f-string interpolation produces. */
  function Str(j: Json): string {
    if j.JArr? || j.JObj? then Repr(j) else ScalarStr(j)
  }
}

=== FILE: normalizer.dfy ===
/**
 * The server's snapshot normaliser (`process_agent_data`): an agent
 * snapshot in, the flat machine record the store saves out. Missing
 * sections and fields take defaults; a section of the wrong shape makes
 * the Python code raise, which is modelled as `Err`.
 */
module Normalizer {
  import opened Base
  import opened Json
  import opened Time

  /** The dict `process_agent_data` returns, one field per key. */
  datatype Processed = Processed(
    machineName: Json,
    user: Json,
    dominio: Json,
    ip: Json,
    os: string,
    ram: string,
    storage: string,
    software: Json,
    ultimaAtualizacao: Json)

  const RecordKeys: seq<string> :=
    ["machine_name", "user", "dominio", "ip", "os", "ram", "storage", "software", "ultima_atualizacao"]

  lemma RecordKeysDistinct()
    ensures forall i, j :: 0 <= i < j < |RecordKeys| ==> RecordKeys[i] != RecordKeys[j]
  {
  }

  /** The record as the Python dict handed to the store, keys in source order. */
  function ToDict(p: Processed): (d: Json)
    ensures d.JObj? && Keys(d.fields) == RecordKeys && UniqueKeys(d.fields)
  {
    var fields := [
      ("machine_name", p.machineName), ("user", p.user), ("dominio", p.dominio),
      ("ip", p.ip), ("os", JStr(p.os)), ("ram", JStr(p.ram)), ("storage", JStr(p.storage)),
      ("software", p.software), ("ultima_atualizacao", p.ultimaAtualizacao)];
    assert Keys(fields) == RecordKeys;
    RecordKeysDistinct();
    JObj(fields)
  }

  // ---------------------------------------------------------------------
  // Storage: sum(disco.get('tamanho_gb', 0) for disco in discos)
  // ---------------------------------------------------------------------

  /** The numeric value of `x` in `acc + x`; `bool` counts as 0 or 1 as in Python. */
  function AsNumber(v: Json): Option<int> {
    match v
    case JNum(n) => Some(n)
    case JBool(b) => Some(if b then 1 else 0)
    case _ => None
  }

  /** The size one disk contributes, or `None` when summing it raises. */
  function DiskSize(disco: Json): Option<int> {
    if !disco.JObj? then None
    else AsNumber(Lookup(disco.fields, "tamanho_gb").GetOr(JNum(0)))
  }

  /** Reference total: the sum of every disk's size. */
  function TotalSize(discos: seq<Json>): int
    requires forall i :: 0 <= i < |discos| ==> DiskSize(discos[i]).Some?
  {
    if discos == [] then 0 else DiskSize(discos[0]).value + TotalSize(discos[1..])
  }

  /** Python's left-to-right `sum`, starting from `acc`. */
  function SumSizes(acc: int, discos: seq<Json>): (r: Result<int>)
    ensures r.Ok? <==> forall i :: 0 <= i < |discos| ==> DiskSize(discos[i]).Some?
    ensures r.Ok? ==> r.value == acc + TotalSize(discos)
    decreases |discos|
  {
    if discos == [] then Ok(acc)
    else
      match Get(discos[0], "tamanho_gb", JNum(0))
      case Err(e) => Err(e)
      case Ok(v) =>
        match AsNumber(v)
        case None => Err(TypeError)
        case Some(n) =>
          var r := SumSizes(acc + n, discos[1..]);
          assert forall i :: 1 <= i < |discos| ==> discos[i] == discos[1..][i - 1];
          r
  }

  // ---------------------------------------------------------------------
  // Main IP: the first adapter with a truthy address, else rede's own
  // ---------------------------------------------------------------------

  /** `placa.get('ip_address')` for an adapter that is a dict. */
  function AdapterIp(placa: Json): Json
    requires placa.JObj?
  {
    Lookup(placa.fields, "ip_address").GetOr(JNull)
  }

  /** The first `k` adapters are dicts without a truthy address. */
  predicate NoIpBefore(placas: seq<Json>, k: nat)
    requires k <= |placas|
  {
    forall i :: 0 <= i < k ==> placas[i].JObj? && !Truthy(AdapterIp(placas[i]))
  }

  /** The loop over `rede['placas']` that stops at the first truthy address. */
  function PickIp(placas: seq<Json>, fallback: Json): (r: Result<Json>)
    ensures NoIpBefore(placas, |placas|) ==> r == Ok(fallback)
  {
    if placas == [] then Ok(fallback)
    else
      match Get(placas[0], "ip_address", JNull)
      case Err(e) => Err(e)
      case Ok(v) =>
        if Truthy(v) then Ok(v)
        else
          assert NoIpBefore(placas, |placas|) ==> NoIpBefore(placas[1..], |placas| - 1);
          PickIp(placas[1..], fallback)
  }

  /**
   * The loop stops at adapter `k` when every adapter before it is a dict
   * without an address: with its address if it has one, with the
   * `AttributeError` of `.get` if it is not a dict.
   */
  lemma {:induction false} PickIpStopsAt(placas: seq<Json>, fallback: Json, k: nat)
    requires k < |placas| && NoIpBefore(placas, k)
    ensures placas[k].JObj? && Truthy(AdapterIp(placas[k])) ==>
      PickIp(placas, fallback) == Ok(AdapterIp(placas[k]))
    ensures !placas[k].JObj? ==> PickIp(placas, fallback) == Err(AttributeError)
  {
    if k > 0 {
      assert NoIpBefore(placas[1..], k - 1);
      PickIpStopsAt(placas[1..], fallback, k - 1);
    }
  }

  /** `rede.get('ip_address', 'N/A')`, replaced by the first truthy adapter address. */
  function MainIp(rede: Json): (r: Result<Json>)
    ensures !rede.JObj? ==> r == Err(AttributeError)
  {
    if !rede.JObj? then Err(AttributeError)
    else
      var fallback := Lookup(rede.fields, "ip_address").GetOr(JStr("N/A"));
      var placas := Lookup(rede.fields, "placas").GetOr(JNull);
      if !Truthy(placas) then Ok(fallback)
      else
        match Iterate(placas)
        case Err(e) => Err(e)
        case Ok(items) => PickIp(items, fallback)
  }

  // ---------------------------------------------------------------------
  // process_agent_data
  // ---------------------------------------------------------------------

  /** `f"{nome} {versao}"`; the text is not stripped. */
  function OsString(nome: Json, versao: Json): string {
    Str(nome) + " " + Str(versao)
  }

  /** `f"{x} GB"`. */
  function WithGb(x: Json): string {
    Str(x) + " GB"
  }

  /**
   * The normaliser. `now` is the server clock; its `isoformat()` is the
   * default collection timestamp.
   */
  function ProcessAgentData(data: Json, now: DateTime): (r: Result<Processed>)
    requires Valid(now)
    ensures !data.JObj? ==> r == Err(AttributeError)
    ensures r.Ok? ==> r.value.software == Lookup(data.fields, "softwares").GetOr(JArr([]))
    ensures r.Ok? ==>
      r.value.ultimaAtualizacao == Lookup(data.fields, "timestamp_coleta").GetOr(JStr(IsoFormat(now)))
  {
    if !data.JObj? then Err(AttributeError)
    else
      var ident := Field(data, "identificacao", JObj([]));
      var sistema := Field(data, "sistema_operacional", JObj([]));
      var memoria := Field(data, "memoria", JObj([]));
      var rede := Field(data, "rede", JObj([]));
      var discos := Field(data, "discos", JArr([]));
      match Iterate(discos)
      case Err(e) => Err(e)
      case Ok(disks) =>
        match SumSizes(0, disks)
        case Err(e) => Err(e)
        case Ok(total) =>
          match MainIp(rede)
          case Err(e) => Err(e)
          case Ok(ip) =>
            if !ident.JObj? || !sistema.JObj? || !memoria.JObj? then Err(AttributeError)
            else
              Ok(Processed(
                Field(ident, "nome_computador", JStr("Unknown")),
                Field(ident, "usuario_logado", JStr("N/A")),
                Field(ident, "dominio", JStr("N/A")),
                ip,
                OsString(Field(sistema, "nome", JStr("N/A")), Field(sistema, "versao", JStr(""))),
                WithGb(Field(memoria, "capacidade_total_gb", JNum(0))),
                WithGb(JNum(total)),
                Field(data, "softwares", JArr([])),
                Field(data, "timestamp_coleta", JStr(IsoFormat(now)))))
  }

  // ---------------------------------------------------------------------
  // Properties
  // ---------------------------------------------------------------------

  /** The sections a successful run read, and the fields it built from the identification. */
  lemma UnfoldIdent(data: Json, now: DateTime)
    requires Valid(now)
    requires ProcessAgentData(data, now).Ok?
    ensures data.JObj?
    ensures var ident := Field(data, "identificacao", JObj([]));
      var memoria := Field(data, "memoria", JObj([]));
      var p := ProcessAgentData(data, now).value;
      && ident.JObj? && memoria.JObj?
      && p.machineName == Field(ident, "nome_computador", JStr("Unknown"))
      && p.user == Field(ident, "usuario_logado", JStr("N/A"))
      && p.dominio == Field(ident, "dominio", JStr("N/A"))
      && p.ram == WithGb(Field(memoria, "capacidade_total_gb", JNum(0)))
  {
  }

  lemma UnfoldOs(data: Json, now: DateTime)
    requires Valid(now)
    requires ProcessAgentData(data, now).Ok?
    ensures data.JObj?
    ensures var sistema := Field(data, "sistema_operacional", JObj([]));
      && sistema.JObj?
      && ProcessAgentData(data, now).value.os
         == OsString(Field(sistema, "nome", JStr("N/A")), Field(sistema, "versao", JStr("")))
  {
  }

  lemma UnfoldStorage(data: Json, now: DateTime)
    requires Valid(now)
    requires ProcessAgentData(data, now).Ok?
    ensures data.JObj?
    ensures var disks := Iterate(Field(data, "discos", JArr([])));
      && disks.Ok? && SumSizes(0, disks.value).Ok?
      && ProcessAgentData(data, now).value.storage == WithGb(JNum(SumSizes(0, disks.value).value))
  {
  }

  lemma UnfoldIp(data: Json, now: DateTime)
    requires Valid(now)
    requires ProcessAgentData(data, now).Ok?
    ensures data.JObj?
    ensures var ip := MainIp(Field(data, "rede", JObj([])));
      ip.Ok? && ProcessAgentData(data, now).value.ip == ip.value
  {
  }

  /** `storage` is the total of every disk's `tamanho_gb` (missing counts 0) followed by " GB". */
  lemma StorageIsTotal(data: Json, now: DateTime, p: Processed)
    requires Valid(now)
    requires ProcessAgentData(data, now) == Ok(p)
    ensures data.JObj?
    ensures var disks := Iterate(Field(data, "discos", JArr([])));
      && disks.Ok?
      && (forall i :: 0 <= i < |disks.value| ==> DiskSize(disks.value[i]).Some?)
      && p.storage == IntToString(TotalSize(disks.value)) + " GB"
  {
    UnfoldStorage(data, now);
    var disks := Iterate(Field(data, "discos", JArr([]))).value;
    var sum := SumSizes(0, disks);
    assert sum.Ok? && sum.value == TotalSize(disks);
    assert p.storage == WithGb(JNum(sum.value));
    assert Str(JNum(sum.value)) == IntToString(sum.value);
  }

  lemma OsStringShape(nome: Json, versao: Json)
    ensures var os := OsString(nome, versao);
      && |os| == |Str(nome)| + 1 + |Str(versao)|
      && os[..|Str(nome)|] == Str(nome) && os[|Str(nome)|] == ' '
      && os[|Str(nome)| + 1..] == Str(versao)
  {
  }

  /**
   * `os` is the rendered name, one space, the rendered version: never
   * trimmed, so a missing version leaves a trailing space.
   */
  lemma OsHasSeparator(data: Json, now: DateTime, p: Processed)
    requires Valid(now)
    requires ProcessAgentData(data, now) == Ok(p)
    ensures data.JObj? && Field(data, "sistema_operacional", JObj([])).JObj?
    ensures var sistema := Field(data, "sistema_operacional", JObj([]));
      p.os == Str(Field(sistema, "nome", JStr("N/A"))) + " " + Str(Field(sistema, "versao", JStr("")))
    ensures var sistema := Field(data, "sistema_operacional", JObj([]));
      !HasKey(sistema.fields, "versao") ==> p.os == Str(Field(sistema, "nome", JStr("N/A"))) + " "
  {
    UnfoldOs(data, now);
    var sistema := Field(data, "sistema_operacional", JObj([]));
    var nome := Field(sistema, "nome", JStr("N/A"));
    var versao := Field(sistema, "versao", JStr(""));
    assert p.os == OsString(nome, versao);
    if !HasKey(sistema.fields, "versao") {
      assert versao == JStr("");
    }
  }

  /** The IP is the first truthy adapter address, else `rede.ip_address`, else "N/A". */
  lemma IpIsFirstTruthyAdapter(data: Json, now: DateTime, p: Processed, k: nat)
    requires Valid(now)
    requires ProcessAgentData(data, now) == Ok(p)
    ensures data.JObj? && Field(data, "rede", JObj([])).JObj?
    ensures var rede := Field(data, "rede", JObj([]));
      var placas := Field(rede, "placas", JNull);
      var fallback := Field(rede, "ip_address", JStr("N/A"));
      && (!Truthy(placas) ==> p.ip == fallback)
      && (!HasKey(rede.fields, "ip_address") && !Truthy(placas) ==> p.ip == JStr("N/A"))
      && (placas.JArr? && NoIpBefore(placas.items, |placas.items|) ==> p.ip == fallback)
      && (placas.JArr? && k < |placas.items| && NoIpBefore(placas.items, k)
          && placas.items[k].JObj? && Truthy(AdapterIp(placas.items[k]))
          ==> p.ip == AdapterIp(placas.items[k]))
  {
    UnfoldIp(data, now);
    MainIpPicks(Field(data, "rede", JObj([])), p.ip, k);
  }

  /** `MainIp` on its own: the adapter loop's answer, or the fallback. */
  lemma MainIpPicks(rede: Json, ip: Json, k: nat)
    requires MainIp(rede) == Ok(ip)
    ensures rede.JObj?
    ensures var placas := Field(rede, "placas", JNull);
      var fallback := Field(rede, "ip_address", JStr("N/A"));
      && (!Truthy(placas) ==> ip == fallback)
      && (!HasKey(rede.fields, "ip_address") && !Truthy(placas) ==> ip == JStr("N/A"))
      && (placas.JArr? && NoIpBefore(placas.items, |placas.items|) ==> ip == fallback)
      && (placas.JArr? && k < |placas.items| && NoIpBefore(placas.items, k)
          && placas.items[k].JObj? && Truthy(AdapterIp(placas.items[k]))
          ==> ip == AdapterIp(placas.items[k]))
  {
    var placas := Field(rede, "placas", JNull);
    var fallback := Field(rede, "ip_address", JStr("N/A"));
    if placas.JArr? && Truthy(placas) {
      assert Iterate(placas) == Ok(placas.items);
      assert MainIp(rede) == PickIp(placas.items, fallback);
      if k < |placas.items| && NoIpBefore(placas.items, k) {
        PickIpStopsAt(placas.items, fallback, k);
      }
    }
  }

  /** Identification fields: the default applies only when the key is absent. */
  lemma FieldDefaults(data: Json, now: DateTime, p: Processed)
    requires Valid(now)
    requires ProcessAgentData(data, now) == Ok(p)
    ensures data.JObj? && Field(data, "identificacao", JObj([])).JObj?
    ensures var ident := Field(data, "identificacao", JObj([]));
      && (HasKey(ident.fields, "nome_computador") ==>
            Some(p.machineName) == Lookup(ident.fields, "nome_computador"))
      && (!HasKey(ident.fields, "nome_computador") ==> p.machineName == JStr("Unknown"))
      && (!HasKey(ident.fields, "usuario_logado") ==> p.user == JStr("N/A"))
      && (!HasKey(ident.fields, "dominio") ==> p.dominio == JStr("N/A"))
  {
    UnfoldIdent(data, now);
  }

  /** `ram` is the memory section's `capacidade_total_gb` (0 when absent) followed by " GB". */
  lemma RamIsCapacity(data: Json, now: DateTime, p: Processed)
    requires Valid(now)
    requires ProcessAgentData(data, now) == Ok(p)
    ensures data.JObj? && Field(data, "memoria", JObj([])).JObj?
    ensures var memoria := Field(data, "memoria", JObj([]));
      && p.ram == Str(Field(memoria, "capacidade_total_gb", JNum(0))) + " GB"
      && (!HasKey(memoria.fields, "capacidade_total_gb") ==> p.ram == "0 GB")
  {
    UnfoldIdent(data, now);
    var memoria := Field(data, "memoria", JObj([]));
    var ram := Field(memoria, "capacidade_total_gb", JNum(0));
    assert p.ram == WithGb(ram);
    if !HasKey(memoria.fields, "capacidade_total_gb") {
      assert ram == JNum(0);
      ZeroGb();
    }
  }

  lemma ZeroGb()
    ensures WithGb(JNum(0)) == "0 GB"
  {
    assert NatToString(0) == [DigitChar(0)];
  }

  /** A section that is absent or a dict. */
  predicate DictOrAbsent(data: Json, key: string)
    requires data.JObj?
  {
    Field(data, key, JObj([])).JObj?
  }

  /** A snapshot of the shape the agent sends, which the normaliser never rejects. */
  predicate WellShaped(data: Json) {
    && data.JObj?
    && DictOrAbsent(data, "identificacao")
    && DictOrAbsent(data, "sistema_operacional")
    && DictOrAbsent(data, "memoria")
    && DictOrAbsent(data, "rede")
    && DisksSummable(Field(data, "discos", JArr([])))
    && AdaptersReadable(Field(Field(data, "rede", JObj([])), "placas", JNull))
  }

  predicate DisksSummable(discos: Json) {
    discos.JArr? && forall i :: 0 <= i < |discos.items| ==> DiskSize(discos.items[i]).Some?
  }

  predicate AdaptersReadable(placas: Json) {
    !Truthy(placas) || (placas.JArr? && forall i :: 0 <= i < |placas.items| ==> placas.items[i].JObj?)
  }

  lemma {:induction false} PickIpOfDicts(placas: seq<Json>, fallback: Json)
    requires forall i :: 0 <= i < |placas| ==> placas[i].JObj?
    ensures PickIp(placas, fallback).Ok?
  {
    if placas != [] {
      PickIpOfDicts(placas[1..], fallback);
    }
  }

  /** A well-shaped snapshot is always normalised; missing fields only take defaults. */
  lemma WellShapedNeverFails(data: Json, now: DateTime)
    requires Valid(now)
    requires WellShaped(data)
    ensures ProcessAgentData(data, now).Ok?
  {
    var rede := Field(data, "rede", JObj([]));
    var placas := Field(rede, "placas", JNull);
    if Truthy(placas) {
      PickIpOfDicts(placas.items, Field(rede, "ip_address", JStr("N/A")));
    }
  }
}

=== FILE: server.dfy ===
/**
 * The Flask routes of the inventory server, each as a function of the
 * table, the request and the server clock: saving a snapshot, the
 * dashboard listing, reading one machine and deleting one machine.
 */
module Server {
  import opened Base
  import opened Json
  import opened Time
  import opened Normalizer
  import opened Status
  import opened Store

  // ---------------------------------------------------------------------
  // POST /api/inventory
  // ---------------------------------------------------------------------

  /** The replies of the save route: 200 with the id, 400, or 500 with the caught error. */
  datatype SaveReply = SavedOk(machineId: nat) | InvalidData | SaveFailed(error: PyError)

  function SaveCode(r: SaveReply): nat {
    match r
    case SavedOk(_) => 200
    case InvalidData => 400
    case SaveFailed(_) => 500
  }

  /**
   * The store half of the route: the normalised record handed to
   * `db.save_inventory`; a store error is caught as a 500 and the
   * rolled-back table is unchanged.
   */
  function Ingest(t: Table, p: Processed, now: DateTime): (r: (Table, SaveReply))
    requires Consistent(t) && Valid(now)
    ensures Consistent(r.0)
    ensures r.1.SavedOk? || r.1.SaveFailed?
    ensures r.1.SaveFailed? ==> r.0 == t
    ensures r.1.SavedOk? <==> ReadFields(ToDict(p), now).Ok?
    ensures r.1.SavedOk? ==> (r.1.machineId in r.0.rows
      && r.0.rows[r.1.machineId].fields == ReadFields(ToDict(p), now).value
      && r.0.rows.Keys == t.rows.Keys + {r.1.machineId})
  {
    match SaveInventory(t, ToDict(p), now)
    case Err(e) => (t, SaveFailed(e))
    case Ok(s) => (s.table, SavedOk(s.id))
  }

  /**
   * `save_inventory`. `body` is what `request.get_json()` returns; `None`
   * stands for a body it cannot decode, whose exception the route's own
   * handler turns into a 500. A falsy document is refused with 400 before
   * the store is touched; a normaliser error is a 500 with the table
   * unchanged.
   */
  function SaveInventoryRoute(t: Table, body: Option<Json>, now: DateTime): (r: (Table, SaveReply))
    requires Consistent(t) && Valid(now)
    ensures Consistent(r.0)
    ensures r.1 == InvalidData <==> (body.Some? && !Truthy(body.value))
    ensures body.None? ==> r.1.SaveFailed?
    ensures !r.1.SavedOk? ==> r.0 == t
    ensures r.1.SavedOk? ==> (body.Some? && ProcessAgentData(body.value, now).Ok?
      && r == Ingest(t, ProcessAgentData(body.value, now).value, now))
    ensures body.Some? && Truthy(body.value) ==>
      match ProcessAgentData(body.value, now)
      case Ok(p) => r == Ingest(t, p, now)
      case Err(e) => r == (t, SaveFailed(e))
  {
    match body
    case None => (t, SaveFailed(ValueError))
    case Some(data) =>
      if !Truthy(data) then (t, InvalidData)
      else
        match ProcessAgentData(data, now)
        case Err(e) => (t, SaveFailed(e))
        case Ok(p) => Ingest(t, p, now)
  }

  /** Each key of the normalised record reads back as its field, whatever the store's default. */
  lemma FieldsOfRecord(p: Processed)
    ensures var d := ToDict(p);
      && Field(d, "machine_name", JStr("Unknown")) == p.machineName
      && Field(d, "user", JStr("N/A")) == p.user
      && Field(d, "dominio", JStr("")) == p.dominio
      && Field(d, "ip", JStr("N/A")) == p.ip
      && Field(d, "os", JStr("N/A")) == JStr(p.os)
      && Field(d, "ram", JStr("N/A")) == JStr(p.ram)
      && Field(d, "storage", JStr("N/A")) == JStr(p.storage)
      && Field(d, "software", JArr([])) == p.software
      && Field(d, "ultima_atualizacao", JNull) == p.ultimaAtualizacao
  {
    var d := ToDict(p);
    LookupUnique(d.fields, "machine_name", 0);
    LookupUnique(d.fields, "user", 1);
    LookupUnique(d.fields, "dominio", 2);
    LookupUnique(d.fields, "ip", 3);
    LookupUnique(d.fields, "os", 4);
    LookupUnique(d.fields, "ram", 5);
    LookupUnique(d.fields, "storage", 6);
    LookupUnique(d.fields, "software", 7);
    LookupUnique(d.fields, "ultima_atualizacao", 8);
  }

  /**
   * The columns the store writes for a normalised record: each comes from
   * the record's own field, never from the store's defaults, because the
   * record always has all nine keys. The write fails exactly when an
   * identification field or the IP is a list or dict, or the timestamp is
   * neither text nor `None`.
   */
  lemma ColumnsOfRecord(p: Processed, now: DateTime)
    requires Valid(now)
    ensures var f := ReadFields(ToDict(p), now);
      f.Ok? <==> (Bindable(p.machineName) && Bindable(p.user) && Bindable(p.dominio)
                  && Bindable(p.ip) && (p.ultimaAtualizacao.JStr? || p.ultimaAtualizacao.JNull?))
    ensures var f := ReadFields(ToDict(p), now);
      f.Ok? ==> f.value == Fields(ToCell(p.machineName).value, ToCell(p.dominio).value,
        ToCell(p.user).value, ToCell(p.ip).value, Text(p.os), Text(p.ram), Text(p.storage),
        p.software, LastUpdateColumn(p.ultimaAtualizacao, now).value)
  {
    ReadRecordIsColumns(p, now);
  }

  /** The store reads a normalised record's nine fields as the values to bind. */
  lemma ReadRecordIsColumns(p: Processed, now: DateTime)
    requires Valid(now)
    ensures ReadFields(ToDict(p), now) == Columns(p.machineName, p.user, p.dominio, p.ip,
      JStr(p.os), JStr(p.ram), JStr(p.storage), p.software, p.ultimaAtualizacao, now)
  {
    FieldsOfRecord(p);
  }

  /** A record stamped with `isoformat()` of a valid datetime stores that datetime. */
  lemma StoredTimestampOfRecord(t: Table, p: Processed, now: DateTime, sent: DateTime)
    requires Consistent(t) && Valid(now) && Valid(sent)
    requires p.ultimaAtualizacao == JStr(IsoFormat(sent))
    requires Ingest(t, p, now).1.SavedOk?
    ensures var r := Ingest(t, p, now);
      r.0.rows[r.1.machineId].fields.ultimaAtualizacao == Some(sent)
  {
    ColumnsOfRecord(p, now);
    IsoFormatHasNoZ(sent);
    IsoRoundTrip(sent);
  }

  /**
   * The timestamp an agent sends, its clock's `isoformat()`, is stored as
   * the same datetime.
   */
  lemma StoredTimestampIsAgentClock(t: Table, data: Json, now: DateTime, sent: DateTime)
    requires Consistent(t) && Valid(now) && Valid(sent)
    requires data.JObj?
    requires Lookup(data.fields, "timestamp_coleta") == Some(JStr(IsoFormat(sent)))
    requires SaveInventoryRoute(t, Some(data), now).1.SavedOk?
    ensures var r := SaveInventoryRoute(t, Some(data), now);
      r.0.rows[r.1.machineId].fields.ultimaAtualizacao == Some(sent)
  {
    StoredTimestampOfRecord(t, ProcessAgentData(data, now).value, now, sent);
  }

  /** A snapshot without a timestamp is stamped with the server clock. */
  lemma StoredTimestampDefaultsToNow(t: Table, data: Json, now: DateTime)
    requires Consistent(t) && Valid(now)
    requires data.JObj? && !HasKey(data.fields, "timestamp_coleta")
    requires SaveInventoryRoute(t, Some(data), now).1.SavedOk?
    ensures var r := SaveInventoryRoute(t, Some(data), now);
      r.0.rows[r.1.machineId].fields.ultimaAtualizacao == Some(now)
  {
    StoredTimestampOfRecord(t, ProcessAgentData(data, now).value, now, now);
  }

  // ---------------------------------------------------------------------
  // GET /api/machines_dashboard
  // ---------------------------------------------------------------------

  /**
   * One element of the dashboard listing. The two datetimes are rendered
   * by `str()`: a space-separated `isoformat`, and `"None"` for a NULL.
   */
  datatype Entry = Entry(
    id: nat,
    nomeComputador: Cell,
    dominio: Cell,
    usuario: Cell,
    dataColeta: string,
    ip: Cell,
    so: Cell,
    ram: Cell,
    armazenamento: Cell,
    software: Json,
    ultimaAtualizacao: string,
    online: bool,
    emCompliance: bool,
    mesReferencia: string)

  /** `str(v)` of a nullable datetime column. */
  function StrOfStamp(last: Option<DateTime>): (s: string)
    requires last.Some? ==> Valid(last.value)
    ensures last.None? <==> s == "None"
  {
    match last
    case None => "None"
    case Some(dt) => StrFormat(dt)
  }

  /** How a client reads an entry's datetime text back: `fromisoformat`, with `"None"` for no value. */
  function ReadEntryStamp(s: string): Option<DateTime> {
    match IsoParse(s)
    case Some(p) => Some(p.dt)
    case None => None
  }

  /** The rendered last update reads back as the stored value, NULL included. */
  lemma EntryStampRoundTrip(last: Option<DateTime>)
    requires last.Some? ==> Valid(last.value)
    ensures ReadEntryStamp(StrOfStamp(last)) == last
  {
    if last.Some? {
      StrRoundTrip(last.value);
    }
  }

  /** A stored last-update value as the dashboard receives it from the driver. */
  function StampOf(row: Row): (st: Stamp)
    ensures row.fields.ultimaAtualizacao.None? <==> st.NoStamp?
    ensures row.fields.ultimaAtualizacao.Some? ==> st == AtTime(row.fields.ultimaAtualizacao.value)
  {
    match row.fields.ultimaAtualizacao
    case None => NoStamp
    case Some(dt) => AtTime(dt)
  }

  /**
   * One machine's entry: the stored columns pass through, the datetimes as
   * `str()` text; `online` holds iff the last update is at most five
   * minutes before `now`, `em_compliance` iff it falls in the calendar month
   * of `now`; a machine that never reported is neither.
   */
  function DashboardEntry(row: Row, now: DateTime): (e: Entry)
    requires RowValid(row) && Valid(now)
    ensures var f := row.fields;
      && e.id == row.id && e.nomeComputador == f.name && e.dominio == f.dominio
      && e.usuario == f.usuario && e.ip == f.ip && e.so == f.so && e.ram == f.ram
      && e.armazenamento == f.armazenamento && e.software == f.software
    ensures ReadEntryStamp(e.dataColeta) == Some(row.dataColeta)
    ensures ReadEntryStamp(e.ultimaAtualizacao) == row.fields.ultimaAtualizacao
    ensures e.ultimaAtualizacao == "None" <==> row.fields.ultimaAtualizacao.None?
    ensures var last := row.fields.ultimaAtualizacao;
      && (e.online <==> last.Some? && Instant(now) - Instant(last.value) <= HeartbeatMicros)
      && (e.emCompliance <==> last.Some? && last.value.year == now.year && last.value.month == now.month)
    ensures e.mesReferencia == ReferenceMonth(now)
  {
    var f := row.fields;
    EntryStampRoundTrip(Some(row.dataColeta));
    EntryStampRoundTrip(f.ultimaAtualizacao);
    Entry(row.id, f.name, f.dominio, f.usuario, StrOfStamp(Some(row.dataColeta)),
          f.ip, f.so, f.ram, f.armazenamento, f.software, StrOfStamp(f.ultimaAtualizacao),
          OnlineAt(f.ultimaAtualizacao, now), CompliantAt(f.ultimaAtualizacao, now),
          ReferenceMonth(now))
  }

  /** The entries of a listing, in its order. */
  function Entries(rows: seq<Row>, now: DateTime): (r: seq<Entry>)
    requires Valid(now) && forall i :: 0 <= i < |rows| ==> RowValid(rows[i])
    ensures |r| == |rows|
    ensures forall i :: 0 <= i < |rows| ==> r[i] == DashboardEntry(rows[i], now)
  {
    seq(|rows|, i requires 0 <= i < |rows| => DashboardEntry(rows[i], now))
  }

  /** `machines_dashboard`: one entry per row of the listing, in its order. */
  function MachinesDashboard(t: Table, now: DateTime): (r: seq<Entry>)
    requires Consistent(t) && Valid(now)
    ensures var rows := GetAllMachines(t, TableName);
      |r| == |rows| && forall i :: 0 <= i < |r| ==> RowValid(rows[i]) && r[i] == DashboardEntry(rows[i], now)
  {
    ListingIsTable(t);
    Entries(GetAllMachines(t, TableName), now)
  }

  /** Every entry is for a stored machine, with that machine's flags. */
  lemma DashboardEntriesAreMachines(t: Table, now: DateTime, i: nat)
    requires Consistent(t) && Valid(now)
    requires i < |MachinesDashboard(t, now)|
    ensures var e := MachinesDashboard(t, now)[i];
      e.id in t.rows && e == DashboardEntry(t.rows[e.id], now)
  {
    ListingIsTable(t);
  }

  /** Every stored machine has an entry. */
  lemma DashboardListsEveryMachine(t: Table, now: DateTime, id: nat)
    requires Consistent(t) && Valid(now)
    requires id in t.rows
    ensures exists i :: 0 <= i < |MachinesDashboard(t, now)| && MachinesDashboard(t, now)[i].id == id
  {
    ListingIsTable(t);
    var rows := GetAllMachines(t, TableName);
    var i :| 0 <= i < |rows| && rows[i] == t.rows[id];
    var e := MachinesDashboard(t, now)[i];
    assert e == DashboardEntry(rows[i], now);
    assert e.id == rows[i].id;
  }

  /** The entries come most recently updated first; machines that never reported come last. */
  lemma DashboardIsMostRecentFirst(t: Table, now: DateTime, i: nat, j: nat)
    requires Consistent(t) && Valid(now)
    requires i < j < |MachinesDashboard(t, now)|
    ensures NotOlder(ReadEntryStamp(MachinesDashboard(t, now)[i].ultimaAtualizacao),
                     ReadEntryStamp(MachinesDashboard(t, now)[j].ultimaAtualizacao))
  {
    var rows := GetAllMachines(t, TableName);
    assert SortedByRecency(rows);
    assert NotOlder(rows[i].fields.ultimaAtualizacao, rows[j].fields.ultimaAtualizacao);
  }

  // ---------------------------------------------------------------------
  // GET /api/machine/<id>
  // ---------------------------------------------------------------------

  /** `get_machine`: 200 with the row, or 404. */
  function GetMachineRoute(t: Table, id: nat): (r: (nat, Option<Row>))
    requires Consistent(t)
    ensures r.0 == 200 || r.0 == 404
    ensures r.0 == 200 <==> id in t.rows
    ensures r.0 == 200 ==> r.1 == Some(t.rows[id]) && r.1.value.id == id
    ensures r.0 == 404 ==> r.1.None?
  {
    match GetMachineById(t, id)
    case Some(row) => (200, Some(row))
    case None => (404, None)
  }

  // ---------------------------------------------------------------------
  // DELETE /api/machine/<id>
  // ---------------------------------------------------------------------

  /** The replies of the delete route. */
  datatype DeleteReply =
    | NotFound
    | Deleted(id: nat, nome: Cell, ultimaAtualizacao: Option<DateTime>, diasInativo: int)

  /** `(now - last).days` for a stored last update, 0 when there is none. */
  function WholeDaysSince(last: Option<DateTime>, now: DateTime): (d: int)
    requires Valid(now) && (last.Some? ==> Valid(last.value))
    ensures last.None? ==> d == 0
    ensures last.Some? ==>
      d * MicrosPerDay <= Instant(now) - Instant(last.value) < (d + 1) * MicrosPerDay
  {
    match last
    case None => 0
    case Some(dt) => (Instant(now) - Instant(dt)) / MicrosPerDay
  }

  /**
   * `delete_machine` route: 404 and no change for an absent id; otherwise
   * the row is removed and the reply carries its name, last update and the
   * whole days since that update.
   */
  function DeleteRoute(t: Table, id: nat, now: DateTime): (r: (Table, DeleteReply))
    requires Consistent(t) && Valid(now)
    ensures Consistent(r.0)
    ensures r.1.NotFound? <==> id !in t.rows
    ensures r.1.NotFound? ==> r.0 == t
    ensures r.1.Deleted? ==> (
      && r.0.rows == t.rows - {id}
      && r.1.id == id
      && r.1.nome == t.rows[id].fields.name
      && r.1.ultimaAtualizacao == t.rows[id].fields.ultimaAtualizacao
      && Ok(r.1.diasInativo) == DaysInactive(StampOf(t.rows[id]), now))
    ensures r.1.Deleted? && r.1.ultimaAtualizacao.None? ==> r.1.diasInativo == 0
    ensures r.1.Deleted? && r.1.ultimaAtualizacao.Some? ==>
      var elapsed := Instant(now) - Instant(r.1.ultimaAtualizacao.value);
      r.1.diasInativo * MicrosPerDay <= elapsed < (r.1.diasInativo + 1) * MicrosPerDay
  {
    match GetMachineById(t, id)
    case None => (t, NotFound)
    case Some(row) =>
      var days := WholeDaysSince(row.fields.ultimaAtualizacao, now);
      (DeleteMachine(t, id).0, Deleted(id, row.fields.name, row.fields.ultimaAtualizacao, days))
  }
}

=== FILE: status.dfy ===
/**
 * The dashboard's derived status of a machine (`check_monthly_compliance`,
 * the `online` flag and `mes_referencia` of `machines_dashboard`, and the
 * days-inactive count of the delete route), all computed from the stored
 * last-update value and the server clock.
 */
module Status {
  import opened Base
  import opened Time

  /** The `ultima_atualizacao` value as Python sees it: `None`, a `datetime`, or text. */
  datatype Stamp = NoStamp | AtTime(dt: DateTime) | AsText(text: string)

  /** The heartbeat window: `timedelta(minutes=5)` in microseconds. */
  const HeartbeatMicros := 5 * 60 * MicrosPerSecond

  /** The datetime a truthy stamp denotes; text goes through `fromisoformat(s.replace('Z', '+00:00'))`. */
  function ReadStamp(st: Stamp): (r: Option<Parsed>)
    ensures st.NoStamp? || st == AsText([]) ==> r.None?
    ensures st.AtTime? ==> r == Some(Parsed(st.dt, None))
    ensures st.AsText? && r.Some? ==> IsoParse(ReplaceZ(st.text)) == r
  {
    match st
    case NoStamp => None
    case AtTime(dt) => Some(Parsed(dt, None))
    case AsText(s) => if s == [] then None else IsoParse(ReplaceZ(s))
  }

  /**
   * `check_monthly_compliance`: reported in the calendar month of `now`.
   * Falsy, unparseable: false. The offset of an aware value is ignored:
   * only its own year and month fields are compared.
   */
  function Compliant(st: Stamp, now: DateTime): (b: bool)
    ensures b <==> (ReadStamp(st).Some?
      && ReadStamp(st).value.dt.year == now.year && ReadStamp(st).value.dt.month == now.month)
  {
    match st
    case NoStamp => false
    case AtTime(dt) => dt.month == now.month && dt.year == now.year
    case AsText(s) =>
      if s == [] then false
      else
        match IsoParse(ReplaceZ(s))
        case None => false
        case Some(p) => p.dt.month == now.month && p.dt.year == now.year
  }

  /**
   * The `online` flag: at most five minutes between the last update and
   * `now`. Falsy or unparseable: false. Text with an offset parses to an
   * aware datetime, and subtracting it from the naive `now` raises, which the
   * dashboard also turns into false.
   */
  function Online(st: Stamp, now: DateTime): (b: bool)
    ensures b <==> (ReadStamp(st).Some? && ReadStamp(st).value.offset.None?
      && Instant(now) - Instant(ReadStamp(st).value.dt) <= HeartbeatMicros)
  {
    match st
    case NoStamp => false
    case AtTime(dt) => Instant(now) - Instant(dt) <= HeartbeatMicros
    case AsText(s) =>
      if s == [] then false
      else
        match IsoParse(ReplaceZ(s))
        case None => false
        case Some(p) => if p.offset.Some? then false else Instant(now) - Instant(p.dt) <= HeartbeatMicros
  }

  /**
   * `days_inactive` of the delete route: 0 for a falsy value, otherwise the
   * `.days` of `now - last`, i.e. the floor of the elapsed days. The parse
   * error and the naive/aware subtraction are not caught there.
   */
  function DaysInactive(st: Stamp, now: DateTime): (r: Result<int>)
    ensures r.Ok? && ReadStamp(st).Some? ==>
      var elapsed := Instant(now) - Instant(ReadStamp(st).value.dt);
      r.value * MicrosPerDay <= elapsed < (r.value + 1) * MicrosPerDay
    ensures st.NoStamp? || st == AsText([]) ==> r == Ok(0)
    ensures ReadStamp(st).Some? && ReadStamp(st).value.offset.None? ==> r.Ok?
    ensures st.AsText? && st.text != [] && ReadStamp(st).None? ==> r == Err(ValueError)
    ensures ReadStamp(st).Some? && ReadStamp(st).value.offset.Some? ==> r == Err(TypeError)
  {
    match st
    case NoStamp => Ok(0)
    case AtTime(dt) => Ok((Instant(now) - Instant(dt)) / MicrosPerDay)
    case AsText(s) =>
      if s == [] then Ok(0)
      else
        match IsoParse(ReplaceZ(s))
        case None => Err(ValueError)
        case Some(p) =>
          if p.offset.Some? then Err(TypeError)
          else Ok((Instant(now) - Instant(p.dt)) / MicrosPerDay)
  }

  /** The `online` flag for a value the driver returned as a naive datetime, or `None`. */
  function OnlineAt(last: Option<DateTime>, now: DateTime): (b: bool)
    ensures last.None? ==> !b
    ensures last.Some? ==> (b <==> Online(AtTime(last.value), now))
  {
    last.Some? && Instant(now) - Instant(last.value) <= HeartbeatMicros
  }

  /** Compliance for a value the driver returned as a naive datetime, or `None`. */
  function CompliantAt(last: Option<DateTime>, now: DateTime): (b: bool)
    ensures last.None? ==> !b
    ensures last.Some? ==> (b <==> Compliant(AtTime(last.value), now))
  {
    last.Some? && last.value.year == now.year && last.value.month == now.month
  }

  /** The datetime branch of the dashboard and of the compliance check. */
  lemma StoredValueFlags(last: Option<DateTime>, now: DateTime)
    ensures var st := if last.None? then NoStamp else AtTime(last.value);
      OnlineAt(last, now) == Online(st, now) && CompliantAt(last, now) == Compliant(st, now)
  {
  }

  /** `agora.strftime("%Y-%m")`. */
  function ReferenceMonth(now: DateTime): (s: string)
    requires Valid(now)
    ensures |s| == 7 && s[4] == '-'
    ensures Num(s, 0, 4) == Some(now.year) && Num(s, 5, 7) == Some(now.month)
  {
    YearMonthRoundTrip(now);
    YearMonth(now)
  }

  // ---------------------------------------------------------------------
  // Properties
  // ---------------------------------------------------------------------

  /** A machine that reports at `now` is online and in compliance. */
  lemma ReportingNowIsOnlineAndCompliant(now: DateTime)
    requires Valid(now)
    ensures Online(AtTime(now), now) && Compliant(AtTime(now), now)
    ensures DaysInactive(AtTime(now), now) == Ok(0)
  {
  }

  /** Six minutes of silence is past the heartbeat window. */
  lemma SixMinutesIsOffline(last: DateTime, now: DateTime)
    requires Valid(last) && Valid(now)
    requires Instant(now) - Instant(last) == 6 * 60 * MicrosPerSecond
    ensures !Online(AtTime(last), now)
    ensures DaysInactive(AtTime(last), now) == Ok(0)
  {
  }

  /** The same month of another year is not the current month: both fields must match. */
  lemma OtherYearSameMonthNotCompliant(last: DateTime, now: DateTime)
    requires last.month == now.month && last.year != now.year
    ensures !Compliant(AtTime(last), now)
  {
  }

  /** A more recent update than an online one is online too. */
  lemma OnlineIsMonotone(a: DateTime, b: DateTime, now: DateTime)
    requires Valid(a) && Valid(b) && Valid(now)
    requires Online(AtTime(a), now) && Instant(a) <= Instant(b)
    ensures Online(AtTime(b), now)
  {
  }

  /**
   * The text the agent sends (`isoformat()` of its clock) gives the same
   * flags as the datetime it denotes: the string branch and the datetime
   * branch of the dashboard agree on it.
   */
  lemma AgentTextAgreesWithDatetime(dt: DateTime, now: DateTime)
    requires Valid(dt) && Valid(now)
    ensures Compliant(AsText(IsoFormat(dt)), now) == Compliant(AtTime(dt), now)
    ensures Online(AsText(IsoFormat(dt)), now) == Online(AtTime(dt), now)
    ensures DaysInactive(AsText(IsoFormat(dt)), now) == DaysInactive(AtTime(dt), now)
  {
    var s := IsoFormat(dt);
    IsoFormatHasNoZ(dt);
    IsoRoundTrip(dt);
    IsoTextReads(dt);
    var a := DaysInactive(AsText(s), now);
    var b := DaysInactive(AtTime(dt), now);
    FloorUnique(a.value, b.value, Instant(now) - Instant(dt));
  }

  /** The agent's `isoformat()` text reads back as the naive datetime it came from. */
  lemma IsoTextReads(dt: DateTime)
    requires Valid(dt)
    ensures ReadStamp(AsText(IsoFormat(dt))) == Some(Parsed(dt, None))
  {
    IsoFormatHasNoZ(dt);
    IsoRoundTrip(dt);
  }

  lemma FloorUnique(a: int, b: int, e: int)
    requires a * MicrosPerDay <= e < (a + 1) * MicrosPerDay
    requires b * MicrosPerDay <= e < (b + 1) * MicrosPerDay
    ensures a == b
  {
  }

  /** A "Z"-suffixed text is aware after the replacement, so it is never online. */
  lemma ZuluTextNeverOnline(s: string, now: DateTime)
    requires Valid(now)
    requires IsoParse(ReplaceZ(s)).Some? && IsoParse(ReplaceZ(s)).value.offset.Some?
    ensures !Online(AsText(s), now)
  {
    assert s != [];
  }
}

=== FILE: store.dfy ===
/**
 * The machine store (`DatabaseManager`), with the `maquinas` table held as
 * a map from id to row and the auto-increment counter beside it. Values
 * are converted the way the MySQL driver converts Python values; a value it
 * refuses aborts the save, the transaction is rolled back and nothing changes.
 */
module Store {
  import opened Base
  import opened Json
  import opened Time

  /** A text column: SQL `NULL` or a string. */
  datatype Cell = Null | Text(s: string)

  /** The non-key columns a save writes. */
  datatype Fields = Fields(
    name: Cell,               // nome_computador
    dominio: Cell,
    usuario: Cell,
    ip: Cell,
    so: Cell,
    ram: Cell,
    armazenamento: Cell,
    software: Json,           // the document `json.dumps` serialises
    ultimaAtualizacao: Option<DateTime>)

  datatype Row = Row(id: nat, fields: Fields, dataColeta: DateTime)

  /** The table and the next auto-increment value. */
  datatype Table = Table(rows: map<nat, Row>, nextId: nat)

  datatype Saved = Saved(table: Table, id: nat)

  const TableName := "maquinas"

  /** An empty table; MySQL's auto-increment starts at 1. */
  const EmptyTable := Table(map[], 1)

  predicate RowValid(r: Row) {
    && Valid(r.dataColeta)
    && (r.fields.ultimaAtualizacao.Some? ==> Valid(r.fields.ultimaAtualizacao.value))
  }

  /** Every row sits under its own id, below the counter, with valid datetimes. */
  predicate Consistent(t: Table) {
    && t.nextId >= 1
    && forall id :: id in t.rows ==> 1 <= id < t.nextId && t.rows[id].id == id && RowValid(t.rows[id])
  }

  /** At most one row per non-NULL machine name. */
  predicate NamesUnique(t: Table) {
    forall a, b :: (a in t.rows && b in t.rows && t.rows[a].fields.name.Text?
      && t.rows[a].fields.name == t.rows[b].fields.name) ==> a == b
  }

  // ---------------------------------------------------------------------
  // Value conversion
  // ---------------------------------------------------------------------

  /** A Python value bound to a text column; lists and dicts are refused by the driver. */
  function ToCell(j: Json): (r: Result<Cell>)
    ensures r.Err? <==> (j.JArr? || j.JObj?)
    ensures j.JStr? ==> r == Ok(Text(j.s))
    ensures j.JNull? ==> r == Ok(Null)
  {
    match j
    case JNull => Ok(Null)
    case JStr(s) => Ok(Text(s))
    case JNum(n) => Ok(Text(IntToString(n)))
    case JBool(b) => Ok(Text(if b then "1" else "0"))
    case _ => Err(DatabaseError)
  }

  /**
   * `ultima_atualizacao`: text is parsed after replacing "Z" and falls back to
   * `now` when unparseable; `None` stays NULL; any other value is refused.
   */
  function LastUpdateColumn(j: Json, now: DateTime): (r: Result<Option<DateTime>>)
    requires Valid(now)
    ensures r.Ok? && r.value.Some? ==> Valid(r.value.value)
    ensures j.JStr? ==> r.Ok? && r.value.Some?
    ensures j.JStr? && IsoParse(ReplaceZ(j.s)).None? ==> r == Ok(Some(now))
    ensures j.JStr? && IsoParse(ReplaceZ(j.s)).Some? ==> r == Ok(Some(IsoParse(ReplaceZ(j.s)).value.dt))
    ensures j.JNull? <==> r == Ok(None)
  {
    match j
    case JStr(s) =>
      (match IsoParse(ReplaceZ(s))
       case Some(p) => Ok(Some(p.dt))
       case None => Ok(Some(now)))
    case JNull => Ok(None)
    case _ => Err(DatabaseError)
  }

  /** A value the driver can bind to a text column: anything but a list or dict. */
  predicate Bindable(j: Json) {
    !j.JArr? && !j.JObj?
  }

  /**
   * The record can be written: the text columns are bindable and the
   * timestamp is text or `None` (anything else reaches the driver as is).
   */
  predicate Storable(data: Json)
    requires data.JObj?
  {
    && Bindable(Field(data, "machine_name", JStr("Unknown")))
    && Bindable(Field(data, "user", JStr("N/A")))
    && Bindable(Field(data, "dominio", JStr("")))
    && Bindable(Field(data, "ip", JStr("N/A")))
    && Bindable(Field(data, "os", JStr("N/A")))
    && Bindable(Field(data, "ram", JStr("N/A")))
    && Bindable(Field(data, "storage", JStr("N/A")))
    && var u := Field(data, "ultima_atualizacao", JNull); (u.JStr? || u.JNull?)
  }

  /**
   * The column values `save_inventory` extracts from the record, with its
   * defaults. Every refusal is the driver's, so all of them are the same
   * `DatabaseError`; a record that is not a dict fails at its first `.get`.
   */
  function ReadFields(data: Json, now: DateTime): (r: Result<Fields>)
    requires Valid(now)
    ensures !data.JObj? ==> r == Err(AttributeError)
    ensures data.JObj? ==> (r.Ok? <==> Storable(data))
    ensures data.JObj? && r.Err? ==> r.error == DatabaseError
    ensures r.Ok? && r.value.ultimaAtualizacao.Some? ==> Valid(r.value.ultimaAtualizacao.value)
  {
    if !data.JObj? then Err(AttributeError)
    else
      Columns(Field(data, "machine_name", JStr("Unknown")), Field(data, "user", JStr("N/A")),
              Field(data, "dominio", JStr("")), Field(data, "ip", JStr("N/A")),
              Field(data, "os", JStr("N/A")), Field(data, "ram", JStr("N/A")),
              Field(data, "storage", JStr("N/A")), Field(data, "software", JArr([])),
              Field(data, "ultima_atualizacao", JNull), now)
  }

  /** The driver's conversion of the nine values `save_inventory` binds. */
  function Columns(name: Json, usuario: Json, dominio: Json, ip: Json, so: Json, ram: Json,
                   armazenamento: Json, software: Json, ultima: Json, now: DateTime): (r: Result<Fields>)
    requires Valid(now)
    ensures r.Ok? <==> (Bindable(name) && Bindable(usuario) && Bindable(dominio) && Bindable(ip)
      && Bindable(so) && Bindable(ram) && Bindable(armazenamento) && (ultima.JStr? || ultima.JNull?))
    ensures r.Err? ==> r.error == DatabaseError
    ensures r.Ok? ==> r.value == Fields(ToCell(name).value, ToCell(dominio).value, ToCell(usuario).value,
      ToCell(ip).value, ToCell(so).value, ToCell(ram).value, ToCell(armazenamento).value, software,
      LastUpdateColumn(ultima, now).value)
    ensures r.Ok? && r.value.ultimaAtualizacao.Some? ==> Valid(r.value.ultimaAtualizacao.value)
  {
    var cells := [ToCell(name), ToCell(usuario), ToCell(dominio), ToCell(ip), ToCell(so), ToCell(ram),
                  ToCell(armazenamento)];
    var stamp := LastUpdateColumn(ultima, now);
    if (forall i :: 0 <= i < |cells| ==> cells[i].Ok?) && stamp.Ok? then
      Ok(Fields(cells[0].value, cells[2].value, cells[1].value, cells[3].value, cells[4].value,
                cells[5].value, cells[6].value, software, stamp.value))
    else Err(DatabaseError)
  }

  /** The store's defaults apply to the keys the record lacks. */
  lemma ReadFieldsDefaults(data: Json, now: DateTime)
    requires Valid(now) && ReadFields(data, now).Ok?
    ensures data.JObj?
    ensures var f := ReadFields(data, now).value;
      && (!HasKey(data.fields, "machine_name") ==> f.name == Text("Unknown"))
      && (!HasKey(data.fields, "user") ==> f.usuario == Text("N/A"))
      && (!HasKey(data.fields, "dominio") ==> f.dominio == Text(""))
      && (!HasKey(data.fields, "ip") ==> f.ip == Text("N/A"))
      && (!HasKey(data.fields, "os") ==> f.so == Text("N/A"))
      && (!HasKey(data.fields, "ram") ==> f.ram == Text("N/A"))
      && (!HasKey(data.fields, "storage") ==> f.armazenamento == Text("N/A"))
      && (!HasKey(data.fields, "software") ==> f.software == JArr([]))
      && (!HasKey(data.fields, "ultima_atualizacao") ==> f.ultimaAtualizacao.None?)
  {
  }

  // ---------------------------------------------------------------------
  // Lookup by name: SELECT id FROM maquinas WHERE nome_computador = %s
  // ---------------------------------------------------------------------

  /** The lowest id in `[lo, hi)` whose row has the given name. */
  function ScanName(rows: map<nat, Row>, name: Cell, lo: nat, hi: nat): (r: Option<nat>)
    ensures r.Some? ==> lo <= r.value < hi && r.value in rows && rows[r.value].fields.name == name
    ensures r.Some? ==> forall id :: lo <= id < r.value && id in rows ==> rows[id].fields.name != name
    ensures r.None? ==> forall id :: lo <= id < hi && id in rows ==> rows[id].fields.name != name
    decreases hi - lo
  {
    if lo >= hi then None
    else if lo in rows && rows[lo].fields.name == name then Some(lo)
    else ScanName(rows, name, lo + 1, hi)
  }

  /** `= NULL` is never true in SQL, so a NULL name finds no row. */
  function FindByName(t: Table, name: Cell): (r: Option<nat>)
    requires Consistent(t)
    ensures r.Some? ==> name.Text? && r.value in t.rows && t.rows[r.value].fields.name == name
    ensures r.None? ==> name.Null? || forall id :: id in t.rows ==> t.rows[id].fields.name != name
  {
    if name.Null? then None else ScanName(t.rows, name, 1, t.nextId)
  }

  // ---------------------------------------------------------------------
  // save_inventory: upsert keyed on nome_computador
  // ---------------------------------------------------------------------

  /**
   * Update the row with the same name in place (its id and name stay), or
   * insert a new row under the next id. `data_coleta` is set to `now` in
   * both cases. `Err` means the transaction was rolled back.
   */
  function SaveInventory(t: Table, data: Json, now: DateTime): (r: Result<Saved>)
    requires Consistent(t) && Valid(now)
    ensures r.Err? <==> ReadFields(data, now).Err?
    ensures r.Ok? ==> Consistent(r.value.table)
    ensures r.Ok? ==> var id := r.value.id; var rows := r.value.table.rows;
      && id in rows
      && rows[id] == Row(id, ReadFields(data, now).value, now)
      && rows.Keys == t.rows.Keys + {id}
      && (forall k :: k in t.rows && k != id ==> rows[k] == t.rows[k])
  {
    match ReadFields(data, now)
    case Err(e) => Err(e)
    case Ok(f) =>
      match FindByName(t, f.name)
      case Some(id) =>
        Ok(Saved(Table(t.rows[id := Row(id, f, now)], t.nextId), id))
      case None =>
        Ok(Saved(Table(t.rows[t.nextId := Row(t.nextId, f, now)], t.nextId + 1), t.nextId))
  }

  // ---------------------------------------------------------------------
  // Reads and delete
  // ---------------------------------------------------------------------

  /** `SELECT * FROM maquinas WHERE id = %s`. */
  function GetMachineById(t: Table, id: nat): (r: Option<Row>)
    requires Consistent(t)
    ensures r.Some? <==> id in t.rows
    ensures r.Some? ==> r.value.id == id && r.value == t.rows[id]
  {
    if id in t.rows then Some(t.rows[id]) else None
  }

  /** `SELECT * FROM maquinas WHERE nome_computador = %s`, first row. */
  function GetMachineByName(t: Table, name: string): (r: Option<Row>)
    requires Consistent(t)
    ensures r.Some? ==> (r.value.id in t.rows && t.rows[r.value.id] == r.value
      && r.value.fields.name == Text(name))
    ensures r.None? <==> forall id :: id in t.rows ==> t.rows[id].fields.name != Text(name)
  {
    match FindByName(t, Text(name))
    case Some(id) => Some(t.rows[id])
    case None => None
  }

  /** `DELETE FROM maquinas WHERE id = %s`; reports success whether or not the row existed. */
  function DeleteMachine(t: Table, id: nat): (r: (Table, bool))
    requires Consistent(t)
    ensures r.1
    ensures Consistent(r.0) && r.0.nextId == t.nextId
    ensures id !in r.0.rows && r.0.rows.Keys == t.rows.Keys - {id}
    ensures forall k :: k in r.0.rows ==> r.0.rows[k] == t.rows[k]
  {
    (Table(t.rows - {id}, t.nextId), true)
  }

  // ---------------------------------------------------------------------
  // get_all_machines: ORDER BY ultima_atualizacao DESC
  // ---------------------------------------------------------------------

  /** `a` is the same moment as `b` or later: DATETIME values compare field by field. */
  predicate AtOrAfter(a: DateTime, b: DateTime) {
    if a.year != b.year then a.year > b.year
    else if a.month != b.month then a.month > b.month
    else if a.day != b.day then a.day > b.day
    else if a.hour != b.hour then a.hour > b.hour
    else if a.minute != b.minute then a.minute > b.minute
    else if a.second != b.second then a.second > b.second
    else a.micro >= b.micro
  }

  /** `a` sorts no later than `b` in descending order; NULL is the smallest value. */
  predicate NotOlder(a: Option<DateTime>, b: Option<DateTime>) {
    b.None? || (a.Some? && AtOrAfter(a.value, b.value))
  }

  predicate SortedByRecency(s: seq<Row>) {
    forall i, j :: 0 <= i < j < |s| ==> NotOlder(s[i].fields.ultimaAtualizacao, s[j].fields.ultimaAtualizacao)
  }

  /** The rows with ids in `[lo, hi)`, in id order. */
  function RowsFrom(rows: map<nat, Row>, lo: nat, hi: nat): seq<Row>
    decreases hi - lo
  {
    if lo >= hi then []
    else (if lo in rows then [rows[lo]] else []) + RowsFrom(rows, lo + 1, hi)
  }

  function InsertByRecency(r: Row, s: seq<Row>): (out: seq<Row>)
    ensures multiset(out) == multiset(s) + multiset{r}
  {
    if s == [] then [r]
    else if NotOlder(s[0].fields.ultimaAtualizacao, r.fields.ultimaAtualizacao) then
      assert s == [s[0]] + s[1..];
      [s[0]] + InsertByRecency(r, s[1..])
    else [r] + s
  }

  /** Inserting into a sorted sequence keeps it sorted. */
  lemma {:induction false} InsertKeepsSorted(r: Row, s: seq<Row>)
    requires SortedByRecency(s)
    ensures SortedByRecency(InsertByRecency(r, s))
  {
    var out := InsertByRecency(r, s);
    if s == [] {
    } else if NotOlder(s[0].fields.ultimaAtualizacao, r.fields.ultimaAtualizacao) {
      var rest := InsertByRecency(r, s[1..]);
      InsertKeepsSorted(r, s[1..]);
      assert out == [s[0]] + rest;
      forall j | 0 < j < |out|
        ensures NotOlder(s[0].fields.ultimaAtualizacao, out[j].fields.ultimaAtualizacao)
      {
        assert out[j] == rest[j - 1];
        assert out[j] in multiset(rest);
        if out[j] != r {
          assert out[j] in multiset(s[1..]);
          var k :| 0 <= k < |s[1..]| && s[1..][k] == out[j];
          assert s[k + 1] == out[j];
        }
      }
    } else {
      assert out == [r] + s;
    }
  }

  function SortByRecency(s: seq<Row>): (out: seq<Row>)
    ensures multiset(out) == multiset(s)
  {
    if s == [] then []
    else
      assert s == [s[0]] + s[1..];
      InsertByRecency(s[0], SortByRecency(s[1..]))
  }

  lemma {:induction false} SortIsSorted(s: seq<Row>)
    ensures SortedByRecency(SortByRecency(s))
  {
    if s != [] {
      SortIsSorted(s[1..]);
      InsertKeepsSorted(s[0], SortByRecency(s[1..]));
    }
  }

  /** The set of rows with ids in `[lo, hi)`. */
  function RowsIn(rows: map<nat, Row>, lo: nat, hi: nat): set<Row> {
    set id | id in rows && lo <= id < hi :: rows[id]
  }

  lemma RowsInStep(rows: map<nat, Row>, lo: nat, hi: nat)
    requires lo < hi
    requires forall id :: id in rows ==> rows[id].id == id
    ensures lo in rows ==> RowsIn(rows, lo, hi) == RowsIn(rows, lo + 1, hi) + {rows[lo]}
    ensures lo in rows ==> rows[lo] !in RowsIn(rows, lo + 1, hi)
    ensures lo !in rows ==> RowsIn(rows, lo, hi) == RowsIn(rows, lo + 1, hi)
  {
  }

  lemma MultisetOfAddedSet(a: set<Row>, x: Row)
    requires x !in a
    ensures multiset(a + {x}) == multiset(a) + multiset{x}
  {
  }

  lemma {:induction false} RowsFromAreRowsIn(rows: map<nat, Row>, lo: nat, hi: nat)
    requires forall id :: id in rows ==> rows[id].id == id
    ensures multiset(RowsFrom(rows, lo, hi)) == multiset(RowsIn(rows, lo, hi))
    decreases hi - lo
  {
    if lo < hi {
      RowsFromAreRowsIn(rows, lo + 1, hi);
      RowsInStep(rows, lo, hi);
      if lo in rows {
        MultisetOfAddedSet(RowsIn(rows, lo + 1, hi), rows[lo]);
      }
    }
  }

  /**
   * Every row exactly once, most recent update first, or `[]` when the
   * query fails (here: the table name it is given does not exist).
   */
  function GetAllMachines(t: Table, table: string): (r: seq<Row>)
    requires Consistent(t)
    ensures table == TableName ==> SortedByRecency(r) && multiset(r) == multiset(t.rows.Values)
    ensures table != TableName ==> r == []
  {
    if table != TableName then []
    else
      RowsFromAreRowsIn(t.rows, 1, t.nextId);
      SortIsSorted(RowsFrom(t.rows, 1, t.nextId));
      assert RowsIn(t.rows, 1, t.nextId) == t.rows.Values;
      SortByRecency(RowsFrom(t.rows, 1, t.nextId))
  }

  /** A row of the table is one of its values. */
  lemma RowOfValues(t: Table, x: Row)
    requires Consistent(t) && x in t.rows.Values
    ensures x.id in t.rows && t.rows[x.id] == x
  {
  }

  /** The listing holds exactly the rows of the table. */
  lemma ListingIsTable(t: Table)
    requires Consistent(t)
    ensures var rows := GetAllMachines(t, TableName);
      && (forall i :: 0 <= i < |rows| ==> rows[i].id in t.rows && t.rows[rows[i].id] == rows[i])
      && (forall id :: id in t.rows ==> exists i :: 0 <= i < |rows| && rows[i] == t.rows[id])
  {
    var rows := GetAllMachines(t, TableName);
    forall i | 0 <= i < |rows|
      ensures rows[i].id in t.rows && t.rows[rows[i].id] == rows[i]
    {
      assert rows[i] in multiset(rows);
      RowOfValues(t, rows[i]);
    }
    forall id | id in t.rows
      ensures exists i :: 0 <= i < |rows| && rows[i] == t.rows[id]
    {
      assert t.rows[id] in t.rows.Values;
      assert t.rows[id] in multiset(rows);
    }
  }

  // ---------------------------------------------------------------------
  // Properties
  // ---------------------------------------------------------------------

  /** Saving a name that exists updates that row in place and returns its id. */
  lemma SaveExistingUpdatesInPlace(t: Table, data: Json, now: DateTime)
    requires Consistent(t) && Valid(now)
    requires SaveInventory(t, data, now).Ok?
    requires FindByName(t, ReadFields(data, now).value.name).Some?
    ensures var s := SaveInventory(t, data, now).value;
      && s.id == FindByName(t, ReadFields(data, now).value.name).value
      && s.table.rows.Keys == t.rows.Keys && s.table.nextId == t.nextId
      && s.table.rows[s.id].fields.name == t.rows[s.id].fields.name
  {
  }

  /** Saving a new name inserts exactly one row under the next id. */
  lemma SaveNewInsertsOne(t: Table, data: Json, now: DateTime)
    requires Consistent(t) && Valid(now)
    requires SaveInventory(t, data, now).Ok?
    requires FindByName(t, ReadFields(data, now).value.name).None?
    ensures var s := SaveInventory(t, data, now).value;
      && s.id == t.nextId && s.id !in t.rows
      && s.table.nextId == t.nextId + 1
      && |s.table.rows| == |t.rows| + 1
  {
  }

  /** An upsert keeps at most one row per machine name. */
  lemma SaveKeepsNamesUnique(t: Table, data: Json, now: DateTime)
    requires Consistent(t) && Valid(now) && NamesUnique(t)
    requires SaveInventory(t, data, now).Ok?
    ensures NamesUnique(SaveInventory(t, data, now).value.table)
  {
    var f := ReadFields(data, now).value;
    var s := SaveInventory(t, data, now).value;
    var rows := s.table.rows;
    forall a, b | a in rows && b in rows && rows[a].fields.name.Text? && rows[a].fields.name == rows[b].fields.name
      ensures a == b
    {
      if a != s.id && b != s.id {
      } else if FindByName(t, f.name).None? {
        assert f.name.Text? ==> forall id :: id in t.rows ==> t.rows[id].fields.name != f.name;
      }
    }
  }

  /** Two saves under the same name leave one row for it, under an unchanged id. */
  lemma SameNameTwiceKeepsId(t: Table, d1: Json, d2: Json, now1: DateTime, now2: DateTime)
    requires Consistent(t) && Valid(now1) && Valid(now2) && NamesUnique(t)
    requires SaveInventory(t, d1, now1).Ok?
    requires var s1 := SaveInventory(t, d1, now1).value;
      SaveInventory(s1.table, d2, now2).Ok?
    requires ReadFields(d1, now1).value.name.Text?
    requires ReadFields(d1, now1).value.name == ReadFields(d2, now2).value.name
    ensures var s1 := SaveInventory(t, d1, now1).value;
      var s2 := SaveInventory(s1.table, d2, now2).value;
      && s2.id == s1.id
      && s2.table.rows.Keys == s1.table.rows.Keys
      && s2.table.rows[s2.id].fields == ReadFields(d2, now2).value
  {
    var s1 := SaveInventory(t, d1, now1).value;
    var name := ReadFields(d1, now1).value.name;
    assert s1.table.rows[s1.id].fields.name == name;
    SaveKeepsNamesUnique(t, d1, now1);
    var found := FindByName(s1.table, name);
    assert found.Some?;
    assert found.value == s1.id;
  }

  /** A delete removes only that id, also when it was absent. */
  lemma DeleteThenLookup(t: Table, id: nat, other: nat)
    requires Consistent(t)
    ensures GetMachineById(DeleteMachine(t, id).0, id).None?
    ensures other != id ==> GetMachineById(DeleteMachine(t, id).0, other) == GetMachineById(t, other)
    ensures id !in t.rows ==> DeleteMachine(t, id).0 == t
  {
  }
}

=== FILE: time.dfy ===
/**
 * Calendar timestamps as Python's naive `datetime`, their position on the
 * time line in microseconds since 1970-01-01T00:00:00, the text that
 * `isoformat()` produces, and the part of `fromisoformat()` that reads it.
 */
module Time {
  import opened Base

  /** A civil date and time of day, as the fields of a `datetime`. */
  datatype DateTime = DateTime(year: int, month: int, day: int,
                               hour: int, minute: int, second: int, micro: int)

  /** An ISO timestamp as read: the civil fields and, when the text had one, its UTC offset in minutes. */
  datatype Parsed = Parsed(dt: DateTime, offset: Option<int>)

  const MicrosPerSecond := 1_000_000
  const MicrosPerDay := 86_400_000_000

  predicate IsLeap(y: int) {
    y % 4 == 0 && (y % 100 != 0 || y % 400 == 0)
  }

  function DaysInMonth(y: int, m: int): int
    requires 1 <= m <= 12
  {
    if m == 2 then (if IsLeap(y) then 29 else 28)
    else if m == 4 || m == 6 || m == 9 || m == 11 then 30
    else 31
  }

  /** The ranges `datetime` enforces on its fields. */
  predicate Valid(dt: DateTime) {
    && 1 <= dt.year <= 9999
    && 1 <= dt.month <= 12
    && 1 <= dt.day <= DaysInMonth(dt.year, dt.month)
    && 0 <= dt.hour < 24
    && 0 <= dt.minute < 60
    && 0 <= dt.second < 60
    && 0 <= dt.micro < MicrosPerSecond
  }

  /** Days from 1970-01-01 to the given proleptic Gregorian date (negative before it). */
  function DaysFromCivil(y: int, m: int, d: int): int {
    var y' := if m <= 2 then y - 1 else y;
    var era := y' / 400;
    var yoe := y' - era * 400;
    var mp := if m > 2 then m - 3 else m + 9;
    var doy := (153 * mp + 2) / 5 + d - 1;
    var doe := yoe * 365 + yoe / 4 - yoe / 100 + doy;
    era * 146097 + doe - 719468
  }

  /** The moment a valid naive `datetime` denotes, in microseconds since the epoch. */
  function Instant(dt: DateTime): int {
    var days := DaysFromCivil(dt.year, dt.month, dt.day);
    var secs := ((days * 24 + dt.hour) * 60 + dt.minute) * 60 + dt.second;
    secs * MicrosPerSecond + dt.micro
  }

  // ---------------------------------------------------------------------
  // isoformat()
  // ---------------------------------------------------------------------

  function DatePart(dt: DateTime): (s: string)
    requires Valid(dt)
    ensures |s| == 10
  {
    PadDigits(dt.year, 4) + "-" + PadDigits(dt.month, 2) + "-" + PadDigits(dt.day, 2)
  }

  function ClockPart(dt: DateTime): (s: string)
    requires Valid(dt)
    ensures |s| == 8
  {
    PadDigits(dt.hour, 2) + ":" + PadDigits(dt.minute, 2) + ":" + PadDigits(dt.second, 2)
  }

  /** `dt.isoformat()`: the fraction appears only when the microseconds are non-zero. */
  function IsoFormat(dt: DateTime): (s: string)
    requires Valid(dt)
  {
    DatePart(dt) + "T" + ClockPart(dt)
      + (if dt.micro == 0 then "" else "." + PadDigits(dt.micro, 6))
  }

  /** `str(dt)`: the same text as `isoformat()` with a space between date and time. */
  function StrFormat(dt: DateTime): (s: string)
    requires Valid(dt)
    ensures |s| == |IsoFormat(dt)| && s[10] == ' '
    ensures forall i :: 0 <= i < |s| && i != 10 ==> s[i] == IsoFormat(dt)[i]
  {
    DatePart(dt) + " " + ClockPart(dt)
      + (if dt.micro == 0 then "" else "." + PadDigits(dt.micro, 6))
  }

  /** `dt.strftime("%Y-%m")`, the dashboard's reference month. */
  function YearMonth(dt: DateTime): (s: string)
    requires Valid(dt)
    ensures |s| == 7 && s[4] == '-'
    ensures s == DatePart(dt)[..7]
  {
    PadDigits(dt.year, 4) + "-" + PadDigits(dt.month, 2)
  }

  // ---------------------------------------------------------------------
  // fromisoformat()
  // ---------------------------------------------------------------------

  /** The number written by the digits `s[lo..hi]`, if they are all digits. */
  function Num(s: string, lo: nat, hi: nat): (r: Option<nat>)
    requires lo <= hi <= |s|
    ensures r.Some? <==> AllDigits(s[lo..hi])
  {
    if AllDigits(s[lo..hi]) then Some(DigitsValue(s[lo..hi])) else None
  }

  /** `[+-]HH:MM` after the clock, or nothing. */
  function ParseOffset(s: string): Option<Option<int>> {
    if s == [] then Some(None)
    else if |s| != 6 || (s[0] != '+' && s[0] != '-') || s[3] != ':' then None
    else
      match (Num(s, 1, 3), Num(s, 4, 6))
      case (Some(hh), Some(mm)) =>
        if hh < 24 && mm < 60 then
          var minutes: int := hh * 60 + mm;
          Some(Some(if s[0] == '-' then -minutes else minutes))
        else None
      case _ => None
  }

  /** An optional `.ffffff` or `.fff` fraction, as microseconds, then the offset. */
  function ParseFraction(s: string): Option<(nat, Option<int>)> {
    if s == [] || s[0] != '.' then
      match ParseOffset(s)
      case Some(off) => Some((0, off))
      case None => None
    else if |s| >= 7 && AllDigits(s[1..7]) then
      match ParseOffset(s[7..])
      case Some(off) => Some((DigitsValue(s[1..7]), off))
      case None => None
    else if |s| >= 4 && AllDigits(s[1..4]) then
      match ParseOffset(s[4..])
      case Some(off) => Some((DigitsValue(s[1..4]) * 1000, off))
      case None => None
    else None
  }

  /** Everything after the date: nothing, or `THH:MM:SS` (or with a space) and the rest. */
  function ParseClock(s: string): Option<(nat, nat, nat, nat, Option<int>)> {
    if s == [] then Some((0, 0, 0, 0, None))
    else if |s| < 9 || (s[0] != 'T' && s[0] != ' ') || s[3] != ':' || s[6] != ':' then None
    else
      match (Num(s, 1, 3), Num(s, 4, 6), Num(s, 7, 9), ParseFraction(s[9..]))
      case (Some(h), Some(mi), Some(sec), Some((us, off))) => Some((h, mi, sec, us, off))
      case _ => None
  }

  /**
   * `datetime.fromisoformat(s)` for the forms `YYYY-MM-DD`, optionally followed
   * by `THH:MM:SS`, a 3- or 6-digit fraction and a `+HH:MM` offset; `None`
   * stands for the `ValueError` it raises on anything else.
   */
  function IsoParse(s: string): (r: Option<Parsed>)
    ensures r.Some? ==> Valid(r.value.dt)
  {
    if |s| < 10 || s[4] != '-' || s[7] != '-' then None
    else
      match (Num(s, 0, 4), Num(s, 5, 7), Num(s, 8, 10), ParseClock(s[10..]))
      case (Some(y), Some(mo), Some(d), Some((h, mi, sec, us, off))) =>
        var dt := DateTime(y, mo, d, h, mi, sec, us);
        if Valid(dt) then Some(Parsed(dt, off)) else None
      case _ => None
  }

  /** `s.replace('Z', '+00:00')`, applied before every parse on the server. */
  function ReplaceZ(s: string): (r: string)
    ensures !Contains(s, 'Z') ==> r == s
  {
    if s == [] then []
    else (if s[0] == 'Z' then "+00:00" else [s[0]]) + ReplaceZ(s[1..])
  }

  // ---------------------------------------------------------------------
  // Round trip
  // ---------------------------------------------------------------------

  lemma NumOfPadded(s: string, lo: nat, n: nat, w: nat)
    requires n < Pow10(w) && lo + w <= |s| && s[lo..lo + w] == PadDigits(n, w)
    ensures Num(s, lo, lo + w) == Some(n)
  {
    PadDigitsRoundTrip(n, w);
  }

  lemma ParseOfClockPart(dt: DateTime, sep: char, tail: string)
    requires Valid(dt) && (sep == 'T' || sep == ' ')
    requires ParseFraction(tail) == Some((dt.micro, None))
    ensures ParseClock([sep] + ClockPart(dt) + tail)
      == Some((dt.hour, dt.minute, dt.second, dt.micro, None))
  {
    var s := [sep] + ClockPart(dt) + tail;
    assert s[1..3] == PadDigits(dt.hour, 2);
    assert s[4..6] == PadDigits(dt.minute, 2);
    assert s[7..9] == PadDigits(dt.second, 2);
    assert s[9..] == tail;
    NumOfPadded(s, 1, dt.hour, 2);
    NumOfPadded(s, 4, dt.minute, 2);
    NumOfPadded(s, 7, dt.second, 2);
  }

  lemma ParseOfFraction(dt: DateTime)
    requires Valid(dt)
    ensures ParseFraction(if dt.micro == 0 then "" else "." + PadDigits(dt.micro, 6))
      == Some((dt.micro, None))
  {
    if dt.micro != 0 {
      var s := "." + PadDigits(dt.micro, 6);
      assert s[1..7] == PadDigits(dt.micro, 6);
      assert s[7..] == [];
      PadDigitsRoundTrip(dt.micro, 6);
    }
  }

  lemma ParseOfDatePart(dt: DateTime, rest: string)
    requires Valid(dt)
    ensures var s := DatePart(dt) + rest;
      && s[4] == '-' && s[7] == '-' && s[10..] == rest
      && Num(s, 0, 4) == Some(dt.year)
      && Num(s, 5, 7) == Some(dt.month)
      && Num(s, 8, 10) == Some(dt.day)
  {
    var s := DatePart(dt) + rest;
    assert s[0..4] == PadDigits(dt.year, 4);
    assert s[5..7] == PadDigits(dt.month, 2);
    assert s[8..10] == PadDigits(dt.day, 2);
    NumOfPadded(s, 0, dt.year, 4);
    NumOfPadded(s, 5, dt.month, 2);
    NumOfPadded(s, 8, dt.day, 2);
  }

  /** What the agent sends as `timestamp_coleta` is read back unchanged by the server. */
  lemma IsoRoundTrip(dt: DateTime)
    requires Valid(dt)
    ensures IsoParse(IsoFormat(dt)) == Some(Parsed(dt, None))
  {
    var frac := if dt.micro == 0 then "" else "." + PadDigits(dt.micro, 6);
    var rest := "T" + ClockPart(dt) + frac;
    assert IsoFormat(dt) == DatePart(dt) + rest;
    ParseOfDatePart(dt, rest);
    ParseOfFraction(dt);
    ParseOfClockPart(dt, 'T', frac);
  }

  /** `str(dt)` also reads back as the datetime it renders: `fromisoformat` accepts the space. */
  lemma StrRoundTrip(dt: DateTime)
    requires Valid(dt)
    ensures IsoParse(StrFormat(dt)) == Some(Parsed(dt, None))
  {
    var frac := if dt.micro == 0 then "" else "." + PadDigits(dt.micro, 6);
    var rest := " " + ClockPart(dt) + frac;
    assert StrFormat(dt) == DatePart(dt) + rest;
    ParseOfDatePart(dt, rest);
    ParseOfFraction(dt);
    ParseOfClockPart(dt, ' ', frac);
  }

  /** `isoformat()` never writes a `Z`, so the server's replacement leaves it alone. */
  lemma IsoFormatHasNoZ(dt: DateTime)
    requires Valid(dt)
    ensures ReplaceZ(IsoFormat(dt)) == IsoFormat(dt)
  {
    var s := IsoFormat(dt);
    forall i | 0 <= i < |s|
      ensures s[i] != 'Z'
    {
      var frac := if dt.micro == 0 then "" else "." + PadDigits(dt.micro, 6);
      if i >= 19 && dt.micro != 0 {
        assert s[19..] == frac;
        if i > 19 {
          assert s[i] == PadDigits(dt.micro, 6)[i - 20];
        }
      } else {
        assert i < 19;
        assert s[..19] == DatePart(dt) + "T" + ClockPart(dt);
      }
    }
  }

  /** The reference month reads back as the year and month it was made from. */
  lemma YearMonthRoundTrip(dt: DateTime)
    requires Valid(dt)
    ensures var s := YearMonth(dt);
      Num(s, 0, 4) == Some(dt.year) && Num(s, 5, 7) == Some(dt.month)
  {
    var s := YearMonth(dt);
    assert s[0..4] == PadDigits(dt.year, 4);
    assert s[5..7] == PadDigits(dt.month, 2);
    NumOfPadded(s, 0, dt.year, 4);
    NumOfPadded(s, 5, dt.month, 2);
  }
}
